=== FILE: README.md ===
# SenseVoice speech services, modelled in Dafny

SenseVoice is a web application for Bangla and English speech. It has two
back ends and a Next.js front end, and this project models the logic of each:

- **The FastAPI relay** (`api/main.py`). It turns text into speech through
  OpenAI's speech endpoint, and speech into text through OpenAI's
  transcription endpoint. It validates each request, builds the outbound
  call and reshapes the provider's reply into the public envelope. The
  audio comes back as a base 64 data URL.
- **The Supabase token check** (`api/supabase_auth_example.py`,
  `lib/supabase/jwt.ts`). It has a one-entry cache of the JSON Web Key Set,
  selects the key by key id and maps each failure to a status. It also
  covers the user record, the admin gate and the middleware variant that
  reads the `Authorization` header itself.
- **The Next.js routes**:
  - the OAuth and recovery callback;
  - forgot-password and reset-password;
  - the Gemini transcription route;
  - the two mail routes.
- **The client logic**:
  - the profile cache and sign-in state of the auth context;
  - the history page's filter, sort and download name;
  - the testimonial carousel;
  - the reset-password and profile pages;
  - the two playground panels.

The model is written as pure functions over immutable datatypes. The
following are parameters of each function rather than effects it performs:

- environment variables;
- the clock;
- every upstream answer (OpenAI, Gemini, Supabase, SMTP, the key-set
  download);
- the JWT libraries' verdicts.

A handler returns the outbound call it would make, if any, together with its
HTTP outcome. This lets "refused before the key is read" and "refused before
the provider is called" be stated as lemmas.

The files are:

- `common.dfy`: Option and Result.
- `text.dfy`: JavaScript and Python string operations. These cover
  `split` on a character and on runs of characters, `join`, ASCII
  lower-casing, `includes`, UTF-16 `length` and decimal rendering.
- `json.dfy`: JSON values, with Python's and JavaScript's truthiness.
- `base64.dfy`: base 64 encoding per section 4 of RFC 4648, with a decoder
  that proves the round trip.
- `uri.dfy`: `encodeURIComponent` over UTF-8, and its inverse.
- One file for each modelled source file: `relay.dfy`, `auth.dfy`,
  `bearer.dfy`, `callback.dfy`, `forgot.dfy`, `resetroute.dfy`,
  `asrroute.dfy`, `mail.dfy`, `authcontext.dfy`, `history.dfy`,
  `carousel.dfy`, `resetpage.dfy`, `profile.dfy`, `sttpanel.dfy`,
  `ttspanel.dfy`.

Two facts about the code's failure statuses shape several contracts:

- **The relay's failures are 500.** Both relay handlers wrap their work in
  `try` with a final `except Exception`, which turns every exception inside
  the `try` into 500. This includes a transport fault, a provider's non-200
  status and the 400 raised for an oversized upload. Only the checks before
  the `try` (the pydantic 422, the whitespace-text 400 and the extension
  400) reach the client with their own status.
- **Key-id failures in the Python token check are 500.** A missing or
  unknown key id is raised as 401 inside the `try`, then re-raised as 500
  by its `except Exception`.

## Model

| member | source | states |
|---|---|---|
| Relay.OpenAIVoice | api/main.py:150-161 | "female" maps to "nova" and "male" to "echo". The fallback "alloy" is returned exactly for ids missing from the voice map. |
| Relay.NarrationFor | api/main.py:182-204 | "bangla" and only "bangla" picks the Bengali narrator. "english" and only "english" picks the English one. Every other language gets the bilingual text. |
| Relay.Narrate | api/main.py:182-204 | Every instruction text starts with its narrator's opening sentence. |
| Relay.InstructionsMentionTone | api/main.py:164-204 | Every instruction text contains the tone description of the chosen voice. |
| Relay.InstructionsBranches | api/main.py:182-204 | "bangla", "english" and any other language give three different instruction texts for every voice. All other language strings give the same text. |
| Relay.ValidateApiKey | api/main.py:207-233 | The key is accepted exactly when it is set, non-empty and not the placeholder, and it is then returned unchanged. "Not configured" is reported exactly for an unset or empty key. |
| Relay.Fold | api/main.py:389-400 | The `except` clauses map every transport fault and every other exception to status 500. |
| Relay.ParseTtsRequest | api/main.py:68-76 | The request validates exactly when `text` is present with 1 to 5000 characters, and is otherwise refused with 422. The defaults are "english" and "female". |
| Relay.GenerateTts | api/main.py:285-400 | Errors are 400, 422 or 500. 400 means whitespace-only text. A call is made exactly for accepted text and a valid key, and it carries the request's text and that key. The request succeeds exactly when, in addition, the provider answers 200. |
| Relay.TtsTextCheckedFirst | api/main.py:313-316 | Rejected text gets the same answer for every key and provider outcome, with no call made. The whitespace case is 400. |
| Relay.TtsLaterFailuresAre500 | api/main.py:354-360 | After the text check every failure is 500. A non-200 provider status survives only inside the detail. |
| Relay.TtsTransportFaultsIndistinct | api/main.py:389-394 | A timeout and a refused connection both give 500. |
| Relay.TtsAudioRoundTrip | api/main.py:362-387 | The `audioUrl` of a success is the data-URL prefix followed by base 64 text that decodes to exactly the provider's audio bytes. The call carries the mapped voice and the instructions for the requested language. |
| Relay.FileExtension | api/main.py:453 | The extension is the lower-cased last '.'-piece of the file name, or "" when there is no name. It never contains '.'. |
| Relay.TranscribeAudio | api/main.py:414-559 | Errors are 400 or 500. 400 is given exactly for an extension outside the allow-list. A call is made exactly for an allowed extension, a valid key and at most 25 MiB, and carries that key, the file name and the size. The language hint is sent exactly when it is non-empty. The request succeeds exactly when a call was made and the provider answered 200 with a non-empty `text`. |
| Relay.AsrExtensionCheckedFirst | api/main.py:452-460 | An unsupported extension is refused with 400, whatever the size, key and provider. |
| Relay.AsrSizeBound | api/main.py:462-475 | With a valid extension and key, no call is made exactly when the size exceeds 25 MiB. An oversized upload is answered with 500, not 400. |
| Relay.AsrEnvelopeContents | api/main.py:529-545 | A success echoes the provider's text and the file's extension, and reports the hint or "auto-detect". Its `characterCount` reads back as the text's length. |
| Base64.Encode | api/main.py:368 | The encoding is empty exactly for no bytes, and is otherwise at least one four-character group drawn from the base 64 alphabet. |
| Base64.EncodeLength | api/main.py:368 | The encoding has 4·⌈n/3⌉ characters. |
| Base64.DecodeEncode | api/main.py:368-369 | Decoding the encoding gives back the bytes. |
| Base64.EncodeInjective | api/main.py:368 | Different byte strings have different encodings. |
| UriComponent.EncodeChars | app/auth/callback/route.ts:14 | The encoding holds only unreserved characters and '%' escapes. |
| UriComponent.EncodeUnreserved | app/auth/callback/route.ts:14 | A string of unreserved characters encodes to itself. |
| UriComponent.DecodeEncode | app/auth/callback/route.ts:43 | Decoding the encoding gives back the string. |
| SupabaseAuth.GetJwks | api/supabase_auth_example.py:26-39 | A filled cache is returned with no download. An empty cache downloads, and a downloaded key set is stored unless it is JSON `null`. A failed download leaves the cache empty and raises. |
| SupabaseAuth.RunGetJwks | api/supabase_auth_example.py:26-39 | Over a series of calls there is one result per call and at most one download per call. |
| SupabaseAuth.CachedKeySetIsFinal | api/supabase_auth_example.py:30-39 | Once a key set is cached, every later call returns it and no download is made. |
| SupabaseAuth.FirstDownloadIsFinal | api/supabase_auth_example.py:30-39 | Starting empty, when the first call downloads a non-null key set, that is the only download and every call returns it. |
| SupabaseAuth.FirstSuccessIsFinal | api/supabase_auth_example.py:30-39 | Starting empty, after any number of failed or `null` downloads, the first successful one is the last download. Every earlier call returned what it got, and every call from it on returns its key set. |
| SupabaseAuth.FailedDownloadsRetry | api/supabase_auth_example.py:30-39 | While downloads fail, every call downloads again and raises. |
| SupabaseAuth.ScanKeysFound | api/supabase_auth_example.py:72-78 | The key the search returns is the first entry whose `kid` equals the token's. |
| SupabaseAuth.ScanKeysFindsFirst | api/supabase_auth_example.py:72-78 | When a first match exists, the search finds it. |
| SupabaseAuth.ScanKeysNoMatch | api/supabase_auth_example.py:72-78 | "No match" is reported exactly when every entry has a `kid` that differs from the token's. |
| SupabaseAuth.SelectKey | api/supabase_auth_example.py:72-78 | A key is found only in a `keys` array, as the first match of the search. |
| SupabaseAuth.VerifySupabaseToken | api/supabase_auth_example.py:42-107 | Failures are 401 or 500, and 401 is always the challenged "invalid token". An unavailable key set gives 500. A token is accepted exactly when the key set is available, the header has a truthy `kid` whose key is found, and the library accepts it with audience "authenticated" and the project's issuer. The claims returned are the library's. |
| SupabaseAuth.JoseErrorsAre401 | api/supabase_auth_example.py:97-102 | An unreadable header, or a signature/expiry/audience/issuer rejection by the library, gives 401 with `WWW-Authenticate: Bearer`. |
| SupabaseAuth.KeyIdFailuresAre500 | api/supabase_auth_example.py:62-78 | A missing or unknown key id is answered with 500, without the challenge. |
| SupabaseAuth.CurrentUser | api/supabase_auth_example.py:110-122 | The record holds `id` = the `sub` claim and the `email` and `role` claims (null when absent), and the `user_metadata` claim as metadata, or `{}` without it. |
| SupabaseAuth.CurrentUserProjects | api/supabase_auth_example.py:110-122 | The user record depends only on the `sub`, `email`, `role` and `user_metadata` claims. |
| SupabaseAuth.RequireAdmin | api/supabase_auth_example.py:126-133 | The user passes exactly when the role is "admin", and is otherwise refused with 403. |
| SupabaseAuth.AdminGate | api/supabase_auth_example.py:186-195 | The admin route is reached exactly when the token verifies with role "admin". A verified non-admin gets 403. |
| SupabaseAuth.SecondField | api/supabase_auth_example.py:216 | `split(" ")[1]` of a "Bearer "-prefixed header contains no space. |
| SupabaseAuth.SecondFieldOfBearer | api/supabase_auth_example.py:216 | For a space-free token t, the header "Bearer " + t yields t. |
| SupabaseAuth.VerifyTokenManual | api/supabase_auth_example.py:202-235 | A missing header, or one without the "Bearer " prefix, yields nothing and leaves the cache alone. A yielded payload implies the prefix. |
| SupabaseAuth.ManualAgreesWithDependency | api/supabase_auth_example.py:202-235 | For "Bearer " + t and a truthy `kid`, the manual check accepts exactly what the dependency accepts, with the same claims and cache. |
| SupabaseAuth.ManualSkipsKeyIdCheck | api/supabase_auth_example.py:62-69 | A token without `kid` is a 500 for the dependency. The manual check accepts it when the scan reaches an entry whose `kid` is JSON `null` (every earlier entry having a non-null `kid` that does not match), and the library accepts the token under that key. |
| SupabaseAuth.AuthMiddleware | api/supabase_auth_example.py:245-278 | Exempt paths pass unchecked. A missing or empty header is refused with 401. Every refusal is 401. A passed request carries the non-empty payload of the manual check. |
| SupabaseAuth.MiddlewarePassesVerifiedOnly | api/supabase_auth_example.py:245-278 | A checked request passes exactly when a header is present and the manual check yields a non-empty payload. Any other refusal with a header is "invalid or expired". |
| BearerHeader.ExtractBearerToken | lib/supabase/jwt.ts:45-54 | A missing or empty header gives no token. A token never contains a space. |
| BearerHeader.ExtractWritten | lib/supabase/jwt.ts:45-54 | Reading back the header "Bearer " + t gives t, for every space-free t. |
| BearerHeader.ExtractIff | lib/supabase/jwt.ts:45-54 | A header is accepted exactly when it is "Bearer " followed by a space-free token, and it is then exactly "Bearer " + the token. |
| BearerHeader.ParsersDisagreeOnExtraFields | lib/supabase/jwt.ts:45-54 | On three or more fields, the TypeScript parser refuses the header while the Python one takes the second field. |
| BearerHeader.ParsersDisagreeExample | api/supabase_auth_example.py:216 | On "Bearer a b", TypeScript gives no token and Python gives "a". |
| BearerHeader.ParsersAgreeOnTwoFields | lib/supabase/jwt.ts:45-54 | Wherever the TypeScript parser accepts a header, the Python parser reads the same token. |
| BearerHeader.VerifySupabaseJwt | lib/supabase/jwt.ts:22-38 | The token is accepted exactly when the library accepts it for the project's issuer and audience "authenticated". Every failure is "Invalid or expired token". |
| AuthCallback.Callback | app/auth/callback/route.ts:4-49 | An `error_code` redirects to the login page with the description or "Authentication failed". The code is exchanged exactly when there is a code and no error code. The user is looked up only after a successful exchange. |
| AuthCallback.CallbackCases | app/auth/callback/route.ts:25-48 | A recovery sign-in lands on /reset-password. Any other sign-in lands on `next` or /playground. A failed exchange goes to the login page with the provider's message. Everything else goes to /login. |
| AuthCallback.ErrorMessageRoundTrip | app/auth/callback/route.ts:41-44 | The login page decodes exactly the message that was put into the redirect. |
| AuthCallback.OpenRedirect | app/auth/callback/route.ts:37 | As written, `next=.evil.example` sends a user of https://app.example to https://app.example.evil.example, which is off the site. |
| AuthCallback.SafeLanding | app/auth/callback/route.ts:37 | The corrected landing page is always the origin followed by a path. |
| AuthCallback.SafeCallbackStaysOnSite | app/auth/callback/route.ts:4-49 | Every redirect of the corrected route stays on the site. |
| AuthCallback.SafeCallbackAgrees | app/auth/callback/route.ts:37 | The corrected route agrees with the original whenever `next` is absent, empty or a path. |
| ForgotPassword.EmailCheckIsPattern | app/api/auth/forgot-password/route.ts:21-27 | The split-based address check accepts exactly the strings of `^[^\s@]+@[^\s@]+\.[^\s@]+$`. |
| ForgotPassword.AcceptedShape | app/api/auth/forgot-password/route.ts:21-27 | An accepted address has no whitespace, exactly one '@', and a '.' with text on both sides after the '@'. |
| ForgotPassword.RedirectTo | app/api/auth/forgot-password/route.ts:32-39 | The reset link is the site URL, or http://localhost:3000 when it is unset or empty, followed by /reset-password. |
| ForgotPassword.Forgot | app/api/auth/forgot-password/route.ts:8-62 | A missing email gives 400 "required" and a malformed one 400 "invalid". A reset mail is requested exactly for a string that matches the pattern. The reply is the generic message, unless the request threw (then 500). |
| ForgotPassword.NoAccountEnumeration | app/api/auth/forgot-password/route.ts:41-54 | Whether Supabase sent the mail or reported an error, the caller sees the same outcome. |
| ForgotPassword.RedirectOnSite | app/api/auth/forgot-password/route.ts:32-39 | The reset link is the site followed by exactly /reset-password. |
| ResetPasswordRoute.ResetRoute | app/api/auth/reset-password/route.ts:8-63 | A missing password gives 400 and fewer than eight code units gives 400. The session is looked up exactly for an acceptable password. The update is sent exactly with a user and no error, and carries the body's password. A bad session gives 401. A throw gives 500. |
| ResetPasswordRoute.UpdateDecides | app/api/auth/reset-password/route.ts:40-50 | After a good lookup, success means the update succeeded. An update error gives 400 with its message or the fallback. A throw gives 500. |
| ResetPasswordRoute.RefusedBeforeLookup | app/api/auth/reset-password/route.ts:13-25 | A refused password gives a 400 whatever the session and the update would have done. |
| GeminiTranscribe.WordCount | app/api/asr/transcribe/route.ts:57 | `split(/\s+/).length` is at least 1. |
| GeminiTranscribe.NonBlankCount | app/api/asr/transcribe/route.ts:59 | At most one per piece. None is counted exactly when every piece is blank, and all exactly when none is. |
| GeminiTranscribe.NonBlankCountSingle | app/api/asr/transcribe/route.ts:59 | A single piece counts one exactly when it is not blank. |
| GeminiTranscribe.NonBlankCountAppend | app/api/asr/transcribe/route.ts:59 | The count of a concatenation is the sum of the counts. With the single-piece case this makes it the number of non-blank pieces. |
| GeminiTranscribe.Measure | app/api/asr/transcribe/route.ts:57-59 | The metadata holds the `split(/\s+/)` word count (at least 1), the UTF-16 length and the non-blank sentence count, and echoes language and mode. |
| GeminiTranscribe.RawTranscription | app/api/asr/transcribe/route.ts:30 | The raw transcription is `audioText` when it is truthy, and the fixed sentence otherwise. |
| GeminiTranscribe.Transcribe | app/api/asr/transcribe/route.ts:4-82 | An unreadable body gives 500. No URL and no text gives 400. Gemini is asked exactly with an input and a real key, and a missing key gives 500. A success carries Gemini's text, the raw text and its measures. Errors are 400 or 500. |
| GeminiTranscribe.InputCheckedFirst | app/api/asr/transcribe/route.ts:8-13 | Without an input, the reply is the same for every key and every model outcome. |
| GeminiTranscribe.WordsRejoin | app/api/asr/transcribe/route.ts:57 | The words rejoined with single spaces are the text with each whitespace run collapsed. No word holds whitespace. |
| GeminiTranscribe.NoSentences | app/api/asr/transcribe/route.ts:59 | No sentence is counted exactly when the text holds only whitespace and '.', '!', '?'. |
| MailRoutes.TextOr | app/api/contact/route.ts:17-22 | `${v \|\| fallback}` is the value's text when it is truthy, and the fallback otherwise. |
| MailRoutes.SendMail | app/api/contact/route.ts:5-29 | Success means the body was read and the mail delivered. A success has no message, and every failure is 500 "Failed to send email". A mail is attempted exactly when the body was read. It is addressed to the route's recipient, with the subject and body text built from the fields, so SubjectNamesCompany and BodyReadsBack describe the mail handed to the transport. |
| MailRoutes.Contact | app/api/contact/route.ts:17-22 | The contact route mails info@sensevoice.ai. |
| MailRoutes.SendEmail | app/api/send-email/route.ts:18-26 | The send-email route mails its own fixed address. |
| MailRoutes.SubjectNamesCompany | app/api/contact/route.ts:17-22 | The subject is "SenseVoice \| " followed by the company, or by "No Company". |
| MailRoutes.MessageLineIff | app/api/contact/route.ts:17-22 | The message line is empty exactly without a message, and otherwise reads back as the message. |
| MailRoutes.BodyReadsBack | app/api/contact/route.ts:17-22 | When no field holds a line break, the body splits back into its four lines. |
| MailRoutes.RoutesDifferOnlyInRecipient | app/api/send-email/route.ts:5-30 | The two routes send the same mail to different recipients and answer alike. |
| AuthContext.SetProfileCache | lib/auth-context.tsx:51-57 | The cache holds the profile under the profile's own id. |
| AuthContext.ClearProfileCache | lib/auth-context.tsx:59-65 | The cleared cache holds no profile and no id. |
| AuthContext.StoredProfileValid | lib/auth-context.tsx:41-57 | A stored profile is valid exactly for its own id, for five minutes after it was stored. |
| AuthContext.ClearedCacheInvalid | lib/auth-context.tsx:43-49 | The cleared cache is valid for no id at any time. |
| AuthContext.CachedProfile | lib/auth-context.tsx:118-128 | A profile is served exactly when the cache is valid for the session's user, and it is the cached profile. |
| AuthContext.CacheRoundTrip | lib/auth-context.tsx:43-57 | Within the lifetime, the cache gives back the stored profile. |
| AuthContext.DisplayName | lib/auth-context.tsx:159-169 | The display name is never empty, and is the name whenever that is truthy. Without a name, a missing e-mail gives "User", and an address with no '@' shows in full ("User" if it is empty). |
| AuthContext.DisplayNameFromEmail | lib/auth-context.tsx:169 | Without a name, "local@domain" shows as "local", and as "User" when the local part is empty. |
| AuthContext.FromRow | lib/auth-context.tsx:165-174 | The profile keeps the row's id, e-mail and avatar, and takes its display name. |
| AuthContext.Fallback | lib/auth-context.tsx:152-164 | The profile keeps the Supabase user's id, its e-mail (or "") and avatar, and takes its display name. |
| AuthContext.FetchUserProfile | lib/auth-context.tsx:140-180 | A found row becomes the user. On an error, the Supabase user captured by the callback's closure, if any, becomes the user. A changed user is cached. No row, or an error without a captured Supabase user, changes nothing. |
| AuthContext.FetchedProfileCached | lib/auth-context.tsx:165-174 | A fetched profile is served from the cache for its id. |
| AuthContext.SessionStarted | lib/auth-context.tsx:79-138 | On the mount-time paths the session's user is stored. A found row becomes the user. Otherwise the user and cache are left as they were, because the first render's fetch captured no Supabase user. |
| AuthContext.MountFetchSkipsFallback | lib/auth-context.tsx:91-93 | From the signed-out state, an unreadable row leaves `user` null beside a set Supabase user, so nobody is authenticated. |
| AuthContext.SessionStartedFixed | lib/auth-context.tsx:152-164 | With the session's own user as the fallback, an error gives its fallback profile. A found row gives the row's profile. |
| AuthContext.FixedSessionSignsIn | lib/auth-context.tsx:152-174 | With the fix, an error or the session user's row signs the user in, and the cache serves that profile. A found row is handled as before. |
| AuthContext.RefreshUser | lib/auth-context.tsx:183-188 | Without a Supabase user nothing changes. With one, the cache is cleared and the profile fetched again, with the fallback to that Supabase user on an error. |
| AuthContext.Merge | lib/auth-context.tsx:253-259 | Each supplied field replaces the user's field, and every other field is kept. |
| AuthContext.MergeIdempotent | lib/auth-context.tsx:253-259 | Applying a patch twice is applying it once. The empty patch changes nothing. |
| AuthContext.UpdateUser | lib/auth-context.tsx:253-259 | Without a user nothing changes. With one, the user becomes the merge and is cached. |
| AuthContext.UpdatedUserCached | lib/auth-context.tsx:253-259 | After an update, the cache serves the updated user. |
| AuthContext.SignedOut | lib/auth-context.tsx:241-251 | Signing out forgets both users. |
| AuthContext.SignedOutForgets | lib/auth-context.tsx:94-98 | Once signed out, nobody is authenticated and no cached profile is served. |
| AuthContext.UpdateKeepsAuthentication | lib/auth-context.tsx:267 | An update keeps the authentication status. |
| History.Filter | app/history/page.tsx:136-141 | The result holds exactly the matching items, taken from the list and none longer than it. |
| History.FilterAppend | app/history/page.tsx:136-141 | Filtering a concatenation is filtering each part, in order. |
| History.FilterSingle | app/history/page.tsx:136-141 | A single item is kept exactly when it matches. |
| History.EmptyQueryKeepsAll | app/history/page.tsx:136-141 | An empty query under "all" keeps the whole list. |
| History.Insert | app/history/page.tsx:144-157 | Insertion keeps the list sorted and adds exactly the one item. |
| History.Sort | app/history/page.tsx:144-157 | The result is sorted by the mode's key and is a permutation of the input. |
| History.SortOrders | app/history/page.tsx:144-157 | Newest and oldest order by date, descending and ascending. Longest and shortest order by word count, likewise. |
| History.Shown | app/history/page.tsx:136-157 | The shown list is sorted, holds only matching items, and is a permutation of the filtered list. |
| History.SafeName | app/history/page.tsx:112 | The stem is the first 30 UTF-16 units or fewer, each an ASCII letter, digit or '_'. |
| History.SafeNameOfPlainText | app/history/page.tsx:112 | On text inside the Basic Multilingual Plane, letters and digits are kept in place and everything else becomes '_'. |
| History.DownloadName | app/history/page.tsx:112-121 | The download name has at most 34 characters. |
| History.DownloadNameParts | app/history/page.tsx:112-121 | The name is a safe stem followed by ".txt" or ".mp3" by type. A plain name of up to 30 characters is kept as is. |
| Carousel.Next | components/clients.tsx:62-70 | The next index stays in range and wraps from the last card to the first. |
| Carousel.Prev | components/clients.tsx:189 | The previous index stays in range and wraps from the first card to the last. |
| Carousel.ArrowsInverse | components/clients.tsx:189-198 | The two arrows undo each other. |
| Carousel.NextTimes | components/clients.tsx:62-70 | Any number of ticks stays in range. |
| Carousel.NextTimesWraps | components/clients.tsx:62-70 | Up to a full turn, k ticks move k places and wrap once. |
| Carousel.FullTurn | components/clients.tsx:62-70 | Six ticks (n in general) come back to the start. |
| Carousel.Position | components/clients.tsx:101-111 | The position lies in -1..n-2 and is the offset from the current card modulo n. |
| Carousel.UniqueCentre | components/clients.tsx:101-111 | With two or more cards, the centre card is the current one and no other. |
| Carousel.SidesAreNeighbours | components/clients.tsx:101-111 | The cards right and left of centre are exactly where the arrows lead. |
| Carousel.ThreeVisible | components/clients.tsx:101-111 | With three or more cards, exactly three are shown: the current card and its two neighbours. |
| Carousel.GoToSlide | components/clients.tsx:72-74 | The dot's index becomes current and the pause flag is kept. |
| Carousel.Tick | components/clients.tsx:62-70 | A paused carousel stays put. Otherwise a tick is the right arrow. |
| Carousel.Hover | components/clients.tsx:96-97 | The pointer entering pauses and leaving resumes, keeping the index. |
| Carousel.Step | components/clients.tsx:189-214 | Every event keeps the index among the six cards. |
| Carousel.Run | components/clients.tsx:62-214 | Every sequence of events keeps the index among the six cards. |
| ResetPasswordPage.PasswordStrength | app/reset-password/page.tsx:53-60 | Weak exactly below six units. Strong exactly with ten or more units, an upper-case letter and a digit. |
| ResetPasswordPage.ShownStrength | app/reset-password/page.tsx:62 | No label exactly for an empty password. |
| ResetPasswordPage.StrengthMonotone | app/reset-password/page.tsx:53-60 | Typing more never lowers the strength. |
| ResetPasswordPage.Submit | app/reset-password/page.tsx:64-108 | The session is checked, then the match, then the length. The password is posted exactly when all three pass. |
| ResetPasswordPage.PostedPasswordAccepted | app/reset-password/page.tsx:64-108 | A password the page posts passes the route's checks, so the route looks the session up. |
| ResetPasswordPage.FailureMessage | app/reset-password/page.tsx:94-97 | A message is shown exactly for a failure: the route's error, when that is non-empty. |
| ResetPasswordPage.RouteErrorsShown | app/reset-password/page.tsx:94-97 | Every error of the route reaches the form unchanged. |
| ProfilePage.PasswordChange | app/profile/page.tsx:73-115 | Mismatched fields, then fewer than eight units, are refused without a request. Otherwise the current and new passwords are sent. Success clears the three fields. A failure shows the server's message or the fallback. |
| ProfilePage.PasswordChangeKeepsProfileFields | app/profile/page.tsx:73-115 | The password handler never touches the name, e-mail or edit flag, and never leaves both a success and an error. |
| ProfilePage.Cancel | app/profile/page.tsx:226-233 | Cancel leaves edit mode, restores the user's name and e-mail, and clears both messages. |
| ProfilePage.ProfileUpdate | app/profile/page.tsx:40-71 | The name and e-mail are sent. Success applies `updateUser` and leaves edit mode. A failure keeps the sign-in state and shows the message or the fallback. |
| ProfilePage.CancelAfterUpdateShowsUpdatedUser | app/profile/page.tsx:40-71 | After a successful update, Cancel shows the updated name and e-mail. |
| SpeechToTextPanel.Check | components/playground/speech-to-text-panel.tsx:43-58 | A type is unsupported exactly when its extension is empty or unlisted. A file is too large exactly when it is listed and over 25 MiB. |
| SpeechToTextPanel.ValidateAndSetFile | components/playground/speech-to-text-panel.tsx:43-69 | A refused file leaves the panel as it was. An accepted one is stored with its object URL. |
| SpeechToTextPanel.RemoveFile | components/playground/speech-to-text-panel.tsx:71-78 | Removal clears the file, the URL and the transcription, and keeps the language. |
| SpeechToTextPanel.RemoveUndoesUpload | components/playground/speech-to-text-panel.tsx:43-78 | Removing right after an upload leaves no trace of the upload. |
| SpeechToTextPanel.SameRulesAsRelay | components/playground/speech-to-text-panel.tsx:45-54 | The panel and the relay share the allow-list, the limit and the extension rule. |
| SpeechToTextPanel.PanelAcceptsIffRelayCalls | components/playground/speech-to-text-panel.tsx:43-58 | With a valid key, the panel accepts a file exactly when the relay would call the provider for it. |
| SpeechToTextPanel.TranscribeForm | components/playground/speech-to-text-panel.tsx:100-117 | No request is made without a file. The language is sent exactly when it is neither empty nor "auto". |
| SpeechToTextPanel.AutoSendsNoHint | components/playground/speech-to-text-panel.tsx:114-117 | With "auto", no language hint is sent. |
| SpeechToTextPanel.WordCount | components/playground/speech-to-text-panel.tsx:360 | The word count is at least 1. |
| SpeechToTextPanel.CharacterCount | components/playground/speech-to-text-panel.tsx:360 | The count is `length` in UTF-16 units: between the number of characters and twice it, and equal to the number of characters exactly when none lies outside the Basic Multilingual Plane. |
| SpeechToTextPanel.WordCountIsSpacesPlusOne | components/playground/speech-to-text-panel.tsx:360 | The word count is the number of spaces plus one. |
| TextToAudioPanel.FileUpload | components/playground/text-to-audio-panel.tsx:40-54 | A file is stored exactly when its extension is in the document list. Otherwise the panel is unchanged. |
| TextToAudioPanel.UploadIgnoresCase | components/playground/text-to-audio-panel.tsx:46 | A name and its lower-cased form have the same extension. |
| TextToAudioPanel.GenerateBody | components/playground/text-to-audio-panel.tsx:56-77 | Nothing is sent exactly for empty text in text mode. Otherwise the typed text, language and voice are posted. |
| TextToAudioPanel.OtherModesPostTypedText | components/playground/text-to-audio-panel.tsx:56-77 | `handleGenerate` on its own, called in file or link mode with an empty box, still posts it, and the relay refuses it with 422. The page never reaches this, because those mode buttons are disabled. |
| TextToAudioPanel.Apply | components/playground/text-to-audio-panel.tsx:146-192 | The disabled File and Link buttons do nothing, so text mode is kept. Typing in text mode sets the text. Language and voice are untouched. |
| TextToAudioPanel.StaysInTextMode | components/playground/text-to-audio-panel.tsx:146-173 | Whatever the user does, the panel stays in text mode. |
| TextToAudioPanel.ClickGenerate | components/playground/text-to-audio-panel.tsx:254-258 | A click gets through exactly when not generating and the box is not empty, and then posts what `handleGenerate` posts: the typed text. |
| TextToAudioPanel.ClickedBodyHasText | components/playground/text-to-audio-panel.tsx:146-258 | On the page, every posted request comes from text mode with a non-empty text. |
| TextToAudioPanel.VoicesAreMapped | components/playground/text-to-audio-panel.tsx:25-28 | Every voice offered is in the relay's map, so the fallback voice is never used. |
| TextToAudioPanel.LanguagesDistinct | components/playground/text-to-audio-panel.tsx:245-247 | The three language options reach three different narrators. |
| TextToAudioPanel.Defaults | components/playground/text-to-audio-panel.tsx:35-36 | The defaults are Bangla and the female voice, so the Bengali narrator speaks as "nova". |

## Left out

- Outbound HTTP (OpenAI, Gemini, Supabase, the key-set download) and SMTP delivery: each is a parameter carrying its outcome.
- Timeouts, connection pooling and concurrency: the outcome parameters already cover a timeout and a refused connection.
- The cryptography of JSON Web Tokens (python-jose, jose): the library's verdict is a function parameter. The model states which key, audience and issuer are passed.
- FastAPI's `HTTPBearer` answer for a missing header (403): this is framework behaviour outside `verify_supabase_token`.
- Floating-point and clock-dependent envelope fields: `audioSize`, the file size in MB, `timestamp` and the Gemini route's `confidence` are cosmetic and do not drive any decision.
- The `speed` field of the speech payload, a constant 1.0.
- The Gemini prompt text and model name: they only shape the model's output, which is a parameter.
- The texts of exception messages that quote Python exceptions (`str(e)`): only the kind of failure is kept in the detail.
- Unicode case mapping: lower-casing is ASCII only. The extension lists of the relay and of both panels are ASCII, so their verdicts are unchanged.
- History.Filter: the search ignores case for ASCII letters only. JavaScript's `toLowerCase` maps other letters too, so on the page the query "é" finds an item named "É" while the model's filter drops it.
- Fractional JSON numbers: numbers are integers, and no modelled decision reads a fraction.
- React effects, timers, subscriptions, router pushes, `alert`s, loading flags and the `isFetchingProfile` guard: these are event wiring around the modelled handlers.
- `login`, `signup` and the background refresh in `checkAuth`: they call Supabase and feed the same `fetchUserProfile` that is modelled.
- The history page's sample data, `formatDate`, and the NaN of an invalid date: dates are given as their millisecond value.
- AuthContext.Merge: a patch field explicitly set to `undefined` is not modelled, since `ProfilePatch` leaves a field out or supplies a value.
- The text-to-audio panel's file and link modes: their buttons are disabled, so the page stays in text mode (TextToAudioPanel.StaysInTextMode). The upload check is modelled, but the document and the link are never sent.
- The server side of `/api/auth/update-profile` and `/api/auth/change-password`: those routes are not part of this model; only the profile page's handling of their answers is.
- History.Sort: its contract states sortedness and permutation but not stability, although the insertion it is built from keeps equal keys in order.
- Carousel.UniqueCentre: stated for two cards or more. With a single card, that card sits at position -1; the list always holds six.

## Findings

| source | as written | input that shows it | evidently intended | confidence | as-written member | corrected member |
|---|---|---|---|---|---|---|
| app/auth/callback/route.ts:37 | the `next` query parameter is appended to the origin unchecked | `next=.evil.example` on https://app.example redirects to https://app.example.evil.example | only a `next` that is a path (starts with '/') is followed, else /playground | not executed | AuthCallback.OpenRedirect | AuthCallback.SafeCallbackStaysOnSite |
| lib/auth-context.tsx:79-180 | the mount-time listener and `checkAuth` call the first render's `fetchUserProfile`, whose `supabaseUser` is null, so its fallback never runs there | a signed-in user without a readable `profiles` row: `setSupabaseUser(session.user)` runs, the query errors, and `user` stays null | a missing profile falls back to the session's own Supabase user | not executed | AuthContext.MountFetchSkipsFallback | AuthContext.FixedSessionSignsIn |

=== FILE: asrroute.dfy ===
/**
 `POST /api/asr/transcribe` (`app/api/asr/transcribe/route.ts`): the
 Gemini-backed transcription route. It checks its inputs and the Gemini key,
 takes `audioText` (or a fixed sentence) as the raw transcription, has Gemini
 rewrite it, and counts words, characters and sentences of the rewrite.
 The model call is an outcome passed in; the prompt is not modelled.
 */
module GeminiTranscribe {
  import opened Common
  import opened Text
  import opened JsonValues

  /** The destructured body; a field the body lacks is `None`. */
  datatype AsrFields = AsrFields(audioUrl: Option<Json>, audioText: Option<Json>,
                                 language: Option<Json>, mode: Option<Json>)

  /** What `model.generateContent(prompt)` and `response.text()` gave: the
      text, or a throw with its message (`None` when it has none). */
  datatype Generation = Generated(text: string) | GenerationThrew(message: Option<string>)

  datatype Metadata = Metadata(words: nat, characters: nat, sentences: nat,
                               language: Option<Json>, mode: Option<Json>)

  datatype AsrReply =
    | Transcribed(transcription: string, rawTranscription: Json, metadata: Metadata)
    | AsrFailure(status: int, error: string)

  /** The reply and whether Gemini was asked. */
  datatype AsrOutcome = AsrOutcome(modelCalled: bool, reply: AsrReply)

  const InputRequired: string := "Audio URL or text is required"
  const KeyPlaceholder: string := "your_gemini_api_key_here"
  const KeyMissing: string :=
    "Gemini API key is not configured. " + "Please add your API key to .env.local"
  const SimulatedText: string := "This is a simulated transcription from your audio."
  const TranscribeFailed: string := "Failed to transcribe audio"
  const SentenceEnds: set<char> := {'.', '!', '?'}

  /** `split(/\s+/).length`. */
  function WordCount(text: string): (n: nat)
    ensures n >= 1
  {
    |SplitRuns(text, JsWhitespace)|
  }

  /** The number of pieces with something other than whitespace in them:
      `filter(s => s.trim()).length`. None is counted exactly when every
      piece is blank, and all are exactly when none is. */
  function NonBlankCount(ps: seq<string>): (n: nat)
    ensures n <= |ps|
    ensures n == 0 <==> forall i | 0 <= i < |ps| :: AllIn(ps[i], JsWhitespace)
    ensures n == |ps| <==> forall i | 0 <= i < |ps| :: !AllIn(ps[i], JsWhitespace)
    decreases |ps|
  {
    if |ps| == 0 then 0
    else
      assert forall i | 1 <= i < |ps| :: ps[i] == ps[1..][i - 1];
      (if AllIn(ps[0], JsWhitespace) then 0 else 1) + NonBlankCount(ps[1..])
  }

  /** One piece counts one exactly when it is not blank. */
  lemma NonBlankCountSingle(p: string)
    ensures NonBlankCount([p]) == if AllIn(p, JsWhitespace) then 0 else 1
  {
  }

  /** The count of a concatenation is the sum of the counts, so the count is
      the number of non-blank pieces, one by one. */
  lemma {:induction false} NonBlankCountAppend(a: seq<string>, b: seq<string>)
    ensures NonBlankCount(a + b) == NonBlankCount(a) + NonBlankCount(b)
    decreases |a|
  {
    if |a| > 0 {
      assert (a + b)[1..] == a[1..] + b;
      NonBlankCountAppend(a[1..], b);
    } else {
      assert a + b == b;
    }
  }

  /** `split(/[.!?]+/).filter(s => s.trim()).length`. */
  function SentenceCount(text: string): nat {
    NonBlankCount(SplitRuns(text, SentenceEnds))
  }

  function Measure(text: string, f: AsrFields): (m: Metadata)
    ensures m.characters == Utf16Length(text)
    ensures m.words == WordCount(text) && m.words >= 1
    ensures m.sentences == SentenceCount(text)
    ensures m.language == f.language && m.mode == f.mode
  {
    Metadata(WordCount(text), Utf16Length(text), SentenceCount(text), f.language, f.mode)
  }

  /** `audioText || "This is a simulated transcription from your audio."`. */
  function RawTranscription(audioText: Option<Json>): (r: Json)
    ensures JsTruthy(audioText) ==> r == audioText.value
    ensures !JsTruthy(audioText) ==> r == JStr(SimulatedText)
  {
    if JsTruthy(audioText) then audioText.value else JStr(SimulatedText)
  }

  /** The handler. `body` is the destructured body, or the message of what
      reading it threw; `keyEnv` is `NEXT_PUBLIC_GEMINI_API_KEY`. */
  function Transcribe(body: Result<AsrFields, Option<string>>, keyEnv: Option<string>, generation: Generation)
    : (r: AsrOutcome)
    ensures body.Err? ==> r == AsrOutcome(false, AsrFailure(500, OrElse(body.error, TranscribeFailed)))
    ensures body.Ok? && !JsTruthy(body.value.audioUrl) && !JsTruthy(body.value.audioText) ==>
      r == AsrOutcome(false, AsrFailure(400, InputRequired))
    ensures r.modelCalled <==>
      body.Ok? && (JsTruthy(body.value.audioUrl) || JsTruthy(body.value.audioText))
      && Truthy(keyEnv) && keyEnv.value != KeyPlaceholder
    ensures body.Ok? && (JsTruthy(body.value.audioUrl) || JsTruthy(body.value.audioText)) && !r.modelCalled ==>
      r.reply == AsrFailure(500, KeyMissing)
    ensures r.reply.Transcribed? <==> r.modelCalled && generation.Generated?
    ensures r.reply.Transcribed? ==>
      && r.reply.transcription == generation.text
      && r.reply.rawTranscription == RawTranscription(body.value.audioText)
      && r.reply.metadata == Measure(generation.text, body.value)
    ensures r.reply.AsrFailure? ==> r.reply.status in {400, 500}
  {
    match body
    case Err(message) => AsrOutcome(false, AsrFailure(500, OrElse(message, TranscribeFailed)))
    case Ok(f) =>
      if !JsTruthy(f.audioUrl) && !JsTruthy(f.audioText) then AsrOutcome(false, AsrFailure(400, InputRequired))
      else if !Truthy(keyEnv) || keyEnv.value == KeyPlaceholder then AsrOutcome(false, AsrFailure(500, KeyMissing))
      else match generation
        case GenerationThrew(message) => AsrOutcome(true, AsrFailure(500, OrElse(message, TranscribeFailed)))
        case Generated(text) =>
          AsrOutcome(true, Transcribed(text, RawTranscription(f.audioText), Measure(text, f)))
  }

  /** Without an input the key is never looked at and Gemini never asked:
      the reply is the same for every key and every model outcome. */
  lemma InputCheckedFirst(f: AsrFields, k1: Option<string>, k2: Option<string>, g1: Generation, g2: Generation)
    requires !JsTruthy(f.audioUrl) && !JsTruthy(f.audioText)
    ensures Transcribe(Ok(f), k1, g1) == Transcribe(Ok(f), k2, g2)
  {
  }

  /** Rejoining the words with single spaces gives the text with every run
      of whitespace shrunk to one space; no word holds whitespace. */
  lemma WordsRejoin(text: string)
    ensures Join(SplitRuns(text, JsWhitespace), ' ') == Collapse(text, JsWhitespace, ' ')
    ensures forall i, j | 0 <= i < |SplitRuns(text, JsWhitespace)| && 0 <= j < |SplitRuns(text, JsWhitespace)[i]| ::
      SplitRuns(text, JsWhitespace)[i][j] !in JsWhitespace
  {
    SplitRunsIsSplitOfCollapse(text, JsWhitespace, ' ');
    JoinSplit(Collapse(text, JsWhitespace, ' '), ' ');
  }

  lemma BlankPiecesBlankConcat(ps: seq<string>)
    ensures (forall i | 0 <= i < |ps| :: AllIn(ps[i], JsWhitespace)) <==> AllIn(Concat(ps), JsWhitespace)
  {
    AllInMembers(Concat(ps), JsWhitespace);
    forall i | 0 <= i < |ps| ensures AllIn(ps[i], JsWhitespace) <==> forall c | c in ps[i] :: c in JsWhitespace {
      AllInMembers(ps[i], JsWhitespace);
    }
    forall x ensures x in Concat(ps) <==> exists i | 0 <= i < |ps| :: x in ps[i] {
      InConcat(ps, x);
    }
  }

  /** No sentence is counted exactly when the text holds nothing but
      whitespace and sentence ends. */
  lemma NoSentences(text: string)
    ensures SentenceCount(text) == 0 <==> forall i | 0 <= i < |text| :: text[i] in SentenceEnds || text[i] in JsWhitespace
  {
    var ps := SplitRuns(text, SentenceEnds);
    BlankPiecesBlankConcat(ps);
    ConcatSplitRuns(text, SentenceEnds);
    var w := Without(text, SentenceEnds);
    AllInMembers(w, JsWhitespace);
    forall x ensures x in w <==> x in text && x !in SentenceEnds {
      InWithout(text, SentenceEnds, x);
    }
    if forall i | 0 <= i < |text| :: text[i] in SentenceEnds || text[i] in JsWhitespace {
      forall c | c in w ensures c in JsWhitespace {
        var i :| 0 <= i < |text| && text[i] == c;
      }
    }
  }
}

=== FILE: auth.dfy ===
/**
 The Supabase token check of `api/supabase_auth_example.py`: a one-entry
 cache of the JSON Web Key Set, key selection by key id, the status codes of
 each failure, the user record and the admin gate, and the header-driven
 variant used by the middleware.

 The JWKS download is an outcome passed in per call. The JWT library is a
 parameter too: a token is described by its unverified header and by the
 claims `jwt.decode` would return for a given key, audience and issuer
 (`None` where the library raises `JWTError`: bad signature, expired,
 wrong audience or issuer).
 */
module SupabaseAuth {
  import opened Common
  import opened Text
  import opened JsonValues

  type Claims = map<string, Json>

  /** The project URL used when `NEXT_PUBLIC_SUPABASE_URL` is unset. */
  const DefaultSupabaseUrl: string := "https://eijcnqmuwhpkvnhgrrbr.supabase.co"

  /** `os.getenv(name, default)`: an empty value is kept, only an unset one
      is replaced. */
  function SupabaseUrl(env: Option<string>): string {
    env.GetOr(DefaultSupabaseUrl)
  }

  function JwksUrl(url: string): string { url + "/auth/v1/jwks" }

  /** The issuer every accepted token must name. */
  function Issuer(url: string): string { url + "/auth/v1" }

  /** The audience every accepted token must name. */
  const Audience: string := "authenticated"

  // ---------------------------------------------------------------------------
  // JWKS cache
  // ---------------------------------------------------------------------------

  /** What downloading `JwksUrl` gives: the parsed JSON body, or a failure
      (transport error, non-2xx status, body that is not JSON). */
  datatype Fetch = Fetched(doc: Json) | FetchFailed

  /** One call of `get_jwks`: the cache afterwards, the value returned
      (`None` when the call raised) and whether a download was made. */
  datatype JwksStep = JwksStep(cache: Option<Json>, jwks: Option<Json>, fetched: bool)

  /** `get_jwks`. The cache is Python's `None` when empty; a body that is
      JSON `null` is stored as `None` too, so it is downloaded again next time. */
  function GetJwks(cache: Option<Json>, fetch: Fetch): (st: JwksStep)
    ensures st.fetched <==> cache.None?
    ensures cache.Some? ==> st.cache == cache && st.jwks == cache
    ensures cache.None? && fetch.FetchFailed? ==> st.cache.None? && st.jwks.None?
    ensures cache.None? && fetch.Fetched? ==> st.jwks == Some(fetch.doc)
    ensures cache.None? && fetch.Fetched? && !fetch.doc.JNull? ==> st.cache == Some(fetch.doc)
    ensures cache.None? && fetch.Fetched? && fetch.doc.JNull? ==> st.cache.None?
    ensures st.cache.Some? ==> st.jwks == st.cache
  {
    if cache.Some? then JwksStep(cache, cache, false)
    else match fetch
      case FetchFailed => JwksStep(None, None, true)
      case Fetched(doc) => JwksStep(if doc.JNull? then None else Some(doc), Some(doc), true)
  }

  /** A series of `get_jwks` calls, the i-th offered download outcome
      `outcomes[i]`: the final cache, what each call returned, and how many
      downloads were made. */
  datatype Calls = Calls(cache: Option<Json>, results: seq<Option<Json>>, downloads: nat)

  function RunGetJwks(cache: Option<Json>, outcomes: seq<Fetch>): (r: Calls)
    ensures |r.results| == |outcomes|
    ensures r.downloads <= |outcomes|
    decreases |outcomes|
  {
    if |outcomes| == 0 then Calls(cache, [], 0)
    else
      var st := GetJwks(cache, outcomes[0]);
      var rest := RunGetJwks(st.cache, outcomes[1..]);
      Calls(rest.cache, [st.jwks] + rest.results, rest.downloads + if st.fetched then 1 else 0)
  }

  /** Once the cache holds a key set, every later call returns that same key
      set and no download is made, whatever the network would have done. */
  lemma {:induction false} CachedKeySetIsFinal(d: Json, outcomes: seq<Fetch>)
    ensures var r := RunGetJwks(Some(d), outcomes);
      && r.cache == Some(d)
      && r.downloads == 0
      && forall i | 0 <= i < |r.results| :: r.results[i] == Some(d)
    decreases |outcomes|
  {
    if |outcomes| > 0 {
      CachedKeySetIsFinal(d, outcomes[1..]);
    }
  }

  /** Starting empty, the first successful download (of a non-null body) is
      the one every call returns from then on; it is the only download. */
  lemma FirstDownloadIsFinal(d: Json, outcomes: seq<Fetch>)
    requires |outcomes| >= 1 && outcomes[0] == Fetched(d) && !d.JNull?
    ensures var r := RunGetJwks(None, outcomes);
      && r.cache == Some(d)
      && r.downloads == 1
      && forall i | 0 <= i < |r.results| :: r.results[i] == Some(d)
  {
    CachedKeySetIsFinal(d, outcomes[1..]);
    var r := RunGetJwks(None, outcomes);
    var rest := RunGetJwks(Some(d), outcomes[1..]);
    assert r.results == [Some(d)] + rest.results;
    forall i | 0 <= i < |r.results|
      ensures r.results[i] == Some(d)
    {
      if i > 0 {
        assert r.results[i] == rest.results[i - 1];
      }
    }
  }

  /** Starting empty, after any number of failed downloads (a failure or a
      JSON `null` body), the first successful download is the last one: each
      earlier call returned what it got, and every call from it on returns
      its key set. */
  lemma {:induction false} FirstSuccessIsFinal(k: nat, d: Json, outcomes: seq<Fetch>)
    requires k < |outcomes| && outcomes[k] == Fetched(d) && !d.JNull?
    requires forall i | 0 <= i < k :: outcomes[i] == FetchFailed || outcomes[i] == Fetched(JNull)
    ensures var r := RunGetJwks(None, outcomes);
      && r.cache == Some(d)
      && r.downloads == k + 1
      && (forall i | 0 <= i < k :: r.results[i] == (if outcomes[i] == FetchFailed then None else Some(JNull)))
      && forall i | k <= i < |r.results| :: r.results[i] == Some(d)
    decreases k
  {
    if k == 0 {
      FirstDownloadIsFinal(d, outcomes);
    } else {
      FirstSuccessIsFinal(k - 1, d, outcomes[1..]);
      var r := RunGetJwks(None, outcomes);
      var rest := RunGetJwks(None, outcomes[1..]);
      assert GetJwks(None, outcomes[0]).cache == None;
      assert r.results == [GetJwks(None, outcomes[0]).jwks] + rest.results;
      forall i | 1 <= i < |r.results|
        ensures r.results[i] == rest.results[i - 1]
      {
      }
    }
  }

  /** Failed downloads leave the cache empty: every call raises, and every call
      tries again. */
  lemma {:induction false} FailedDownloadsRetry(outcomes: seq<Fetch>)
    requires forall i | 0 <= i < |outcomes| :: outcomes[i] == FetchFailed
    ensures var r := RunGetJwks(None, outcomes);
      && r.cache == None
      && r.downloads == |outcomes|
      && forall i | 0 <= i < |r.results| :: r.results[i] == None
    decreases |outcomes|
  {
    if |outcomes| > 0 {
      FailedDownloadsRetry(outcomes[1..]);
      var r := RunGetJwks(None, outcomes);
      var rest := RunGetJwks(None, outcomes[1..]);
      assert r.results == [None] + rest.results;
      forall i | 0 <= i < |r.results|
        ensures r.results[i] == None
      {
        if i > 0 {
          assert r.results[i] == rest.results[i - 1];
        }
      }
    }
  }

  // ---------------------------------------------------------------------------
  // Key selection
  // ---------------------------------------------------------------------------

  /** The outcome of `next(k for k in jwks["keys"] if k["kid"] == kid)`:
      the first matching key, `StopIteration`, or an exception raised while
      looking (the key set or an entry before the match has the wrong shape). */
  datatype Selection = Found(key: Json) | NoMatch | Malformed

  /** `k["kid"]`, or `None` where that raises. */
  function KidOf(k: Json): Option<Json> {
    if k.JObj? && "kid" in k.fields then Some(k.fields["kid"]) else None
  }

  /** Every entry has a key id and none of them is `kid`. */
  predicate NoneMatch(keys: seq<Json>, kid: Json) {
    forall j | 0 <= j < |keys| :: KidOf(keys[j]).Some? && KidOf(keys[j]).value != kid
  }

  /** The generator over a list of entries, stopping at the first match. */
  function ScanKeys(keys: seq<Json>, kid: Json): (r: Selection)
    decreases |keys|
  {
    if |keys| == 0 then NoMatch
    else match KidOf(keys[0])
      case None => Malformed
      case Some(k) => if k == kid then Found(keys[0]) else ScanKeys(keys[1..], kid)
  }

  lemma NoneMatchCons(keys: seq<Json>, kid: Json)
    requires |keys| > 0
    ensures NoneMatch(keys, kid) <==>
      KidOf(keys[0]).Some? && KidOf(keys[0]).value != kid && NoneMatch(keys[1..], kid)
  {
    if KidOf(keys[0]).Some? && KidOf(keys[0]).value != kid && NoneMatch(keys[1..], kid) {
      forall j | 0 <= j < |keys|
        ensures KidOf(keys[j]).Some? && KidOf(keys[j]).value != kid
      {
        if j > 0 { assert keys[j] == keys[1..][j - 1]; }
      }
    }
    if NoneMatch(keys, kid) {
      forall j | 0 <= j < |keys| - 1
        ensures KidOf(keys[1..][j]).Some? && KidOf(keys[1..][j]).value != kid
      {
        assert keys[1..][j] == keys[j + 1];
      }
    }
  }

  /** Entry `i` is the first one whose key id is `kid`. */
  predicate FirstMatchAt(keys: seq<Json>, kid: Json, i: nat) {
    i < |keys| && KidOf(keys[i]) == Some(kid) && NoneMatch(keys[..i], kid)
  }

  lemma FirstMatchAtCons(keys: seq<Json>, kid: Json, i: nat)
    requires |keys| > 0
    ensures FirstMatchAt(keys, kid, i + 1) <==>
      KidOf(keys[0]).Some? && KidOf(keys[0]).value != kid && FirstMatchAt(keys[1..], kid, i)
  {
    if i + 1 < |keys| {
      assert keys[..i + 1][1..] == keys[1..][..i];
      assert keys[..i + 1][0] == keys[0];
      NoneMatchCons(keys[..i + 1], kid);
      assert keys[1..][i] == keys[i + 1];
    }
  }

  /** The selected key is the first entry whose key id equals `kid`, every
      entry before it having a different key id. */
  lemma {:induction false} ScanKeysFound(keys: seq<Json>, kid: Json)
    ensures ScanKeys(keys, kid).Found? ==>
      exists i: nat :: FirstMatchAt(keys, kid, i) && keys[i] == ScanKeys(keys, kid).key
    decreases |keys|
  {
    if |keys| > 0 && ScanKeys(keys, kid).Found? {
      if KidOf(keys[0]) == Some(kid) {
        assert keys[..0] == [];
        assert FirstMatchAt(keys, kid, 0);
      } else {
        ScanKeysFound(keys[1..], kid);
        var i: nat :| FirstMatchAt(keys[1..], kid, i) && keys[1..][i] == ScanKeys(keys[1..], kid).key;
        FirstMatchAtCons(keys, kid, i);
        assert FirstMatchAt(keys, kid, i + 1);
      }
    }
  }

  /** A first match, where one exists, is found. */
  lemma {:induction false} ScanKeysFindsFirst(keys: seq<Json>, kid: Json, i: nat)
    requires FirstMatchAt(keys, kid, i)
    ensures ScanKeys(keys, kid) == Found(keys[i])
    decreases i
  {
    if i == 0 {
    } else {
      FirstMatchAtCons(keys, kid, i - 1);
      ScanKeysFindsFirst(keys[1..], kid, i - 1);
    }
  }

  /** There is no match exactly when every entry has a key id different from
      `kid`; a shapeless entry before any match makes the search raise. */
  lemma {:induction false} ScanKeysNoMatch(keys: seq<Json>, kid: Json)
    ensures ScanKeys(keys, kid) == NoMatch <==> NoneMatch(keys, kid)
    decreases |keys|
  {
    if |keys| > 0 {
      NoneMatchCons(keys, kid);
      ScanKeysNoMatch(keys[1..], kid);
    }
  }

  /** `jwks["keys"]` followed by the generator. Iterating a string or a dict
      yields strings, whose `["kid"]` raises; an empty one yields nothing. */
  function SelectKey(jwks: Json, kid: Json): (r: Selection)
    ensures r.Found? ==> jwks.JObj? && "keys" in jwks.fields && jwks.fields["keys"].JArr?
                         && r == ScanKeys(jwks.fields["keys"].items, kid)
  {
    if !jwks.JObj? || "keys" !in jwks.fields then Malformed
    else match jwks.fields["keys"]
      case JArr(items) => ScanKeys(items, kid)
      case JStr(s) => if s == "" then NoMatch else Malformed
      case JObj(m) => if m == map[] then NoMatch else Malformed
      case _ => Malformed
  }

  // ---------------------------------------------------------------------------
  // verify_supabase_token
  // ---------------------------------------------------------------------------

  /** What the JWT library makes of one token: its unverified header (`None`
      when unreadable) and the claims `jwt.decode(token, key, audience=...,
      issuer=...)` returns (`None` when it raises `JWTError`). */
  datatype Jose = Jose(header: Option<Claims>, decode: (Json, string, string) -> Option<Claims>)

  /** The exception a check raised inside the `try`, other than `JWTError`. */
  datatype Cause = JwksUnavailable | MissingKeyId | KeyNotFound | KeySetMalformed

  datatype AuthDetail =
    | InvalidToken                    // "Invalid token: ..."
    | VerificationFailed(cause: Cause) // "Token verification failed: ..."
    | AdminRequired                   // "Admin access required"
    | HeaderMissing                   // "Authorization header missing"
    | InvalidOrExpired                // "Invalid or expired token"

  /** An error response; `challenge` is the `WWW-Authenticate: Bearer` header. */
  datatype AuthFailure = AuthFailure(status: int, detail: AuthDetail, challenge: bool)

  /** The verdict and the cache after the call (the download is kept even
      when a later step fails). */
  datatype Verified = Verified(cache: Option<Json>, result: Result<Claims, AuthFailure>)

  const Rejected: AuthFailure := AuthFailure(401, InvalidToken, true)

  function Crashed(c: Cause): AuthFailure { AuthFailure(500, VerificationFailed(c), false) }

  /** The key selected for a token that passed the key-id check. */
  function KeyFor(jwks: Json, header: Claims): Selection {
    SelectKey(jwks, Get(header, "kid"))
  }

  /** `verify_supabase_token` for the bearer credentials `token`. */
  function VerifySupabaseToken(cache: Option<Json>, fetch: Fetch, url: string, token: Jose): (v: Verified)
    ensures v.cache == GetJwks(cache, fetch).cache
    ensures GetJwks(cache, fetch).jwks.None? ==> v.result == Err(Crashed(JwksUnavailable))
    ensures v.result.Err? ==> v.result.error.status in {401, 500}
    ensures v.result.Err? ==> (v.result.error.status == 401 <==> v.result.error == Rejected)
    ensures v.result.Ok? ==> GetJwks(cache, fetch).jwks.Some? && token.header.Some?
    ensures v.result.Ok? ==>
      var jwks, header := GetJwks(cache, fetch).jwks.value, token.header.value;
      && PyTruthy(Get(header, "kid"))
      && KeyFor(jwks, header).Found?
      && token.decode(KeyFor(jwks, header).key, Audience, Issuer(url)) == Some(v.result.value)
    ensures GetJwks(cache, fetch).jwks.Some? && token.header.Some? ==>
      var jwks, header := GetJwks(cache, fetch).jwks.value, token.header.value;
      PyTruthy(Get(header, "kid")) && KeyFor(jwks, header).Found?
      && token.decode(KeyFor(jwks, header).key, Audience, Issuer(url)).Some? ==>
      v.result == Ok(token.decode(KeyFor(jwks, header).key, Audience, Issuer(url)).value)
  {
    var st := GetJwks(cache, fetch);
    if st.jwks.None? then Verified(st.cache, Err(Crashed(JwksUnavailable)))
    else if token.header.None? then Verified(st.cache, Err(Rejected))
    else
      var kid := Get(token.header.value, "kid");
      if !PyTruthy(kid) then Verified(st.cache, Err(Crashed(MissingKeyId)))
      else match SelectKey(st.jwks.value, kid)
        case NoMatch => Verified(st.cache, Err(Crashed(KeyNotFound)))
        case Malformed => Verified(st.cache, Err(Crashed(KeySetMalformed)))
        case Found(key) =>
          match token.decode(key, Audience, Issuer(url))
          case None => Verified(st.cache, Err(Rejected))
          case Some(claims) => Verified(st.cache, Ok(claims))
  }

  /** The failures of the JWT library itself, an unreadable header or a
      rejected signature, expiry, audience or issuer, are 401 with the
      `WWW-Authenticate` challenge. */
  lemma JoseErrorsAre401(cache: Option<Json>, fetch: Fetch, url: string, token: Jose)
    requires GetJwks(cache, fetch).jwks.Some?
    requires token.header.None? ||
      (var jwks, header := GetJwks(cache, fetch).jwks.value, token.header.value;
       PyTruthy(Get(header, "kid")) && KeyFor(jwks, header).Found?
       && token.decode(KeyFor(jwks, header).key, Audience, Issuer(url)).None?)
    ensures VerifySupabaseToken(cache, fetch, url, token).result == Err(AuthFailure(401, InvalidToken, true))
  {
  }

  /** A missing key id and an unknown key id are raised as 401 inside the
      `try` and re-raised as 500 by `except Exception`, without the challenge
      header; the key set was downloaded first. */
  lemma KeyIdFailuresAre500(cache: Option<Json>, fetch: Fetch, url: string, token: Jose)
    requires GetJwks(cache, fetch).jwks.Some? && token.header.Some?
    requires var jwks, header := GetJwks(cache, fetch).jwks.value, token.header.value;
      !PyTruthy(Get(header, "kid")) || !KeyFor(jwks, header).Found?
    ensures var r := VerifySupabaseToken(cache, fetch, url, token).result;
      r.Err? && r.error.status == 500 && !r.error.challenge
    ensures var header := token.header.value;
      !PyTruthy(Get(header, "kid")) ==>
        VerifySupabaseToken(cache, fetch, url, token).result == Err(Crashed(MissingKeyId))
  {
  }

  // ---------------------------------------------------------------------------
  // User record and admin gate
  // ---------------------------------------------------------------------------

  /** The user record of `get_current_user`; absent claims are `None`. */
  datatype User = User(id: Json, email: Json, role: Json, metadata: Json)

  function CurrentUser(claims: Claims): (u: User)
    ensures u.id == Get(claims, "sub") && u.email == Get(claims, "email") && u.role == Get(claims, "role")
    ensures "user_metadata" !in claims ==> u.metadata == JObj(map[])
    ensures "user_metadata" in claims ==> u.metadata == claims["user_metadata"]
  {
    User(Get(claims, "sub"), Get(claims, "email"), Get(claims, "role"),
         if "user_metadata" in claims then claims["user_metadata"] else JObj(map[]))
  }

  /** The user record depends on the four claims it projects and on nothing
      else in the token. */
  lemma CurrentUserProjects(a: Claims, b: Claims)
    requires forall k | k in {"sub", "email", "role", "user_metadata"} :: (k in a <==> k in b) && (k in a ==> a[k] == b[k])
    ensures CurrentUser(a) == CurrentUser(b)
  {
    assert "sub" in {"sub", "email", "role", "user_metadata"};
    assert "email" in {"sub", "email", "role", "user_metadata"};
    assert "role" in {"sub", "email", "role", "user_metadata"};
    assert "user_metadata" in {"sub", "email", "role", "user_metadata"};
  }

  /** `require_admin`. */
  function RequireAdmin(user: User): (r: Result<User, AuthFailure>)
    ensures r.Ok? <==> user.role == JStr("admin")
    ensures r.Ok? ==> r.value == user
    ensures r.Err? ==> r.error == AuthFailure(403, AdminRequired, false)
  {
    if user.role != JStr("admin") then Err(AuthFailure(403, AdminRequired, false)) else Ok(user)
  }

  /** The admin route's dependency chain: verify, project, gate. */
  function AdminUser(cache: Option<Json>, fetch: Fetch, url: string, token: Jose): Result<User, AuthFailure> {
    match VerifySupabaseToken(cache, fetch, url, token).result
    case Err(f) => Err(f)
    case Ok(claims) => RequireAdmin(CurrentUser(claims))
  }

  /** A caller reaches the admin route exactly when the token verifies and
      its `role` claim is "admin"; a verified non-admin gets 403. */
  lemma AdminGate(cache: Option<Json>, fetch: Fetch, url: string, token: Jose)
    ensures var v := VerifySupabaseToken(cache, fetch, url, token).result;
      && (AdminUser(cache, fetch, url, token).Ok? <==>
          v.Ok? && "role" in v.value && v.value["role"] == JStr("admin"))
      && (v.Ok? && AdminUser(cache, fetch, url, token).Err? ==>
          AdminUser(cache, fetch, url, token).error.status == 403)
  {
  }

  // ---------------------------------------------------------------------------
  // verify_token_manual and the middleware
  // ---------------------------------------------------------------------------

  const BearerPrefix: string := "Bearer "

  /** `authorization.split(" ")[1]`: the text between the first and the
      second space. */
  function SecondField(authorization: string): (t: string)
    requires StartsWith(authorization, BearerPrefix)
    ensures ' ' !in t
  {
    assert authorization == "Bearer" + [' '] + authorization[7..];
    SplitOfSepPrefix("Bearer", ' ', authorization[7..]);
    Split(authorization, ' ')[1]
  }

  /** The field taken is the first space-free piece after the prefix, so for
      a space-free token `t` the header "Bearer " + t yields `t`. */
  lemma SecondFieldOfBearer(t: string)
    requires ' ' !in t
    ensures StartsWith(BearerPrefix + t, BearerPrefix)
    ensures SecondField(BearerPrefix + t) == t
  {
    var h := BearerPrefix + t;
    assert h[..7] == BearerPrefix;
    assert h == "Bearer" + [' '] + t;
    SplitOfSepPrefix("Bearer", ' ', t);
  }

  /** The manual check: verdict and cache afterwards. */
  datatype Manual = Manual(cache: Option<Json>, user: Option<Claims>)

  /** `verify_token_manual(authorization)`; `parse` describes each token
      string. Unlike the dependency it never tests the key id for truthiness,
      and every failure is `None`. */
  function VerifyTokenManual(cache: Option<Json>, fetch: Fetch, url: string,
                             authorization: Option<string>, parse: string -> Jose): (m: Manual)
    ensures (authorization.None? || !StartsWith(authorization.value, BearerPrefix)) ==> m == Manual(cache, None)
    ensures m.user.Some? ==> authorization.Some? && StartsWith(authorization.value, BearerPrefix)
  {
    if authorization.None? || authorization.value == "" || !StartsWith(authorization.value, BearerPrefix)
    then Manual(cache, None)
    else
      var token := parse(SecondField(authorization.value));
      var st := GetJwks(cache, fetch);
      if st.jwks.None? || token.header.None? then Manual(st.cache, None)
      else match KeyFor(st.jwks.value, token.header.value)
        case Found(key) => Manual(st.cache, token.decode(key, Audience, Issuer(url)))
        case _ => Manual(st.cache, None)
  }

  /** For a header written as "Bearer " + t and a token with a truthy key id,
      the manual check accepts exactly what the dependency accepts, with the
      same claims and the same cache afterwards. */
  lemma ManualAgreesWithDependency(cache: Option<Json>, fetch: Fetch, url: string,
                                   t: string, parse: string -> Jose)
    requires ' ' !in t
    requires parse(t).header.Some? ==> PyTruthy(Get(parse(t).header.value, "kid"))
    ensures var m := VerifyTokenManual(cache, fetch, url, Some(BearerPrefix + t), parse);
      var v := VerifySupabaseToken(cache, fetch, url, parse(t));
      && m.cache == v.cache
      && m.user == (if v.result.Ok? then Some(v.result.value) else None)
  {
    SecondFieldOfBearer(t);
  }

  /** Without a truthy key id the dependency gives up with 500, while the
      manual check goes on: a token whose header has no `kid` is accepted by
      it when the key set's first entry has a null `kid` and the library
      accepts the token under that key. */
  lemma ManualSkipsKeyIdCheck(cache: Option<Json>, fetch: Fetch, url: string,
                              t: string, parse: string -> Jose, claims: Claims)
    requires ' ' !in t
    requires GetJwks(cache, fetch).jwks.Some?
    requires parse(t).header.Some? && "kid" !in parse(t).header.value
    requires KeyFor(GetJwks(cache, fetch).jwks.value, parse(t).header.value).Found?
    requires parse(t).decode(KeyFor(GetJwks(cache, fetch).jwks.value, parse(t).header.value).key,
                             Audience, Issuer(url)) == Some(claims)
    ensures VerifySupabaseToken(cache, fetch, url, parse(t)).result == Err(Crashed(MissingKeyId))
    ensures VerifyTokenManual(cache, fetch, url, Some(BearerPrefix + t), parse).user == Some(claims)
  {
    SecondFieldOfBearer(t);
  }

  /** The paths the middleware lets through unchecked. */
  const ExemptPaths: set<string> := {"/", "/docs", "/openapi.json"}

  /** What the middleware does with a request: pass it on (with the user
      attached for checked paths) or answer 401 itself. */
  datatype Gate = PassOn(user: Option<Claims>) | Refuse(status: int, detail: AuthDetail)

  datatype Middleware = Middleware(cache: Option<Json>, gate: Gate)

  /** `auth_middleware` for a request to `path` with the optional
      `Authorization` header. */
  function AuthMiddleware(cache: Option<Json>, fetch: Fetch, url: string, path: string,
                          authorization: Option<string>, parse: string -> Jose): (r: Middleware)
    ensures path in ExemptPaths ==> r == Middleware(cache, PassOn(None))
    ensures path !in ExemptPaths && (authorization.None? || authorization.value == "") ==>
      r == Middleware(cache, Refuse(401, HeaderMissing))
    ensures r.gate.Refuse? ==> r.gate.status == 401
    ensures path !in ExemptPaths && r.gate.PassOn? ==>
      r.gate.user.Some? && r.gate.user.value != map[]
      && r.gate.user == VerifyTokenManual(cache, fetch, url, authorization, parse).user
  {
    if path in ExemptPaths then Middleware(cache, PassOn(None))
    else if authorization.None? || authorization.value == "" then Middleware(cache, Refuse(401, HeaderMissing))
    else
      var m := VerifyTokenManual(cache, fetch, url, authorization, parse);
      if m.user.None? || m.user.value == map[] then Middleware(m.cache, Refuse(401, InvalidOrExpired))
      else Middleware(m.cache, PassOn(m.user))
  }

  /** A checked request is passed on exactly when a header is present and the
      manual check yields a non-empty payload; an empty payload is falsy and
      is refused like an invalid token. */
  lemma MiddlewarePassesVerifiedOnly(cache: Option<Json>, fetch: Fetch, url: string, path: string,
                                     authorization: Option<string>, parse: string -> Jose)
    requires path !in ExemptPaths
    ensures var m := VerifyTokenManual(cache, fetch, url, authorization, parse);
      var r := AuthMiddleware(cache, fetch, url, path, authorization, parse);
      && (r.gate.PassOn? <==> authorization.Some? && m.user.Some? && m.user.value != map[])
      && (authorization.Some? && authorization.value != "" && r.gate.Refuse? ==>
          r.gate.detail == InvalidOrExpired)
  {
  }
}

=== FILE: authcontext.dfy ===
/**
 The client's sign-in state (`lib/auth-context.tsx`): the in-memory profile
 cache with its five-minute lifetime, building the profile from a database
 row or from the Supabase user, `updateUser`, sign-out and
 `isAuthenticated`. The clock reading `Date.now()` is a parameter `now`.
 */
module AuthContext {
  import opened Common
  import opened Text

  /** The app's user record. */
  datatype Profile = Profile(id: string, email: string, name: string, avatar: Option<string>)

  /** The Supabase user: its id, e-mail and the `name` and `avatar_url` of
      its metadata. */
  datatype Identity = Identity(id: string, email: Option<string>, metaName: Option<string>,
                               metaAvatar: Option<string>)

  /** A row of the `profiles` table. */
  datatype ProfileRow = ProfileRow(id: string, email: string, name: Option<string>, avatarUrl: Option<string>)

  /** The module-level profile cache. */
  datatype ProfileCache = ProfileCache(data: Option<Profile>, timestamp: int, userId: Option<string>)

  datatype AuthState = AuthState(user: Option<Profile>, supabaseUser: Option<Identity>, cache: ProfileCache)

  const CacheDuration: int := 5 * 60 * 1000
  const EmptyCache: ProfileCache := ProfileCache(None, 0, None)

  // ---------------------------------------------------------------------------
  // The cache
  // ---------------------------------------------------------------------------

  /** `isCacheValid(userId)` at time `now`. */
  predicate IsCacheValid(cache: ProfileCache, userId: string, now: int) {
    cache.userId == Some(userId) && cache.data.Some? && now - cache.timestamp < CacheDuration
  }

  /** `setProfileCache(user)` at time `now`. */
  function SetProfileCache(user: Profile, now: int): (c: ProfileCache)
    ensures c.data == Some(user) && c.userId == Some(user.id)
  {
    ProfileCache(Some(user), now, Some(user.id))
  }

  /** `clearProfileCache()`. */
  function ClearProfileCache(): (c: ProfileCache)
    ensures c.data.None? && c.userId.None?
  {
    EmptyCache
  }

  /** A freshly stored profile is valid for its own id, and only for it,
      for five minutes after it was stored. */
  lemma StoredProfileValid(user: Profile, stored: int, id: string, now: int)
    ensures IsCacheValid(SetProfileCache(user, stored), id, now) <==> id == user.id && now < stored + CacheDuration
  {
  }

  /** The cleared cache is valid for no id at any time. */
  lemma ClearedCacheInvalid(id: string, now: int)
    ensures !IsCacheValid(ClearProfileCache(), id, now)
  {
  }

  /** The profile `checkAuth` takes from the cache for the session's user. */
  function CachedProfile(cache: ProfileCache, userId: string, now: int): (p: Option<Profile>)
    ensures p.Some? <==> IsCacheValid(cache, userId, now)
    ensures p.Some? ==> cache.data == p
  {
    if IsCacheValid(cache, userId, now) then cache.data else None
  }

  /** Reading the cache back within the lifetime gives the stored profile. */
  lemma CacheRoundTrip(user: Profile, stored: int, now: int)
    requires now < stored + CacheDuration
    ensures CachedProfile(SetProfileCache(user, stored), user.id, now) == Some(user)
  {
  }

  // ---------------------------------------------------------------------------
  // Building the profile
  // ---------------------------------------------------------------------------

  /** `name || email?.split('@')[0] || 'User'`. */
  function DisplayName(name: Option<string>, email: Option<string>): (r: string)
    ensures r != ""
    ensures Truthy(name) ==> r == name.value
    ensures !Truthy(name) && email.None? ==> r == "User"
    ensures !Truthy(name) && email.Some? && '@' !in email.value ==>
      r == (if email.value == "" then "User" else email.value)
  {
    if Truthy(name) then name.value
    else if email.Some? && FirstPiece(email.value, '@') != "" then FirstPiece(email.value, '@')
    else "User"
  }

  /** Without a name, an address "local@domain" shows as "local", and an
      address with nothing before its first '@' (or none at all) as "User". */
  lemma DisplayNameFromEmail(name: Option<string>, local: string, domain: string)
    requires !Truthy(name) && '@' !in local
    ensures DisplayName(name, Some(local + "@" + domain)) == (if local == "" then "User" else local)
  {
    FirstPieceBeforeSep(local, domain, '@');
  }

  /** The profile built from a `profiles` row. */
  function FromRow(row: ProfileRow): (p: Profile)
    ensures p.id == row.id && p.email == row.email && p.avatar == row.avatarUrl
    ensures p.name == DisplayName(row.name, Some(row.email))
  {
    Profile(row.id, row.email, DisplayName(row.name, Some(row.email)), row.avatarUrl)
  }

  /** The profile built from the Supabase user when its row cannot be read. */
  function Fallback(who: Identity): (p: Profile)
    ensures p.id == who.id && p.email == OrElse(who.email, "") && p.avatar == who.metaAvatar
    ensures p.name == DisplayName(who.metaName, who.email)
  {
    Profile(who.id, OrElse(who.email, ""), DisplayName(who.metaName, who.email), who.metaAvatar)
  }

  /** What the `profiles` query gave. */
  datatype RowFetch = RowFound(row: ProfileRow) | RowError | NoRow

  /** `fetchUserProfile` once the query answered. `captured` is the Supabase
      user its `useCallback` closure saw when it was created, which may lag
      behind `s.supabaseUser`. A found row becomes the user; on an error the
      captured Supabase user, if there is one, does. A changed user is
      cached. */
  function FetchUserProfile(s: AuthState, captured: Option<Identity>, fetch: RowFetch, now: int): (r: AuthState)
    ensures r.supabaseUser == s.supabaseUser
    ensures fetch.RowFound? ==> r.user == Some(FromRow(fetch.row))
    ensures fetch.RowError? && captured.Some? ==> r.user == Some(Fallback(captured.value))
    ensures r.user != s.user ==> r.user.Some? && r.cache == SetProfileCache(r.user.value, now)
    ensures fetch.NoRow? || (fetch.RowError? && captured.None?) ==> r == s
  {
    match fetch
    case RowFound(row) => s.(user := Some(FromRow(row)), cache := SetProfileCache(FromRow(row), now))
    case RowError =>
      if captured.Some? then
        var p := Fallback(captured.value);
        s.(user := Some(p), cache := SetProfileCache(p, now))
      else s
    case NoRow => s
  }

  /** A fetched profile is valid in the cache for the id it was built for. */
  lemma FetchedProfileCached(s: AuthState, captured: Option<Identity>, row: ProfileRow, now: int)
    ensures IsCacheValid(FetchUserProfile(s, captured, RowFound(row), now).cache, row.id, now)
    ensures CachedProfile(FetchUserProfile(s, captured, RowFound(row), now).cache, row.id, now)
      == FetchUserProfile(s, captured, RowFound(row), now).user
  {
  }

  /** A session arriving on a mount-time path, as written: the
      `onAuthStateChange` listener, or `checkAuth` without a valid cached
      profile. Both were created by the first render's effect (it has no
      dependencies), so they call the first render's `fetchUserProfile`,
      whose captured Supabase user is null, right after storing the
      session's user. */
  function SessionStarted(s: AuthState, who: Identity, fetch: RowFetch, now: int): (r: AuthState)
    ensures r.supabaseUser == Some(who)
    ensures fetch.RowFound? ==> r.user == Some(FromRow(fetch.row))
    ensures !fetch.RowFound? ==> r.user == s.user && r.cache == s.cache
  {
    FetchUserProfile(s.(supabaseUser := Some(who)), None, fetch, now)
  }

  /** The initial state: no user, no Supabase user, an empty cache. */
  const SignedOutState: AuthState := AuthState(None, None, EmptyCache)

  /** As written, a user whose `profiles` row cannot be read stays without a
      profile after signing in: the Supabase user is set, `user` is still
      null, so `isAuthenticated` is false. */
  lemma MountFetchSkipsFallback(who: Identity, now: int)
    ensures var r := SessionStarted(SignedOutState, who, RowError, now);
      r.supabaseUser == Some(who) && r.user.None? && !IsAuthenticated(r)
  {
  }

  /** The mount-time session handling as intended: the fallback reads the
      session's own user rather than the stale closure's. */
  function SessionStartedFixed(s: AuthState, who: Identity, fetch: RowFetch, now: int): (r: AuthState)
    ensures r.supabaseUser == Some(who)
    ensures fetch.RowFound? ==> r.user == Some(FromRow(fetch.row))
    ensures fetch.RowError? ==> r.user == Some(Fallback(who))
    ensures fetch.NoRow? ==> r.user == s.user && r.cache == s.cache
  {
    FetchUserProfile(s.(supabaseUser := Some(who)), Some(who), fetch, now)
  }

  /** With the fix, any answer but "no row" signs the user in, with a
      profile for the session's own id that the cache then serves; the fix
      changes nothing when the row is found. */
  lemma FixedSessionSignsIn(s: AuthState, who: Identity, fetch: RowFetch, now: int)
    requires fetch.RowError? || (fetch.RowFound? && fetch.row.id == who.id)
    ensures var r := SessionStartedFixed(s, who, fetch, now);
      && IsAuthenticated(r) && r.user.value.id == who.id
      && CachedProfile(r.cache, who.id, now) == r.user
    ensures fetch.RowFound? ==> SessionStartedFixed(s, who, fetch, now) == SessionStarted(s, who, fetch, now)
  {
  }

  /** `refreshUser()`: with a Supabase user, clear the cache and fetch its
      profile again. This callback is re-created with the current Supabase
      user, so its fetch sees that user and the fallback applies. */
  function RefreshUser(s: AuthState, fetch: RowFetch, now: int): (r: AuthState)
    ensures s.supabaseUser.None? ==> r == s
    ensures r.supabaseUser == s.supabaseUser
    ensures s.supabaseUser.Some? && fetch.RowError? ==> r.user == Some(Fallback(s.supabaseUser.value))
    ensures s.supabaseUser.Some? && fetch.RowFound? ==> r.user == Some(FromRow(fetch.row))
    ensures s.supabaseUser.Some? && fetch.NoRow? ==> r.user == s.user && r.cache == ClearProfileCache()
  {
    if s.supabaseUser.None? then s
    else FetchUserProfile(s.(cache := ClearProfileCache()), s.supabaseUser, fetch, now)
  }

  // ---------------------------------------------------------------------------
  // updateUser, sign-out and isAuthenticated
  // ---------------------------------------------------------------------------

  /** The fields of a `Partial<User>`; `None` where a field is not supplied.
      `avatar` is itself optional, so supplying it may also remove it. */
  datatype ProfilePatch = ProfilePatch(id: Option<string>, email: Option<string>, name: Option<string>,
                                       avatar: Option<Option<string>>)

  /** `{ ...user, ...patch }`. */
  function Merge(u: Profile, p: ProfilePatch): (r: Profile)
    ensures p.id.Some? ==> r.id == p.id.value
    ensures p.id.None? ==> r.id == u.id
    ensures p.email.Some? ==> r.email == p.email.value
    ensures p.email.None? ==> r.email == u.email
    ensures p.name.Some? ==> r.name == p.name.value
    ensures p.name.None? ==> r.name == u.name
    ensures p.avatar.Some? ==> r.avatar == p.avatar.value
    ensures p.avatar.None? ==> r.avatar == u.avatar
  {
    Profile(p.id.GetOr(u.id), p.email.GetOr(u.email), p.name.GetOr(u.name), p.avatar.GetOr(u.avatar))
  }

  /** Applying a patch twice is applying it once; the empty patch changes
      nothing. */
  lemma MergeIdempotent(u: Profile, p: ProfilePatch)
    ensures Merge(Merge(u, p), p) == Merge(u, p)
    ensures Merge(u, ProfilePatch(None, None, None, None)) == u
  {
  }

  /** `updateUser(patch)`. */
  function UpdateUser(s: AuthState, patch: ProfilePatch, now: int): (r: AuthState)
    ensures s.user.None? ==> r == s
    ensures s.user.Some? ==> r.user == Some(Merge(s.user.value, patch))
    ensures s.user.Some? ==> r.cache == SetProfileCache(r.user.value, now)
    ensures r.supabaseUser == s.supabaseUser
  {
    if s.user.None? then s
    else
      var merged := Merge(s.user.value, patch);
      s.(user := Some(merged), cache := SetProfileCache(merged, now))
  }

  /** After an update the cache holds the updated user for its id. */
  lemma UpdatedUserCached(s: AuthState, patch: ProfilePatch, now: int)
    requires s.user.Some?
    ensures var r := UpdateUser(s, patch, now);
      CachedProfile(r.cache, r.user.value.id, now) == r.user
  {
  }

  /** `logout()` after `signOut` returned, and the listener's branch for a
      lost session: both forget the user and clear the cache. */
  function SignedOut(s: AuthState): (r: AuthState)
    ensures r.user.None? && r.supabaseUser.None?
  {
    AuthState(None, None, ClearProfileCache())
  }

  /** `!!user && !!supabaseUser`. */
  predicate IsAuthenticated(s: AuthState) {
    s.user.Some? && s.supabaseUser.Some?
  }

  /** Once signed out, nobody is authenticated and no cached profile is
      served for any id at any time. */
  lemma SignedOutForgets(s: AuthState, id: string, now: int)
    ensures !IsAuthenticated(SignedOut(s))
    ensures CachedProfile(SignedOut(s).cache, id, now).None?
  {
  }

  /** Updating the profile keeps the authentication status. */
  lemma UpdateKeepsAuthentication(s: AuthState, patch: ProfilePatch, now: int)
    ensures IsAuthenticated(UpdateUser(s, patch, now)) == IsAuthenticated(s)
  {
  }
}

=== FILE: base64.dfy ===
/**
 The standard base 64 encoding of section 4 of RFC 4648 (alphabet `A-Z a-z 0-9
 + /`, `=` padding), as produced by Python's `base64.b64encode`. The relay
 uses it to put synthesized audio into a `data:` URL; the decoder exists to
 state what the encoding preserves.
 */
module Base64 {
  import opened Common

  /** A 6-bit value, the index of one character of the alphabet. */
  type sextet = x: int | 0 <= x < 64

  /** The alphabet character for `v` (Table 1 of RFC 4648). */
  function CharOf(v: sextet): (c: char)
    ensures c != '='
  {
    if v < 26 then ('A' as int + v) as char
    else if v < 52 then ('a' as int + (v - 26)) as char
    else if v < 62 then ('0' as int + (v - 52)) as char
    else if v == 62 then '+'
    else '/'
  }

  /** The characters of the alphabet. */
  predicate IsAlphabetChar(c: char) {
    'A' <= c <= 'Z' || 'a' <= c <= 'z' || '0' <= c <= '9' || c == '+' || c == '/'
  }

  /** The value of an alphabet character. */
  function ValueOf(c: char): (v: sextet)
    requires IsAlphabetChar(c)
  {
    if 'A' <= c <= 'Z' then c as int - 'A' as int
    else if 'a' <= c <= 'z' then c as int - 'a' as int + 26
    else if '0' <= c <= '9' then c as int - '0' as int + 52
    else if c == '+' then 62
    else 63
  }

  /** Every sextet has an alphabet character, and reading it back gives the sextet. */
  lemma CharOfValueOf(v: sextet)
    ensures IsAlphabetChar(CharOf(v))
    ensures ValueOf(CharOf(v)) == v
  {
  }

  /** Three bytes as four alphabet characters. */
  function EncodeGroup(b0: byte, b1: byte, b2: byte): string {
    [ CharOf(b0 as int / 4),
      CharOf((b0 as int % 4) * 16 + b1 as int / 16),
      CharOf((b1 as int % 16) * 4 + b2 as int / 64),
      CharOf(b2 as int % 64) ]
  }

  /** The base 64 text of `b`. */
  function Encode(b: seq<byte>): (r: string)
    ensures |b| == 0 <==> r == ""
    ensures |b| > 0 ==> |r| >= 4
    ensures forall i | 0 <= i < |r| :: IsAlphabetChar(r[i]) || r[i] == '='
    decreases |b|
  {
    if |b| == 0 then ""
    else if |b| == 1 then
      [CharOf(b[0] as int / 4), CharOf((b[0] as int % 4) * 16), '=', '=']
    else if |b| == 2 then
      [ CharOf(b[0] as int / 4),
        CharOf((b[0] as int % 4) * 16 + b[1] as int / 16),
        CharOf((b[1] as int % 16) * 4), '=' ]
    else EncodeGroup(b[0], b[1], b[2]) + Encode(b[3..])
  }

  /** Four alphabet characters as three bytes. */
  function DecodeGroup(g: string): Option<seq<byte>>
    requires |g| == 4
  {
    if !(IsAlphabetChar(g[0]) && IsAlphabetChar(g[1]) && IsAlphabetChar(g[2]) && IsAlphabetChar(g[3]))
    then None
    else
      var c0, c1, c2, c3 := ValueOf(g[0]), ValueOf(g[1]), ValueOf(g[2]), ValueOf(g[3]);
      Some([(c0 * 4 + c1 / 16) as byte, ((c1 % 16) * 16 + c2 / 4) as byte, ((c2 % 4) * 64 + c3) as byte])
  }

  /** The last group, which may carry one or two padding characters. Unused
      low bits must be zero, so every byte string has exactly one encoding. */
  function DecodeLast(g: string): Option<seq<byte>>
    requires |g| == 4
  {
    if g[2] == '=' && g[3] == '=' then
      if IsAlphabetChar(g[0]) && IsAlphabetChar(g[1]) && ValueOf(g[1]) % 16 == 0
      then Some([(ValueOf(g[0]) * 4 + ValueOf(g[1]) / 16) as byte])
      else None
    else if g[3] == '=' then
      if IsAlphabetChar(g[0]) && IsAlphabetChar(g[1]) && IsAlphabetChar(g[2]) && ValueOf(g[2]) % 4 == 0
      then
        var c0, c1, c2 := ValueOf(g[0]), ValueOf(g[1]), ValueOf(g[2]);
        Some([(c0 * 4 + c1 / 16) as byte, ((c1 % 16) * 16 + c2 / 4) as byte])
      else None
    else DecodeGroup(g)
  }

  /** The bytes that `s` encodes, or `None` when `s` is not base 64 text. */
  function Decode(s: string): Option<seq<byte>>
    decreases |s|
  {
    if |s| == 0 then Some([])
    else if |s| < 4 then None
    else if |s| == 4 then DecodeLast(s)
    else
      match DecodeGroup(s[..4])
      case None => None
      case Some(head) =>
        match Decode(s[4..])
        case None => None
        case Some(tail) => Some(head + tail)
  }

  /** Four characters per three bytes, the last group padded. */
  lemma {:induction false} EncodeLength(b: seq<byte>)
    ensures |Encode(b)| == 4 * ((|b| + 2) / 3)
    decreases |b|
  {
    if |b| >= 3 {
      EncodeLength(b[3..]);
      assert (|b| + 2) / 3 == (|b[3..]| + 2) / 3 + 1;
    }
  }

  /** The bit arithmetic of a group: the four sextets of three bytes
      recombine into the same three bytes. */
  lemma GroupArithmetic(x0: int, x1: int, x2: int)
    requires 0 <= x0 < 256 && 0 <= x1 < 256 && 0 <= x2 < 256
    ensures var c0, c1, c2, c3 := x0 / 4, (x0 % 4) * 16 + x1 / 16, (x1 % 16) * 4 + x2 / 64, x2 % 64;
      && 0 <= c0 < 64 && 0 <= c1 < 64 && 0 <= c2 < 64 && 0 <= c3 < 64
      && c0 * 4 + c1 / 16 == x0
      && (c1 % 16) * 16 + c2 / 4 == x1
      && (c2 % 4) * 64 + c3 == x2
  {
    var c1, c2 := (x0 % 4) * 16 + x1 / 16, (x1 % 16) * 4 + x2 / 64;
    assert c1 / 16 == x0 % 4 && c1 % 16 == x1 / 16;
    assert c2 / 4 == x1 % 16 && c2 % 4 == x2 / 64;
  }

  lemma GroupRoundTrip(b0: byte, b1: byte, b2: byte)
    ensures DecodeGroup(EncodeGroup(b0, b1, b2)) == Some([b0, b1, b2])
  {
    var x0, x1, x2 := b0 as int, b1 as int, b2 as int;
    GroupArithmetic(x0, x1, x2);
    var c0, c1, c2, c3 := x0 / 4, (x0 % 4) * 16 + x1 / 16, (x1 % 16) * 4 + x2 / 64, x2 % 64;
    CharOfValueOf(c0);
    CharOfValueOf(c1);
    CharOfValueOf(c2);
    CharOfValueOf(c3);
  }

  /** A full group in front of further base 64 text decodes to its bytes in
      front of the text's bytes. */
  lemma DecodeInFront(g: string, t: string, head: seq<byte>, tail: seq<byte>)
    requires |g| == 4 && |t| >= 4
    requires DecodeGroup(g) == Some(head) && Decode(t) == Some(tail)
    ensures Decode(g + t) == Some(head + tail)
  {
    assert (g + t)[..4] == g;
    assert (g + t)[4..] == t;
  }

  lemma OneByteRoundTrip(b0: byte)
    ensures DecodeLast([CharOf(b0 as int / 4), CharOf((b0 as int % 4) * 16), '=', '=']) == Some([b0])
  {
    var x0 := b0 as int;
    CharOfValueOf(x0 / 4);
    CharOfValueOf((x0 % 4) * 16);
  }

  lemma TwoByteRoundTrip(b0: byte, b1: byte)
    ensures DecodeLast([ CharOf(b0 as int / 4),
                         CharOf((b0 as int % 4) * 16 + b1 as int / 16),
                         CharOf((b1 as int % 16) * 4), '=' ]) == Some([b0, b1])
  {
    var x0, x1 := b0 as int, b1 as int;
    var c1, c2 := (x0 % 4) * 16 + x1 / 16, (x1 % 16) * 4;
    CharOfValueOf(x0 / 4);
    CharOfValueOf(c1);
    CharOfValueOf(c2);
    assert c1 / 16 == x0 % 4 && c1 % 16 == x1 / 16;
    assert c2 / 4 == x1 % 16;
  }

  /** Decoding the encoding of `b` gives `b` back: the audio bytes put into a
      data URL are exactly the bytes received from the provider. */
  lemma {:induction false} DecodeEncode(b: seq<byte>)
    ensures Decode(Encode(b)) == Some(b)
    decreases |b|
  {
    if |b| == 1 {
      OneByteRoundTrip(b[0]);
      assert [b[0]] == b;
    } else if |b| == 2 {
      TwoByteRoundTrip(b[0], b[1]);
      assert [b[0], b[1]] == b;
    } else if |b| == 3 {
      ThreeByteRoundTrip(b);
    } else if |b| > 3 {
      DecodeEncode(b[3..]);
      LongerRoundTrip(b);
    }
  }

  lemma ThreeByteRoundTrip(b: seq<byte>)
    requires |b| == 3
    ensures Decode(Encode(b)) == Some(b)
  {
    var g := EncodeGroup(b[0], b[1], b[2]);
    GroupRoundTrip(b[0], b[1], b[2]);
    assert Encode(b) == g + Encode(b[3..]);
    assert Encode(b[3..]) == "";
    assert Encode(b) == g;
    assert g[3] != '=';
    assert b == [b[0], b[1], b[2]];
  }

  lemma HeadThree(b: seq<byte>)
    requires |b| >= 3
    ensures [b[0], b[1], b[2]] + b[3..] == b
  {
  }

  lemma LongerRoundTrip(b: seq<byte>)
    requires |b| > 3 && Decode(Encode(b[3..])) == Some(b[3..])
    ensures Decode(Encode(b)) == Some(b)
  {
    var g := EncodeGroup(b[0], b[1], b[2]);
    GroupRoundTrip(b[0], b[1], b[2]);
    assert Encode(b) == g + Encode(b[3..]);
    DecodeInFront(g, Encode(b[3..]), [b[0], b[1], b[2]], b[3..]);
    HeadThree(b);
  }

  /** Different byte strings have different encodings. */
  lemma EncodeInjective(a: seq<byte>, b: seq<byte>)
    requires Encode(a) == Encode(b)
    ensures a == b
  {
    DecodeEncode(a);
    DecodeEncode(b);
  }
}

=== FILE: bearer.dfy ===
/**
 The TypeScript side of the token check in `lib/supabase/jwt.ts`: reading
 the bearer token from an `Authorization` header, and the single error of
 `verifySupabaseJWT`. The header parser is compared with the one the Python
 middleware uses.
 */
module BearerHeader {
  import opened Common
  import opened Text
  import SupabaseAuth

  /** `extractBearerToken(authHeader)`: the second field when the header
      splits on ' ' into exactly two fields and the first is "Bearer". */
  function ExtractBearerToken(authHeader: Option<string>): (r: Option<string>)
    ensures authHeader.None? || authHeader == Some("") ==> r.None?
    ensures r.Some? ==> ' ' !in r.value
  {
    if authHeader.None? || authHeader.value == "" then None
    else
      var parts := Split(authHeader.value, ' ');
      if |parts| != 2 || parts[0] != "Bearer" then None else Some(parts[1])
  }

  /** The header `authenticatedFetch` writes, "Bearer " followed by the token. */
  function BearerHeader(token: string): string {
    "Bearer " + token
  }

  /** Reading a token back from the header written for it gives the token, for
      every token without a space (Supabase access tokens have none). */
  lemma ExtractWritten(token: string)
    requires ' ' !in token
    ensures ExtractBearerToken(Some(BearerHeader(token))) == Some(token)
  {
    assert BearerHeader(token) == "Bearer" + [' '] + token;
    SplitOfSepPrefix("Bearer", ' ', token);
  }

  /** A header is accepted exactly when it is "Bearer " followed by a
      space-free token, and the token is what follows the prefix. */
  lemma ExtractIff(h: string)
    ensures ExtractBearerToken(Some(h)).Some? <==> StartsWith(h, "Bearer ") && ' ' !in h[7..]
    ensures ExtractBearerToken(Some(h)).Some? ==> BearerHeader(ExtractBearerToken(Some(h)).value) == h
  {
    var parts := Split(h, ' ');
    if ExtractBearerToken(Some(h)).Some? {
      JoinSplit(h, ' ');
      assert Join(parts, ' ') == parts[0] + [' '] + parts[1] by {
        assert parts == [parts[0], parts[1]];
        assert Join([parts[1]], ' ') == parts[1];
      }
      assert h == "Bearer" + [' '] + parts[1];
      assert h[..7] == "Bearer ";
      assert h[7..] == parts[1];
    }
    if StartsWith(h, "Bearer ") && ' ' !in h[7..] {
      assert h == BearerHeader(h[7..]);
      ExtractWritten(h[7..]);
    }
  }

  /** The Python middleware's parser: anything starting with "Bearer " is
      accepted, and its second space-separated field is the token. */
  function PythonBearerToken(authorization: Option<string>): Option<string> {
    if authorization.None? || authorization.value == "" || !StartsWith(authorization.value, SupabaseAuth.BearerPrefix)
    then None
    else Some(SupabaseAuth.SecondField(authorization.value))
  }

  /** On a header with three or more space-separated fields, such as
      "Bearer a b", the two parsers disagree: the TypeScript one refuses it,
      the Python one takes the second field. */
  lemma ParsersDisagreeOnExtraFields(h: string)
    requires StartsWith(h, "Bearer ") && |Split(h, ' ')| >= 3
    ensures ExtractBearerToken(Some(h)).None?
    ensures PythonBearerToken(Some(h)) == Some(Split(h, ' ')[1])
  {
  }

  /** A concrete header on which they disagree. */
  lemma ParsersDisagreeExample()
    ensures ExtractBearerToken(Some("Bearer a b")).None?
    ensures PythonBearerToken(Some("Bearer a b")) == Some("a")
  {
    ExampleFields();
    assert StartsWith("Bearer a b", "Bearer ");
    ParsersDisagreeOnExtraFields("Bearer a b");
  }

  lemma ExampleFields()
    ensures Split("Bearer a b", ' ') == ["Bearer", "a", "b"]
  {
    TailFields();
    assert "Bearer a b" == "Bearer" + [' '] + "a b";
    SplitOfSepPrefix("Bearer", ' ', "a b");
  }

  lemma TailFields()
    ensures Split("a b", ' ') == ["a", "b"]
  {
    assert "a b" == "a" + [' '] + "b";
    SplitOfSepPrefix("a", ' ', "b");
    assert Split("b", ' ') == ["b"];
  }

  /** Wherever the TypeScript parser accepts a header, the Python one accepts
      it too and reads the same token. */
  lemma ParsersAgreeOnTwoFields(h: string)
    requires ExtractBearerToken(Some(h)).Some?
    ensures PythonBearerToken(Some(h)) == ExtractBearerToken(Some(h))
  {
    ExtractIff(h);
    SupabaseAuth.SecondFieldOfBearer(h[7..]);
    assert SupabaseAuth.BearerPrefix + h[7..] == h;
  }

  /** The one error `verifySupabaseJWT` throws. */
  const InvalidOrExpired: string := "Invalid or expired token"

  /** `verifySupabaseJWT(token)`. `jwtVerify(token, issuer, audience)` is the
      library's verdict (`None` where it throws, an unreadable key set URL
      included); every failure becomes the same error. */
  function VerifySupabaseJwt(token: string, supabaseUrl: string,
                             jwtVerify: (string, string, string) -> Option<SupabaseAuth.Claims>)
    : (r: Result<SupabaseAuth.Claims, string>)
    ensures r.Err? ==> r.error == InvalidOrExpired
    ensures r.Ok? <==> jwtVerify(token, supabaseUrl + "/auth/v1", "authenticated").Some?
    ensures r.Ok? ==> Some(r.value) == jwtVerify(token, SupabaseAuth.Issuer(supabaseUrl), SupabaseAuth.Audience)
  {
    match jwtVerify(token, supabaseUrl + "/auth/v1", "authenticated")
    case None => Err(InvalidOrExpired)
    case Some(payload) => Ok(payload)
  }
}

=== FILE: callback.dfy ===
/**
 `GET /auth/callback` (`app/auth/callback/route.ts`): where the browser is
 sent after Supabase redirects back with an authorization code or an error.
 Query parameters are the decoded values of `searchParams.get` (`None` when
 absent); the code exchange and the user lookup are outcomes passed in.
 */
module AuthCallback {
  import opened Common
  import opened Text
  import UriComponent

  datatype Query = Query(
    code: Option<string>, errorCode: Option<string>, errorDescription: Option<string>,
    next: Option<string>, kind: Option<string>)   // `kind` is the `type` parameter

  /** What `exchangeCodeForSession(code)` gave: the error's message if there
      was an error, and whether a session came back. */
  datatype Exchange = Exchange(error: Option<string>, hasSession: bool)

  /** The redirect and which upstream calls were made on the way. */
  datatype Outcome = Outcome(location: string, exchanged: bool, userLooked: bool)

  const DefaultError: string := "Authentication failed"

  /** The login page with an error message in its query string. */
  function LoginWithError(origin: string, message: string): string {
    origin + "/login?error=" + UriComponent.Encode(message)
  }

  /** The page after a normal sign-in, as written: the `next` parameter is
      appended to the origin unchecked. */
  function Landing(origin: string, next: Option<string>): string {
    origin + OrElse(next, "/playground")
  }

  /** The decision table of the route, given the page a normal sign-in
      lands on. */
  function Decide(origin: string, q: Query, exchange: Exchange, userPresent: bool, landing: string): (r: Outcome)
  {
    if Truthy(q.errorCode) then
      Outcome(LoginWithError(origin, OrElse(q.errorDescription, DefaultError)), false, false)
    else if Truthy(q.code) then
      if exchange.error.None? && exchange.hasSession then
        if userPresent then
          if q.next == Some("/reset-password") || q.kind == Some("recovery") then
            Outcome(origin + "/reset-password", true, true)
          else Outcome(landing, true, true)
        else Outcome(origin + "/login", true, true)
      else if exchange.error.Some? then Outcome(LoginWithError(origin, exchange.error.value), true, false)
      else Outcome(origin + "/login", true, false)
    else Outcome(origin + "/login", false, false)
  }

  /** The route as written. */
  function Callback(origin: string, q: Query, exchange: Exchange, userPresent: bool): (r: Outcome)
    ensures Truthy(q.errorCode) ==>
      r == Outcome(LoginWithError(origin, OrElse(q.errorDescription, DefaultError)), false, false)
    ensures r.exchanged <==> !Truthy(q.errorCode) && Truthy(q.code)
    ensures r.userLooked ==> r.exchanged && exchange.error.None? && exchange.hasSession
  {
    Decide(origin, q, exchange, userPresent, Landing(origin, q.next))
  }

  /** A sign-in that succeeded, with a user behind it. */
  predicate SignedIn(q: Query, exchange: Exchange, userPresent: bool) {
    !Truthy(q.errorCode) && Truthy(q.code) && exchange.error.None? && exchange.hasSession && userPresent
  }

  /** A recovery sign-in lands on the reset page; any other sign-in on `next`
      or the playground; a failed exchange on the login page with the
      provider's message; everything else on the plain login page. */
  lemma CallbackCases(origin: string, q: Query, exchange: Exchange, userPresent: bool)
    ensures var loc := Callback(origin, q, exchange, userPresent).location;
      && (SignedIn(q, exchange, userPresent) && (q.next == Some("/reset-password") || q.kind == Some("recovery"))
          ==> loc == origin + "/reset-password")
      && (SignedIn(q, exchange, userPresent) && q.next != Some("/reset-password") && q.kind != Some("recovery")
          ==> loc == origin + OrElse(q.next, "/playground"))
      && (!Truthy(q.errorCode) && Truthy(q.code) && exchange.error.Some?
          ==> loc == LoginWithError(origin, exchange.error.value))
      && (!Truthy(q.errorCode) && (!Truthy(q.code) || (exchange.error.None? && !(exchange.hasSession && userPresent)))
          ==> loc == origin + "/login")
  {
  }

  /** The login page reads back exactly the message that was put into the
      redirect. */
  lemma ErrorMessageRoundTrip(origin: string, message: string)
    ensures var loc := LoginWithError(origin, message);
      var prefix := origin + "/login?error=";
      && StartsWith(loc, prefix)
      && UriComponent.Decode(loc[|prefix|..]) == Some(message)
  {
    var prefix := origin + "/login?error=";
    var loc := LoginWithError(origin, message);
    assert loc == prefix + UriComponent.Encode(message);
    assert loc[..|prefix|] == prefix;
    assert loc[|prefix|..] == UriComponent.Encode(message);
    UriComponent.DecodeEncode(message);
  }

  // ---------------------------------------------------------------------------
  // The unchecked `next` parameter
  // ---------------------------------------------------------------------------

  /** A redirect target stays on the site when the origin is followed by a
      path, i.e. by '/': then nothing after it can change the host. */
  predicate OnSite(origin: string, location: string) {
    StartsWith(location, origin + "/")
  }

  /** As written, `next=.evil.example` sends a user who signed in on
      `https://app.example` to `https://app.example.evil.example`, a host of
      the attacker's domain. */
  lemma OpenRedirect()
    ensures Landing("https://app.example", Some(".evil.example")) == "https://app.example.evil.example"
    ensures !OnSite("https://app.example", Landing("https://app.example", Some(".evil.example")))
  {
    var loc := Landing("https://app.example", Some(".evil.example"));
    assert loc[19] == '.';
    assert (("https://app.example" + "/")[19]) == '/';
    assert loc[..20][19] == loc[19];
  }

  /** The intended landing rule: only a `next` that is a path is followed. */
  function SafeLanding(origin: string, next: Option<string>): (r: string)
    ensures OnSite(origin, r)
  {
    var path := if Truthy(next) && next.value[0] == '/' then next.value else "/playground";
    assert (origin + path)[..|origin| + 1] == origin + "/";
    origin + path
  }

  /** The route with the intended landing rule. */
  function SafeCallback(origin: string, q: Query, exchange: Exchange, userPresent: bool): Outcome {
    Decide(origin, q, exchange, userPresent, SafeLanding(origin, q.next))
  }

  lemma PathOnSite(origin: string, p: string)
    requires |p| >= 1 && p[0] == '/'
    ensures OnSite(origin, origin + p)
  {
    assert (origin + p)[..|origin| + 1] == origin + "/";
  }

  lemma LoginWithErrorOnSite(origin: string, message: string)
    ensures OnSite(origin, LoginWithError(origin, message))
  {
    var e := UriComponent.Encode(message);
    assert LoginWithError(origin, message) == origin + ("/login?error=" + e);
    PathOnSite(origin, "/login?error=" + e);
  }

  /** With a landing page on the site, every outcome of the table is on the site. */
  lemma DecideOnSite(origin: string, q: Query, exchange: Exchange, userPresent: bool, landing: string)
    requires OnSite(origin, landing)
    ensures OnSite(origin, Decide(origin, q, exchange, userPresent, landing).location)
  {
    var loc := Decide(origin, q, exchange, userPresent, landing).location;
    if Truthy(q.errorCode) {
      assert loc == LoginWithError(origin, OrElse(q.errorDescription, DefaultError));
      LoginWithErrorOnSite(origin, OrElse(q.errorDescription, DefaultError));
    } else if !Truthy(q.code) {
      assert loc == origin + "/login";
      PathOnSite(origin, "/login");
    } else if exchange.error.None? && exchange.hasSession && userPresent {
      if q.next == Some("/reset-password") || q.kind == Some("recovery") {
        assert loc == origin + "/reset-password";
        PathOnSite(origin, "/reset-password");
      } else {
        assert loc == landing;
      }
    } else if exchange.error.Some? {
      assert loc == LoginWithError(origin, exchange.error.value);
      LoginWithErrorOnSite(origin, exchange.error.value);
    } else {
      assert loc == origin + "/login";
      PathOnSite(origin, "/login");
    }
  }

  /** Every redirect of the corrected route stays on the site. */
  lemma SafeCallbackStaysOnSite(origin: string, q: Query, exchange: Exchange, userPresent: bool)
    ensures OnSite(origin, SafeCallback(origin, q, exchange, userPresent).location)
  {
    DecideOnSite(origin, q, exchange, userPresent, SafeLanding(origin, q.next));
  }

  /** The corrected route agrees with the route as written whenever `next` is
      absent, empty or a path. */
  lemma SafeCallbackAgrees(origin: string, q: Query, exchange: Exchange, userPresent: bool)
    requires !Truthy(q.next) || q.next.value[0] == '/'
    ensures SafeCallback(origin, q, exchange, userPresent) == Callback(origin, q, exchange, userPresent)
  {
    assert SafeLanding(origin, q.next) == Landing(origin, q.next);
  }
}

=== FILE: carousel.dfy ===
/**
 The testimonial carousel (`components/clients.tsx`): the index arithmetic
 of the arrows, the dots and the timer, and where each card is placed
 relative to the current one. The list holds six testimonials; the
 arithmetic is stated for any length `n >= 1`. Indices are never negative
 here, so JavaScript's `%` and Dafny's agree.
 */
module Carousel {

  /** The number of testimonials in the list. */
  const Testimonials: nat := 6

  datatype State = State(currentIndex: int, isPaused: bool)

  predicate ValidIndex(i: int, n: nat) { 0 <= i < n }

  /** The right arrow and the timer: `(currentIndex + 1) % n`. */
  function Next(c: int, n: nat): (r: int)
    requires n >= 1 && ValidIndex(c, n)
    ensures ValidIndex(r, n)
    ensures r == if c == n - 1 then 0 else c + 1
  {
    (c + 1) % n
  }

  /** The left arrow: `(currentIndex - 1 + n) % n`. */
  function Prev(c: int, n: nat): (r: int)
    requires n >= 1 && ValidIndex(c, n)
    ensures ValidIndex(r, n)
    ensures r == if c == 0 then n - 1 else c - 1
  {
    (c - 1 + n) % n
  }

  /** The two arrows undo each other. */
  lemma ArrowsInverse(c: int, n: nat)
    requires n >= 1 && ValidIndex(c, n)
    ensures Prev(Next(c, n), n) == c
    ensures Next(Prev(c, n), n) == c
  {
  }

  /** `k` presses of the right arrow. */
  function NextTimes(c: int, n: nat, k: nat): (r: int)
    requires n >= 1 && ValidIndex(c, n)
    ensures ValidIndex(r, n)
    decreases k
  {
    if k == 0 then c else Next(NextTimes(c, n, k - 1), n)
  }

  /** Up to a full turn, `k` presses move `k` places, wrapping once past
      the end. */
  lemma {:induction false} NextTimesWraps(c: int, n: nat, k: nat)
    requires n >= 1 && ValidIndex(c, n) && k <= n
    ensures NextTimes(c, n, k) == if c + k < n then c + k else c + k - n
    decreases k
  {
    if k > 0 {
      NextTimesWraps(c, n, k - 1);
    }
  }

  /** `n` presses of the right arrow (or `n` timer ticks) come back to the
      start. */
  lemma FullTurn(c: int, n: nat)
    requires n >= 1 && ValidIndex(c, n)
    ensures NextTimes(c, n, n) == c
  {
    NextTimesWraps(c, n, n);
  }

  /** The position of card `index` relative to the current card, wrapped so
      that the card before the current one sits at -1. */
  function Position(index: int, c: int, n: nat): (p: int)
    requires n >= 1 && ValidIndex(index, n) && ValidIndex(c, n)
    ensures -1 <= p <= n - 2
    ensures (p - (index - c)) % n == 0
  {
    var p0 := index - c;
    var p1 := if p0 < -1 then p0 + n else p0;
    var p := if p1 > n - 2 then p1 - n else p1;
    assert p == p0 || p == p0 + n || p0 == p + n;
    p
  }

  predicate IsVisible(p: int) { p == -1 || p == 0 || p == 1 }

  /** With two cards or more, the centre card is the current one and no
      other. */
  lemma UniqueCentre(index: int, c: int, n: nat)
    requires n >= 2 && ValidIndex(index, n) && ValidIndex(c, n)
    ensures Position(index, c, n) == 0 <==> index == c
  {
  }

  /** The cards right and left of the centre are the ones the arrows lead
      to. */
  lemma SidesAreNeighbours(index: int, c: int, n: nat)
    requires n >= 3 && ValidIndex(index, n) && ValidIndex(c, n)
    ensures Position(index, c, n) == 1 <==> index == Next(c, n)
    ensures Position(index, c, n) == -1 <==> index == Prev(c, n)
  {
  }

  /** The cards shown. */
  function Visible(c: int, n: nat): set<int>
    requires n >= 1 && ValidIndex(c, n)
  {
    set i | 0 <= i < n && IsVisible(Position(i, c, n))
  }

  /** With three cards or more, exactly three are shown: the current one
      and its two neighbours. */
  lemma ThreeVisible(c: int, n: nat)
    requires n >= 3 && ValidIndex(c, n)
    ensures Visible(c, n) == {Prev(c, n), c, Next(c, n)}
    ensures |Visible(c, n)| == 3
  {
    forall i | 0 <= i < n ensures IsVisible(Position(i, c, n)) <==> i in {Prev(c, n), c, Next(c, n)} {
      UniqueCentre(i, c, n);
      SidesAreNeighbours(i, c, n);
    }
    assert Visible(c, n) == {Prev(c, n), c, Next(c, n)};
  }

  /** `goToSlide(index)`: the dots pass their own index, the arrows the
      neighbour. */
  function GoToSlide(s: State, index: int): (r: State)
    ensures r.currentIndex == index && r.isPaused == s.isPaused
  {
    s.(currentIndex := index)
  }

  /** One tick of the interval timer, which runs only while the pointer is
      off the carousel. */
  function Tick(s: State, n: nat): (r: State)
    requires n >= 1 && ValidIndex(s.currentIndex, n)
    ensures s.isPaused ==> r == s
    ensures !s.isPaused ==> r == GoToSlide(s, Next(s.currentIndex, n))
  {
    if s.isPaused then s else s.(currentIndex := Next(s.currentIndex, n))
  }

  /** The pointer entering (`true`) or leaving (`false`) the cards. */
  function Hover(s: State, inside: bool): (r: State)
    ensures r.isPaused == inside && r.currentIndex == s.currentIndex
  {
    s.(isPaused := inside)
  }

  /** The events of the carousel. */
  datatype Event = TimerTick | LeftArrow | RightArrow | Dot(index: int) | PointerInside(inside: bool)

  /** The carousel after one event; a dot outside the list is ignored (the
      page draws one dot per card). */
  function Step(s: State, e: Event): (r: State)
    requires ValidIndex(s.currentIndex, Testimonials)
    ensures ValidIndex(r.currentIndex, Testimonials)
  {
    match e
    case TimerTick => Tick(s, Testimonials)
    case LeftArrow => GoToSlide(s, Prev(s.currentIndex, Testimonials))
    case RightArrow => GoToSlide(s, Next(s.currentIndex, Testimonials))
    case Dot(i) => if ValidIndex(i, Testimonials) then GoToSlide(s, i) else s
    case PointerInside(inside) => Hover(s, inside)
  }

  /** From the initial state, every sequence of events keeps the index in
      the list, so the index arithmetic above always applies. */
  function Run(s: State, events: seq<Event>): (r: State)
    requires ValidIndex(s.currentIndex, Testimonials)
    ensures ValidIndex(r.currentIndex, Testimonials)
    decreases |events|
  {
    if |events| == 0 then s else Run(Step(s, events[0]), events[1..])
  }

  const Initial: State := State(0, false)
}

=== FILE: common.dfy ===
/** Small wrapper types shared by every module of the model. */
module Common {

  /** A value that may be absent: Python's `None`, JavaScript's `null`. */
  datatype Option<+T> = None | Some(value: T) {

    /** The wrapped value, or `default` when absent. */
    function GetOr(default: T): T {
      match this
      case Some(v) => v
      case None => default
    }
  }

  /** Either a value or an error. */
  datatype Result<+R, +E> = Ok(value: R) | Err(error: E) {

    predicate IsFailure() {
      Err?
    }

    function PropagateFailure<U>(): Result<U, E>
      requires Err?
    {
      Err(error)
    }

    function Extract(): R
      requires Ok?
    {
      value
    }
  }

  /** A byte, as read from an HTTP body. */
  newtype byte = x: int | 0 <= x < 256
}

=== FILE: forgot.dfy ===
/**
 `POST /api/auth/forgot-password` (`app/api/auth/forgot-password/route.ts`):
 checks the e-mail address, asks Supabase to send a reset mail, and answers
 the same way whether or not Supabase reported an error, so that the reply
 does not tell whether an account exists. Supabase's answer is a parameter.
 */
module ForgotPassword {
  import opened Common
  import opened Text
  import opened JsonValues

  // ---------------------------------------------------------------------------
  // The address pattern `^[^\s@]+@[^\s@]+\.[^\s@]+$`
  // ---------------------------------------------------------------------------

  /** A character of the class `[^\s@]`. */
  predicate Plain(c: char) {
    c !in JsWhitespace && c != '@'
  }

  predicate AllPlain(s: string) {
    forall k | 0 <= k < |s| :: Plain(s[k])
  }

  /** The pattern matches with its '@' at `i` and its escaped '.' at `j`:
      three non-empty runs of plain characters around them. */
  predicate MatchesAt(s: string, i: int, j: int) {
    && 0 < i && i + 1 < j && j + 1 < |s|
    && s[i] == '@' && s[j] == '.'
    && AllPlain(s[..i]) && AllPlain(s[i + 1..j]) && AllPlain(s[j + 1..])
  }

  /** What the regular expression accepts: some split of the whole string
      into the pattern's five parts. */
  predicate EmailPattern(s: string) {
    exists i, j | 0 < i < j < |s| :: MatchesAt(s, i, j)
  }

  /** A '.' with at least one character on each side of it. */
  predicate HasInnerDot(d: string) {
    |d| >= 3 && '.' in d[1..|d| - 1]
  }

  /** The check computed by splitting: one '@' with a non-empty part before
      it, no whitespace anywhere, and a '.' inside the part after it. */
  function IsEmail(s: string): bool {
    var parts := Split(s, '@');
    && |parts| == 2 && parts[0] != ""
    && (forall k | 0 <= k < |s| :: s[k] !in JsWhitespace)
    && HasInnerDot(parts[1])
  }

  lemma PlainHasNoAt(x: string)
    requires AllPlain(x)
    ensures '@' !in x
  {
  }

  lemma PlainAroundDot(p: string, q: string)
    requires AllPlain(p) && AllPlain(q)
    ensures AllPlain(p + ['.'] + q)
  {
    var d := p + ['.'] + q;
    forall k | 0 <= k < |d| ensures Plain(d[k]) {
      if k < |p| { assert d[k] == p[k]; }
      else if k > |p| { assert d[k] == q[k - |p| - 1]; }
    }
  }

  lemma NoWhitespaceAroundAt(a: string, d: string)
    requires AllPlain(a) && AllPlain(d)
    ensures var s := a + ['@'] + d; forall k | 0 <= k < |s| :: s[k] !in JsWhitespace
  {
    var s := a + ['@'] + d;
    forall k | 0 <= k < |s| ensures s[k] !in JsWhitespace {
      if k < |a| { assert s[k] == a[k]; }
      else if k > |a| { assert s[k] == d[k - |a| - 1]; }
    }
  }

  lemma {:induction false} PatternIsEmail(s: string, i: int, j: int)
    requires MatchesAt(s, i, j)
    ensures IsEmail(s)
  {
    var a, p, q := s[..i], s[i + 1..j], s[j + 1..];
    var d := p + ['.'] + q;
    assert s == a + ['@'] + d;
    PlainAroundDot(p, q);
    PlainHasNoAt(a);
    PlainHasNoAt(d);
    SplitOfSepPrefix(a, '@', d);
    assert Split(s, '@') == [a, d];
    NoWhitespaceAroundAt(a, d);
    assert d[1..|d| - 1][|p| - 1] == '.';
  }

  lemma {:induction false} EmailIsPattern(s: string)
    requires IsEmail(s)
    ensures EmailPattern(s)
  {
    var parts := Split(s, '@');
    var a, d := parts[0], parts[1];
    JoinSplit(s, '@');
    assert Join(parts, '@') == a + ['@'] + d by {
      assert parts == [a, d];
      assert Join([d], '@') == d;
    }
    var m :| 0 <= m < |d| - 2 && d[1..|d| - 1][m] == '.';
    var i, j := |a|, |a| + 2 + m;
    assert s[..i] == a;
    assert s[i + 1..j] == d[..m + 1];
    assert s[j + 1..] == d[m + 2..];
    assert s[i] == '@';
    assert s[j] == d[m + 1] == '.';
    forall k | 0 <= k < |s| ensures s[k] != '@' || k == i {
      if k < i { assert s[k] == a[k]; assert a[k] in a; }
      else if k > i { assert s[k] == d[k - i - 1]; assert d[k - i - 1] in d; }
    }
    assert MatchesAt(s, i, j);
  }

  /** The split-based check accepts exactly the strings the regular
      expression accepts. */
  lemma EmailCheckIsPattern(s: string)
    ensures IsEmail(s) <==> EmailPattern(s)
  {
    if IsEmail(s) { EmailIsPattern(s); }
    if EmailPattern(s) {
      var i, j :| MatchesAt(s, i, j);
      PatternIsEmail(s, i, j);
    }
  }

  /** An accepted address has no whitespace, exactly one '@', and a '.'
      after the '@' with text on both sides. */
  lemma AcceptedShape(s: string)
    requires EmailPattern(s)
    ensures forall k | 0 <= k < |s| :: s[k] !in JsWhitespace
    ensures exists i | 0 < i < |s| :: s[i] == '@' && '@' !in s[..i] && '@' !in s[i + 1..]
              && HasInnerDot(s[i + 1..])
  {
    EmailCheckIsPattern(s);
    var parts := Split(s, '@');
    JoinSplit(s, '@');
    assert Join(parts, '@') == parts[0] + ['@'] + parts[1] by {
      assert parts == [parts[0], parts[1]];
      assert Join([parts[1]], '@') == parts[1];
    }
    var i := |parts[0]|;
    assert s[..i] == parts[0] && s[i + 1..] == parts[1];
    assert s[i] == '@';
  }

  // ---------------------------------------------------------------------------
  // The route
  // ---------------------------------------------------------------------------

  /** Supabase's answer to `resetPasswordForEmail`: done, an error object, or
      a thrown exception. */
  datatype Sending = Sent | Errored | Threw

  /** The reset mail the route asked for: the address and `redirectTo`. */
  datatype ResetRequest = ResetRequest(email: string, redirectTo: string)

  datatype ForgotOutcome = ForgotOutcome(request: Option<ResetRequest>, reply: Reply)

  const DefaultSiteUrl: string := "http://localhost:3000"
  const EmailRequired: string := "Email is required"
  const InvalidFormat: string := "Invalid email format"
  const Processing: string := "An error occurred while processing your request"
  const Instructions: string :=
    "If an account exists with that email, " + "we have sent password reset instructions."

  /** The page the reset mail links to. */
  function RedirectTo(siteUrlEnv: Option<string>): (r: string)
    ensures Truthy(siteUrlEnv) ==> r == siteUrlEnv.value + "/reset-password"
    ensures !Truthy(siteUrlEnv) ==> r == DefaultSiteUrl + "/reset-password"
  {
    OrElse(siteUrlEnv, DefaultSiteUrl) + "/reset-password"
  }

  /** The handler. `body` is the `email` field (`None` inside when absent),
      or `None` when reading the body threw; `siteUrlEnv` is
      `NEXT_PUBLIC_SITE_URL`. */
  function Forgot(body: Option<Option<Json>>, siteUrlEnv: Option<string>, sending: Sending): (r: ForgotOutcome)
    ensures body.None? ==> r == ForgotOutcome(None, Failure(500, Processing))
    ensures body.Some? && !Truthy(AsString(body.value)) ==> r == ForgotOutcome(None, Failure(400, EmailRequired))
    ensures body.Some? && Truthy(AsString(body.value)) && !EmailPattern(AsString(body.value).value) ==>
      r == ForgotOutcome(None, Failure(400, InvalidFormat))
    ensures r.request.Some? <==> body.Some? && Truthy(AsString(body.value)) && EmailPattern(AsString(body.value).value)
    ensures r.request.Some? ==>
      r.request.value == ResetRequest(AsString(body.value).value, RedirectTo(siteUrlEnv))
    ensures r.request.Some? ==>
      r.reply == (if sending == Threw then Failure(500, Processing) else Success(Some(Instructions)))
  {
    if body.None? then ForgotOutcome(None, Failure(500, Processing))
    else
      var email := AsString(body.value);
      if !Truthy(email) then ForgotOutcome(None, Failure(400, EmailRequired))
      else if !IsEmail(email.value) then
        EmailCheckIsPattern(email.value);
        ForgotOutcome(None, Failure(400, InvalidFormat))
      else
        EmailCheckIsPattern(email.value);
        var request := Some(ResetRequest(email.value, RedirectTo(siteUrlEnv)));
        match sending
        case Threw => ForgotOutcome(request, Failure(500, Processing))
        case _ => ForgotOutcome(request, Success(Some(Instructions)))
  }

  /** Whether Supabase sent the mail or reported an error (for instance, no
      such account), the caller sees the same reply. */
  lemma NoAccountEnumeration(body: Option<Option<Json>>, siteUrlEnv: Option<string>)
    ensures Forgot(body, siteUrlEnv, Sent) == Forgot(body, siteUrlEnv, Errored)
  {
  }

  /** The reset link points at the reset page of the site. */
  lemma RedirectOnSite(siteUrlEnv: Option<string>)
    ensures var site := OrElse(siteUrlEnv, DefaultSiteUrl);
      && StartsWith(RedirectTo(siteUrlEnv), site)
      && RedirectTo(siteUrlEnv)[|site|..] == "/reset-password"
  {
    var site := OrElse(siteUrlEnv, DefaultSiteUrl);
    assert RedirectTo(siteUrlEnv)[..|site|] == site;
  }
}

=== FILE: history.dfy ===
/**
 The history page (`app/history/page.tsx`): the search-and-type filter, the
 four sort orders and the name given to a downloaded item. Dates are
 represented by the millisecond value `new Date(createdAt).getTime()`
 gives them.
 */
module History {
  import opened Text

  datatype Kind = TextToSpeech | SpeechToText

  datatype TypeFilter = All | Only(kind: Kind)

  datatype SortMode = Newest | Oldest | Longest | Shortest

  datatype Item = Item(id: string, name: string, kind: Kind, wordCount: int, createdAt: int,
                       audioUrl: string, textContent: string)

  // ---------------------------------------------------------------------------
  // Filtering
  // ---------------------------------------------------------------------------

  /** The filter predicate: the lower-cased query occurs in the lower-cased
      name or text, and the type filter is "all" or the item's type. */
  predicate Matches(item: Item, query: string, filter: TypeFilter) {
    && (Contains(Lower(item.name), Lower(query)) || Contains(Lower(item.textContent), Lower(query)))
    && (filter == All || filter == Only(item.kind))
  }

  /** `items.filter(...)`. */
  function Filter(items: seq<Item>, query: string, filter: TypeFilter): (r: seq<Item>)
    ensures |r| <= |items|
    ensures forall i | 0 <= i < |r| :: Matches(r[i], query, filter) && r[i] in items
    ensures forall i | 0 <= i < |items| :: Matches(items[i], query, filter) ==> items[i] in r
    decreases |items|
  {
    if |items| == 0 then []
    else
      var rest := Filter(items[1..], query, filter);
      assert forall i | 0 <= i < |rest| :: rest[i] in items by {
        forall i | 0 <= i < |rest| ensures rest[i] in items {
          var k :| 0 <= k < |items[1..]| && items[1..][k] == rest[i];
          assert items[k + 1] == rest[i];
        }
      }
      assert forall i | 1 <= i < |items| :: items[i] == items[1..][i - 1];
      if Matches(items[0], query, filter) then [items[0]] + rest else rest
  }

  /** Filtering works piece by piece: the kept items of a concatenation are
      the kept items of each part, in order. With the single-item case this
      pins the filter down as order-preserving. */
  lemma {:induction false} FilterAppend(a: seq<Item>, b: seq<Item>, query: string, filter: TypeFilter)
    ensures Filter(a + b, query, filter) == Filter(a, query, filter) + Filter(b, query, filter)
    decreases |a|
  {
    if |a| == 0 {
      assert a + b == b;
    } else {
      assert (a + b)[1..] == a[1..] + b;
      FilterAppend(a[1..], b, query, filter);
    }
  }

  lemma FilterSingle(x: Item, query: string, filter: TypeFilter)
    ensures Filter([x], query, filter) == (if Matches(x, query, filter) then [x] else [])
  {
  }

  /** An empty query under "all" keeps the whole list. */
  lemma {:induction false} EmptyQueryKeepsAll(items: seq<Item>)
    ensures Filter(items, "", All) == items
    decreases |items|
  {
    if |items| > 0 {
      EmptyQueryKeepsAll(items[1..]);
      ContainsSelfAndEmpty(Lower(items[0].name));
      assert Lower("") == "";
    }
  }

  // ---------------------------------------------------------------------------
  // Sorting
  // ---------------------------------------------------------------------------

  /** The quantity each mode orders by ascending: the comparators
      `b - a` (newest, longest) and `a - b` (oldest, shortest). */
  function SortKey(item: Item, mode: SortMode): int {
    match mode
    case Newest => -item.createdAt
    case Oldest => item.createdAt
    case Longest => -item.wordCount
    case Shortest => item.wordCount
  }

  predicate SortedBy(s: seq<Item>, mode: SortMode) {
    forall i, j | 0 <= i < j < |s| :: SortKey(s[i], mode) <= SortKey(s[j], mode)
  }

  /** Inserting ahead of the first item whose key is not smaller, so that
      items with equal keys keep their order (the sort is stable). */
  function Insert(x: Item, s: seq<Item>, mode: SortMode): (r: seq<Item>)
    requires SortedBy(s, mode)
    ensures SortedBy(r, mode)
    ensures multiset(r) == multiset(s) + multiset{x}
    ensures |r| == |s| + 1
    decreases |s|
  {
    if |s| == 0 || SortKey(x, mode) <= SortKey(s[0], mode) then [x] + s
    else
      var rest := Insert(x, s[1..], mode);
      assert s == [s[0]] + s[1..];
      HeadBelowInserted(x, s, rest, mode);
      [s[0]] + rest
  }

  /** Every item of `rest`, which holds `x` and the tail of `s`, is not
      below the head of `s` when `x` is not. */
  lemma HeadBelowInserted(x: Item, s: seq<Item>, rest: seq<Item>, mode: SortMode)
    requires |s| > 0 && SortedBy(s, mode) && SortKey(s[0], mode) < SortKey(x, mode)
    requires multiset(rest) == multiset(s[1..]) + multiset{x}
    ensures forall k | 0 <= k < |rest| :: SortKey(s[0], mode) <= SortKey(rest[k], mode)
  {
    forall k | 0 <= k < |rest| ensures SortKey(s[0], mode) <= SortKey(rest[k], mode) {
      assert rest[k] in multiset(rest);
      if rest[k] != x {
        assert rest[k] in multiset(s[1..]);
        var m :| 0 <= m < |s[1..]| && s[1..][m] == rest[k];
        assert s[m + 1] == rest[k];
      }
    }
  }

  /** The stable sort of `[...filtered].sort(comparator)`. */
  function Sort(s: seq<Item>, mode: SortMode): (r: seq<Item>)
    ensures SortedBy(r, mode)
    ensures multiset(r) == multiset(s)
    ensures |r| == |s|
    decreases |s|
  {
    if |s| == 0 then []
    else
      assert s == [s[0]] + s[1..];
      Insert(s[0], Sort(s[1..], mode), mode)
  }

  /** What each mode means for the items it lists. */
  lemma SortOrders(s: seq<Item>, mode: SortMode)
    ensures var r := Sort(s, mode);
      && (mode == Newest ==> forall i, j | 0 <= i < j < |r| :: r[i].createdAt >= r[j].createdAt)
      && (mode == Oldest ==> forall i, j | 0 <= i < j < |r| :: r[i].createdAt <= r[j].createdAt)
      && (mode == Longest ==> forall i, j | 0 <= i < j < |r| :: r[i].wordCount >= r[j].wordCount)
      && (mode == Shortest ==> forall i, j | 0 <= i < j < |r| :: r[i].wordCount <= r[j].wordCount)
  {
    var r := Sort(s, mode);
    forall i, j | 0 <= i < j < |r| ensures SortKey(r[i], mode) <= SortKey(r[j], mode) { }
  }

  /** The list the page shows: the filtered items, sorted. */
  function Shown(items: seq<Item>, query: string, filter: TypeFilter, mode: SortMode): (r: seq<Item>)
    ensures SortedBy(r, mode)
    ensures multiset(r) == multiset(Filter(items, query, filter))
    ensures forall i | 0 <= i < |r| :: Matches(r[i], query, filter)
  {
    var f := Filter(items, query, filter);
    var r := Sort(f, mode);
    assert forall i | 0 <= i < |r| :: r[i] in multiset(f);
    r
  }

  // ---------------------------------------------------------------------------
  // Download names
  // ---------------------------------------------------------------------------

  const NameLimit: nat := 30

  /** `name.slice(0, budget).replace(/[^a-z0-9]/gi, "_")`, on UTF-16 code
      units: a letter or digit is kept and every other unit becomes '_', so
      a character outside the Basic Multilingual Plane becomes "__", or "_"
      when the slice cuts it in half. */
  function SafeName(s: string, budget: nat): (r: string)
    ensures |r| == if budget < Utf16Length(s) then budget else Utf16Length(s)
    ensures forall i | 0 <= i < |r| :: IsAsciiAlnum(r[i]) || r[i] == '_'
    decreases |s|
  {
    if |s| == 0 || budget == 0 then ""
    else if Utf16Units(s[0]) == 2 then
      (if budget >= 2 then "__" + SafeName(s[1..], budget - 2) else "_")
    else (if IsAsciiAlnum(s[0]) then [s[0]] else "_") + SafeName(s[1..], budget - 1)
  }

  /** `SafeName` on a name of Basic Multilingual Plane characters replaces,
      position by position, every character but ASCII letters and digits. */
  lemma {:induction false} SafeNameOfPlainText(s: string, budget: nat)
    requires forall i | 0 <= i < |s| :: s[i] as int < 0x1_0000
    ensures var r := SafeName(s, budget);
      forall i | 0 <= i < |r| :: r[i] == (if IsAsciiAlnum(s[i]) then s[i] else '_')
    decreases |s|
  {
    if |s| > 0 && budget > 0 {
      SafeNameOfPlainText(s[1..], budget - 1);
      var r := SafeName(s, budget);
      var t := SafeName(s[1..], budget - 1);
      assert r == [if IsAsciiAlnum(s[0]) then s[0] else '_'] + t;
      forall i | 0 <= i < |r| ensures r[i] == (if IsAsciiAlnum(s[i]) then s[i] else '_') {
        if i > 0 { assert r[i] == t[i - 1] && s[i] == s[1..][i - 1]; }
      }
    }
  }

  function Extension(kind: Kind): string {
    match kind
    case TextToSpeech => ".txt"
    case SpeechToText => ".mp3"
  }

  /** The `download` attribute `handleDownload` sets. */
  function DownloadName(item: Item): (r: string)
    ensures |r| <= NameLimit + 4
  {
    SafeName(item.name, NameLimit) + Extension(item.kind)
  }

  /** The name has a stem of at most 30 letters, digits and '_', followed by
      ".txt" for a text-to-speech item and ".mp3" for a speech-to-text one;
      a name of at most 30 ASCII letters and digits is kept as it is. */
  lemma DownloadNameParts(item: Item)
    ensures var r := DownloadName(item);
      && |r| >= 4
      && r[|r| - 4..] == Extension(item.kind)
      && (forall i | 0 <= i < |r| - 4 :: IsAsciiAlnum(r[i]) || r[i] == '_')
    ensures |item.name| <= NameLimit && (forall i | 0 <= i < |item.name| :: IsAsciiAlnum(item.name[i])) ==>
      DownloadName(item) == item.name + Extension(item.kind)
  {
    var stem := SafeName(item.name, NameLimit);
    var r := DownloadName(item);
    assert r[|r| - 4..] == Extension(item.kind);
    assert forall i | 0 <= i < |r| - 4 :: r[i] == stem[i];
    if |item.name| <= NameLimit && (forall i | 0 <= i < |item.name| :: IsAsciiAlnum(item.name[i])) {
      assert forall i | 0 <= i < |item.name| :: item.name[i] as int < 0x1_0000;
      SafeNameOfPlainText(item.name, NameLimit);
      assert stem == item.name;
    }
  }
}

=== FILE: json.dfy ===
/**
 JSON values as both back ends see them, with the two truthiness rules the
 code relies on: Python's `not x` in the FastAPI services and JavaScript's
 `!x` in the Next.js routes. Numbers are integers here; fractional numbers
 play no part in any decision the model covers.
 */
module JsonValues {
  import opened Common
  import opened Text

  datatype Json =
    | JNull
    | JBool(b: bool)
    | JNum(n: int)
    | JStr(s: string)
    | JArr(items: seq<Json>)
    | JObj(fields: map<string, Json>)

  /** Python truthiness: `None`, `False`, `0` and empty strings, lists and
      dicts are false. */
  predicate PyTruthy(v: Json) {
    match v
    case JNull => false
    case JBool(b) => b
    case JNum(n) => n != 0
    case JStr(s) => s != ""
    case JArr(items) => items != []
    case JObj(fields) => fields != map[]
  }

  /** JavaScript truthiness of a field that may be absent (`undefined`):
      `undefined`, `null`, `false`, `0` and `""` are false; every array and
      object is true, even an empty one. */
  predicate JsTruthy(v: Option<Json>) {
    match v
    case None => false
    case Some(JNull) => false
    case Some(JBool(b)) => b
    case Some(JNum(n)) => n != 0
    case Some(JStr(s)) => s != ""
    case Some(JArr(_)) => true
    case Some(JObj(_)) => true
  }

  /** The two rules disagree exactly on empty arrays and empty objects. */
  lemma TruthinessDiffers(v: Json)
    ensures PyTruthy(v) != JsTruthy(Some(v)) <==> v == JArr([]) || v == JObj(map[])
  {
  }

  /** Python's `d.get(k)`: the value, or `None` (here `JNull`) when absent. */
  function Get(d: map<string, Json>, k: string): (v: Json)
    ensures k !in d ==> v == JNull
    ensures k in d ==> v == d[k]
  {
    if k in d then d[k] else JNull
  }

  /** `typeof v === 'string'` with the string, for a field that may be absent. */
  function AsString(v: Option<Json>): (r: Option<string>)
    ensures r.Some? <==> v.Some? && v.value.JStr?
    ensures r.Some? ==> v == Some(JStr(r.value))
  {
    if v.Some? && v.value.JStr? then Some(v.value.s) else None
  }

  /** JavaScript's `String(v)` for a JSON value, which a template literal
      `${v}` applies: arrays are joined with ',' with `null` elements left
      empty, and every object reads "[object Object]". */
  function ToJsString(v: Json): string
    decreases v
  {
    match v
    case JNull => "null"
    case JBool(b) => if b then "true" else "false"
    case JNum(n) => IntToString(n)
    case JStr(s) => s
    case JArr(items) =>
      if |items| == 0 then ""
      else Join(seq(|items|, i requires 0 <= i < |items| =>
                    if items[i].JNull? then "" else ToJsString(items[i])), ',')
    case JObj(_) => "[object Object]"
  }

  /** `${v}` for a field that may be absent (`undefined`). */
  function TemplateString(v: Option<Json>): (r: string)
    ensures v.Some? && v.value.JStr? ==> r == v.value.s
    ensures v.None? ==> r == "undefined"
  {
    if v.None? then "undefined" else ToJsString(v.value)
  }

  /** A JSON response of a route handler: a success, or an `error` text with
      its status. */
  datatype Reply = Success(message: Option<string>) | Failure(status: int, error: string)
}

=== FILE: mail.dfy ===
/**
 The two mail routes, `POST /api/contact` (`app/api/contact/route.ts`) and
 `POST /api/send-email` (`app/api/send-email/route.ts`). Both read
 `{name, email, company, message}` from the JSON body, send one plain-text
 mail and answer `{success: true}`; anything that throws on the way (an
 unreadable body, a refused delivery) becomes 500. The SMTP transport is a
 parameter: whether `sendMail` returned.
 */
module MailRoutes {
  import opened Common
  import opened Text
  import opened JsonValues

  /** The destructured body; a field the body lacks is `None`. */
  datatype MailFields = MailFields(name: Option<Json>, email: Option<Json>,
                                   company: Option<Json>, message: Option<Json>)

  datatype Mail = Mail(to: string, subject: string, text: string)

  /** The mail the route tried to send, if it got that far, and its reply. */
  datatype MailOutcome = MailOutcome(attempted: Option<Mail>, reply: Reply)

  const ContactRecipient: string := "info@sensevoice.ai"
  const SendEmailRecipient: string := "asifahnafchowdhury@gmail.com"
  const SubjectPrefix: string := "SenseVoice | "
  const SendFailed: string := "Failed to send email"

  /** `${v || fallback}`. */
  function TextOr(v: Option<Json>, fallback: string): (r: string)
    ensures JsTruthy(v) ==> r == TemplateString(v)
    ensures !JsTruthy(v) ==> r == fallback
  {
    if JsTruthy(v) then TemplateString(v) else fallback
  }

  function Subject(f: MailFields): string {
    SubjectPrefix + TextOr(f.company, "No Company")
  }

  /** The last line of the body: empty unless there is a message. */
  function MessageLine(f: MailFields): string {
    if JsTruthy(f.message) then "Message: " + TemplateString(f.message) else ""
  }

  /** The four lines of the body, in order. */
  function BodyLines(f: MailFields): seq<string> {
    ["Name: " + TemplateString(f.name),
     "Company: " + TextOr(f.company, "-"),
     "Email: " + TemplateString(f.email),
     MessageLine(f)]
  }

  function Body(f: MailFields): string {
    Join(BodyLines(f), '\n')
  }

  /** The handler with its recipient. `body` is `None` when reading or
      destructuring the request body threw; `delivered` is whether
      `sendMail` returned rather than threw. */
  function SendMail(recipient: string, body: Option<MailFields>, delivered: bool): (r: MailOutcome)
    ensures r.reply.Success? <==> body.Some? && delivered
    ensures r.reply.Success? ==> r.reply.message.None?
    ensures r.reply.Failure? ==> r.reply == Failure(500, SendFailed)
    ensures r.attempted.Some? <==> body.Some?
    ensures r.attempted.Some? ==> r.attempted.value.to == recipient
    ensures body.Some? ==> r.attempted == Some(Mail(recipient, Subject(body.value), Body(body.value)))
  {
    match body
    case None => MailOutcome(None, Failure(500, SendFailed))
    case Some(f) =>
      var mail := Mail(recipient, Subject(f), Body(f));
      if delivered then MailOutcome(Some(mail), Success(None))
      else MailOutcome(Some(mail), Failure(500, SendFailed))
  }

  function Contact(body: Option<MailFields>, delivered: bool): (r: MailOutcome)
    ensures r.attempted.Some? ==> r.attempted.value.to == ContactRecipient
  {
    SendMail(ContactRecipient, body, delivered)
  }

  function SendEmail(body: Option<MailFields>, delivered: bool): (r: MailOutcome)
    ensures r.attempted.Some? ==> r.attempted.value.to == SendEmailRecipient
  {
    SendMail(SendEmailRecipient, body, delivered)
  }

  /** The subject reads back as the company, or "No Company" when the
      company is missing or falsy. */
  lemma SubjectNamesCompany(f: MailFields)
    ensures StartsWith(Subject(f), SubjectPrefix)
    ensures JsTruthy(f.company) ==> Subject(f)[|SubjectPrefix|..] == TemplateString(f.company)
    ensures !JsTruthy(f.company) ==> Subject(f)[|SubjectPrefix|..] == "No Company"
  {
    var rest := TextOr(f.company, "No Company");
    assert Subject(f) == SubjectPrefix + rest;
    assert Subject(f)[..|SubjectPrefix|] == SubjectPrefix;
    assert Subject(f)[|SubjectPrefix|..] == rest;
  }

  /** The message line is empty exactly when there is no message, and reads
      back as the message otherwise. */
  lemma MessageLineIff(f: MailFields)
    ensures MessageLine(f) == "" <==> !JsTruthy(f.message)
    ensures JsTruthy(f.message) ==> MessageLine(f)[|"Message: "|..] == TemplateString(f.message)
  {
    if JsTruthy(f.message) {
      assert |MessageLine(f)| >= |"Message: "|;
    }
  }

  /** When no field text holds a line break, splitting the body at line
      breaks gives back the four lines, the fields readable from them. */
  lemma {:induction false} BodyReadsBack(f: MailFields)
    requires '\n' !in TemplateString(f.name) && '\n' !in TemplateString(f.email)
    requires '\n' !in TextOr(f.company, "-") && '\n' !in MessageLine(f)
    ensures Split(Body(f), '\n') == BodyLines(f)
    ensures |Split(Body(f), '\n')| == 4
    ensures Split(Body(f), '\n')[1] == "Company: " + TextOr(f.company, "-")
    ensures Split(Body(f), '\n')[3] == "" <==> !JsTruthy(f.message)
  {
    var ls := BodyLines(f);
    assert '\n' !in ls[0] by { assert ls[0] == "Name: " + TemplateString(f.name); }
    assert '\n' !in ls[1] by { assert ls[1] == "Company: " + TextOr(f.company, "-"); }
    assert '\n' !in ls[2] by { assert ls[2] == "Email: " + TemplateString(f.email); }
    SplitJoin(ls, '\n');
    MessageLineIff(f);
  }

  /** The two routes send the same mail to different recipients and answer
      alike. */
  lemma RoutesDifferOnlyInRecipient(body: Option<MailFields>, delivered: bool)
    ensures Contact(body, delivered).reply == SendEmail(body, delivered).reply
    ensures Contact(body, delivered).attempted.Some? <==> SendEmail(body, delivered).attempted.Some?
    ensures Contact(body, delivered).attempted.Some? ==>
      Contact(body, delivered).attempted.value.(to := SendEmailRecipient)
        == SendEmail(body, delivered).attempted.value
  {
  }
}

=== FILE: profile.dfy ===
/**
 The account page (`app/profile/page.tsx`): the password-change and
 profile-update handlers and the Cancel button of the profile form. The
 server's answers are outcomes passed in.
 */
module ProfilePage {
  import opened Common
  import opened Text
  import AuthContext

  /** The page's form state. */
  datatype Form = Form(isEditing: bool, name: string, email: string,
                       currentPassword: string, newPassword: string, confirmPassword: string,
                       success: string, error: string)

  /** How a request ended: the response was ok, it was not ok and carried
      this `message` (`None` when absent or empty), or something threw
      an error with this message. */
  datatype Answer<T> = Answered(data: T) | NotOk(message: Option<string>) | Threw(thrown: string)

  /** The body of `PUT /api/auth/change-password`. */
  datatype PasswordRequest = PasswordRequest(currentPassword: string, newPassword: string)

  const Mismatch: string := "New passwords do not match"
  const TooShort: string := "Password must be at least 8 characters long"
  const PasswordChanged: string := "Password changed successfully!"
  const ChangeFailed: string := "Failed to change password"
  const ProfileUpdated: string := "Profile updated successfully!"
  const UpdateFailed: string := "Failed to update profile"

  /** The error text of a failed request. */
  function FailureText<T>(answer: Answer<T>, fallback: string): string
    requires !answer.Answered?
  {
    match answer
    case NotOk(message) => OrElse(message, fallback)
    case Threw(thrown) => thrown
  }

  /** What `handlePasswordChange` leaves behind, and the request it sent. */
  datatype Change = Change(form: Form, sent: Option<PasswordRequest>)

  /** `handlePasswordChange` with the server's answer. */
  function PasswordChange(f: Form, answer: Answer<()>): (r: Change)
    ensures f.newPassword != f.confirmPassword ==> r == Change(f.(success := "", error := Mismatch), None)
    ensures f.newPassword == f.confirmPassword && Utf16Length(f.newPassword) < 8 ==>
      r == Change(f.(success := "", error := TooShort), None)
    ensures r.sent.Some? <==> f.newPassword == f.confirmPassword && Utf16Length(f.newPassword) >= 8
    ensures r.sent.Some? ==> r.sent.value == PasswordRequest(f.currentPassword, f.newPassword)
    ensures r.sent.Some? && answer.Answered? ==>
      r.form == f.(currentPassword := "", newPassword := "", confirmPassword := "",
                   success := PasswordChanged, error := "")
    ensures r.sent.Some? && !answer.Answered? ==>
      r.form == f.(success := "", error := FailureText(answer, ChangeFailed))
  {
    var cleared := f.(success := "", error := "");
    if f.newPassword != f.confirmPassword then Change(cleared.(error := Mismatch), None)
    else if Utf16Length(f.newPassword) < 8 then Change(cleared.(error := TooShort), None)
    else
      var sent := Some(PasswordRequest(f.currentPassword, f.newPassword));
      if answer.Answered? then
        Change(cleared.(currentPassword := "", newPassword := "", confirmPassword := "",
                        success := PasswordChanged), sent)
      else Change(cleared.(error := FailureText(answer, ChangeFailed)), sent)
  }

  /** The name and e-mail fields only change by typing or Cancel: the
      password handler leaves them, and the editing flag, alone; and it
      never leaves both a success and an error message. */
  lemma PasswordChangeKeepsProfileFields(f: Form, answer: Answer<()>)
    ensures var g := PasswordChange(f, answer).form;
      && g.name == f.name && g.email == f.email && g.isEditing == f.isEditing
      && (g.success == "" || g.error == "")
  {
  }

  /** Cancel: leave edit mode, put back the user's name and e-mail, clear
      both messages. */
  function Cancel(f: Form, user: AuthContext.Profile): (r: Form)
    ensures !r.isEditing && r.name == user.name && r.email == user.email
    ensures r.success == "" && r.error == ""
    ensures r.currentPassword == f.currentPassword && r.newPassword == f.newPassword
    ensures r.confirmPassword == f.confirmPassword
  {
    f.(isEditing := false, name := user.name, email := user.email, error := "", success := "")
  }

  /** The body of `PUT /api/auth/update-profile`. */
  datatype ProfileRequest = ProfileRequest(name: string, email: string)

  /** What `handleProfileUpdate` leaves behind: the form, the sign-in state
      and the request it sent. */
  datatype Update = Update(form: Form, auth: AuthContext.AuthState, sent: ProfileRequest)

  /** `handleProfileUpdate`; a successful answer carries the `user` the
      server returned, which goes through `updateUser`. */
  function ProfileUpdate(f: Form, s: AuthContext.AuthState, answer: Answer<AuthContext.ProfilePatch>, now: int)
    : (r: Update)
    ensures r.sent == ProfileRequest(f.name, f.email)
    ensures answer.Answered? ==>
      && r.auth == AuthContext.UpdateUser(s, answer.data, now)
      && r.form == f.(isEditing := false, success := ProfileUpdated, error := "")
    ensures !answer.Answered? ==>
      && r.auth == s
      && r.form == f.(success := "", error := FailureText(answer, UpdateFailed))
  {
    var cleared := f.(success := "", error := "");
    var sent := ProfileRequest(f.name, f.email);
    if answer.Answered? then
      Update(cleared.(success := ProfileUpdated, isEditing := false),
             AuthContext.UpdateUser(s, answer.data, now), sent)
    else Update(cleared.(error := FailureText(answer, UpdateFailed)), s, sent)
  }

  /** After Cancel, a successful update and then the form again shows what
      the signed-in user now holds. */
  lemma CancelAfterUpdateShowsUpdatedUser(f: Form, s: AuthContext.AuthState,
                                          patch: AuthContext.ProfilePatch, now: int)
    requires s.user.Some?
    ensures var r := ProfileUpdate(f, s, Answered(patch), now);
      var u := AuthContext.Merge(s.user.value, patch);
      && r.auth.user == Some(u)
      && Cancel(r.form, r.auth.user.value).name == u.name
      && Cancel(r.form, r.auth.user.value).email == u.email
  {
  }
}

=== FILE: relay.dfy ===
/**
 The FastAPI relay of `api/main.py`: it validates a text-to-speech or
 speech-to-text request, builds the OpenAI call, and reshapes the reply.
 Environment lookups and the provider's answer are parameters; each handler
 returns the outbound call it would make (if any) together with the HTTP
 outcome, so that "rejected before the key is read / before the upstream
 call" can be stated.
 */
module Relay {
  import opened Common
  import opened Text
  import Base64

  // ---------------------------------------------------------------------------
  // Voice configuration
  // ---------------------------------------------------------------------------

  /** Custom voice ids to OpenAI voice names. */
  const VoiceMap: map<string, string> := map["female" := "nova", "male" := "echo"]

  /** The OpenAI voice used for an id missing from `VoiceMap`. */
  const FallbackVoice: string := "alloy"

  /** Tone descriptions for the mapped OpenAI voices. */
  const VoiceCharacteristics: map<string, string> :=
    map["nova" := "warm, friendly, and conversational",
        "echo" := "clear, articulate, and professional"]

  const DefaultCharacteristic: string := "natural and clear"

  /** `get_openai_voice`: the mapped voice, or the fallback for unknown ids. */
  function OpenAIVoice(voiceId: string): (r: string)
    ensures voiceId == "female" ==> r == "nova"
    ensures voiceId == "male" ==> r == "echo"
    ensures r == FallbackVoice <==> voiceId !in VoiceMap
    ensures r in {"nova", "echo", "alloy"}
  {
    if voiceId in VoiceMap then VoiceMap[voiceId] else FallbackVoice
  }

  /** The tone description for an OpenAI voice, with its default. */
  function Characteristic(openAIVoice: string): string {
    if openAIVoice in VoiceCharacteristics then VoiceCharacteristics[openAIVoice]
    else DefaultCharacteristic
  }

  // ---------------------------------------------------------------------------
  // Instruction text
  // ---------------------------------------------------------------------------

  /** The three instruction texts `generate_instructions` chooses between. */
  datatype Narration = BengaliNarrator | EnglishNarrator | BilingualNarrator

  /** "bangla" and "english" pick their own narrator; every other language
      string gets the bilingual one. */
  function NarrationFor(language: string): (n: Narration)
    ensures n == BengaliNarrator <==> language == "bangla"
    ensures n == EnglishNarrator <==> language == "english"
  {
    if language == "bangla" then BengaliNarrator
    else if language == "english" then EnglishNarrator
    else BilingualNarrator
  }

  /** The text before the tone description: the narrator's role, then the
      request to speak in a given tone. */
  function Opening(n: Narration): string {
    "You are a " +
    match n
    case BengaliNarrator => "professional " + "Bengali voice narrator. Speak in a "
    case EnglishNarrator => "professional " + "English voice narrator. Speak in a "
    case BilingualNarrator => "bilingual " + "voice narrator fluent in both Bengali and English. Speak in a "
  }

  /** The text after the tone description. */
  function Closing(n: Narration): string {
    match n
    case BengaliNarrator =>
      " tone with perfect Bengali " + "pronunciation (বাংলা উচ্চারণ). "
      + "Maintain natural rhythm, " + "proper stress on syllables, "
      + "and use appropriate " + "emotional inflection. "
      + "Handle Bengali numbers, " + "dates, and cultural " + "references authentically."
    case EnglishNarrator =>
      " tone with clear enunciation " + "and natural pacing. "
      + "Use appropriate pauses " + "for punctuation, "
      + "vary your intonation " + "to maintain listener engagement, "
      + "and emphasize key words naturally."
    case BilingualNarrator =>
      " tone, seamlessly switching " + "between languages "
      + "while maintaining proper " + "pronunciation for each. "
      + "Use natural code-switching " + "patterns common in " + "Bengali-English conversations."
  }

  /** A text assembled from an opening, a tone description and a closing
      starts with the opening and holds the tone description right after it. */
  lemma Assembled(o: string, c: string, cl: string)
    ensures |o| <= |o + c + cl| && (o + c + cl)[..|o|] == o
    ensures OccursAt(o + c + cl, c, |o|)
  {
    assert (o + c + cl)[|o|..|o| + |c|] == c;
  }

  /** The instruction text of narrator `n` for the tone description `c`. */
  function Narrate(n: Narration, c: string): (r: string)
    ensures |Opening(n)| <= |r| && r[..|Opening(n)|] == Opening(n)
  {
    Assembled(Opening(n), c, Closing(n));
    Opening(n) + c + Closing(n)
  }

  /** `generate_instructions(language, openai_voice)`: the narrator text for the
      language with the voice's tone description embedded in it. */
  function Instructions(language: string, openAIVoice: string): string {
    Narrate(NarrationFor(language), Characteristic(openAIVoice))
  }

  /** Every instruction text mentions the voice's tone description. */
  lemma InstructionsMentionTone(language: string, openAIVoice: string)
    ensures Contains(Instructions(language, openAIVoice), Characteristic(openAIVoice))
  {
    var n, c := NarrationFor(language), Characteristic(openAIVoice);
    Assembled(Opening(n), c, Closing(n));
    ContainsIff(Narrate(n, c), c);
  }

  /** The position at which two different openings first differ. */
  function Fork(n1: Narration, n2: Narration): nat {
    if n1 == BilingualNarrator || n2 == BilingualNarrator then 10 else 23
  }

  lemma OpeningsDiffer(n1: Narration, n2: Narration)
    requires n1 != n2
    ensures Fork(n1, n2) < |Opening(n1)| && Fork(n1, n2) < |Opening(n2)|
    ensures Opening(n1)[Fork(n1, n2)] != Opening(n2)[Fork(n1, n2)]
  {
    assert Opening(BengaliNarrator)[23] == 'B' && Opening(EnglishNarrator)[23] == 'E';
    assert Opening(BengaliNarrator)[10] == 'p' && Opening(EnglishNarrator)[10] == 'p';
    assert Opening(BilingualNarrator)[10] == 'b';
  }

  /** Texts that start with openings differing at `i` differ. */
  lemma PrefixesDiffer(r1: string, r2: string, o1: string, o2: string, i: nat)
    requires |o1| <= |r1| && r1[..|o1|] == o1 && |o2| <= |r2| && r2[..|o2|] == o2
    requires i < |o1| && i < |o2| && o1[i] != o2[i]
    ensures r1 != r2
  {
    assert r1[..|o1|][i] == r1[i];
    assert r2[..|o2|][i] == r2[i];
  }

  /** Different narrators give different texts for the same tone. */
  lemma NarrateDiffer(n1: Narration, n2: Narration, c: string)
    requires n1 != n2
    ensures Narrate(n1, c) != Narrate(n2, c)
  {
    OpeningsDiffer(n1, n2);
    PrefixesDiffer(Narrate(n1, c), Narrate(n2, c), Opening(n1), Opening(n2), Fork(n1, n2));
  }

  /** "bangla", "english" and any other language string give three different
      instruction texts for every voice, and all other language strings are
      treated alike. */
  lemma InstructionsBranches(language: string, other: string, openAIVoice: string)
    requires language != "bangla" && language != "english"
    requires other != "bangla" && other != "english"
    ensures Instructions(language, openAIVoice) == Instructions(other, openAIVoice)
    ensures Instructions("bangla", openAIVoice) != Instructions("english", openAIVoice)
    ensures Instructions("bangla", openAIVoice) != Instructions(language, openAIVoice)
    ensures Instructions("english", openAIVoice) != Instructions(language, openAIVoice)
  {
    var c := Characteristic(openAIVoice);
    NarrateDiffer(BengaliNarrator, EnglishNarrator, c);
    NarrateDiffer(BengaliNarrator, BilingualNarrator, c);
    NarrateDiffer(EnglishNarrator, BilingualNarrator, c);
  }

  // ---------------------------------------------------------------------------
  // API key
  // ---------------------------------------------------------------------------

  const KeyPlaceholder: string := "your_openai_api_key_here"

  /** Why `validate_api_key` refused the key. */
  datatype KeyProblem = KeyNotConfigured | KeyIsPlaceholder

  /** `validate_api_key` on the value of `OPENAI_API_KEY` (`None` when unset). */
  function ValidateApiKey(env: Option<string>): (r: Result<string, KeyProblem>)
    ensures r.Ok? <==> env.Some? && env.value != "" && env.value != KeyPlaceholder
    ensures r.Ok? ==> r.value == env.value
    ensures r == Err(KeyNotConfigured) <==> env == None || env == Some("")
  {
    if env.None? || env.value == "" then Err(KeyNotConfigured)
    else if env.value == KeyPlaceholder then Err(KeyIsPlaceholder)
    else Ok(env.value)
  }

  // ---------------------------------------------------------------------------
  // Errors and provider replies
  // ---------------------------------------------------------------------------

  /** The failures of `httpx` (all subclasses of `httpx.HTTPError`). */
  datatype TransportFault = Timeout | ConnectionRefused | OtherTransportFault

  /** An `HTTPException` raised inside a handler's `try` block, before the
      `except Exception` clause re-raises it. */
  datatype Inner =
    | ApiKey(problem: KeyProblem)
    | ProviderStatus(status: int, body: string)   // non-200 reply, status passed on
    | FileTooLarge(size: nat)
    | NoSpeechDetected
    | ReplyNotJson                                 // `response.json()` raised

  /** What the client receives in the `detail` of an error response. */
  datatype Detail =
    | RequestInvalid            // request body rejected by pydantic validation
    | TextRequired              // "Text is required and cannot be empty"
    | UnsupportedFormat         // "Unsupported file format. ..."
    | ProviderUnreachable(fault: TransportFault)   // "Request to OpenAI API failed: ..."
    | Failed(inner: Inner)      // "Failed to generate audio / transcribe audio: ..."

  /** An HTTP error response. */
  datatype Failure = Failure(status: int, detail: Detail)

  /** The answer of the OpenAI speech endpoint. */
  datatype SpeechReply = SpeechReply(status: int, body: string, audio: seq<byte>)

  /** The answer of the OpenAI transcription endpoint. `transcript` is `None`
      when the body is not JSON, `Some(None)` when it has no (or a null)
      `text` field. */
  datatype TranscriptionReply = TranscriptionReply(status: int, body: string, transcript: Option<Option<string>>)

  /** The outcome of one outbound call. */
  datatype Upstream<R> = Unreachable(fault: TransportFault) | Replied(reply: R)

  /** What a handler did: the outbound call it made, if any, and its answer. */
  datatype Handled<C, T> = Handled(call: Option<C>, result: Result<T, Failure>)

  /** The `except` clauses of both handlers: transport faults and every other
      exception, raised `HTTPException`s included, become status 500. */
  function Fold(e: Upstream<Inner>): (f: Failure)
    ensures f.status == 500
  {
    match e
    case Unreachable(fault) => Failure(500, ProviderUnreachable(fault))
    case Replied(inner) => Failure(500, Failed(inner))
  }

  // ---------------------------------------------------------------------------
  // POST /api/tts/generate
  // ---------------------------------------------------------------------------

  /** The JSON body of a TTS request; absent fields are `None`. */
  datatype TtsBody = TtsBody(text: Option<string>, language: Option<string>, voice: Option<string>)

  /** A `TTSRequest` that passed pydantic validation. */
  datatype TtsRequest = TtsRequest(text: string, language: string, voice: string)

  const MaxTextLength: nat := 5000

  /** Pydantic validation of `TTSRequest`: `text` is required with 1 to 5000
      characters; `language` and `voice` default to "english" and "female". */
  function ParseTtsRequest(body: TtsBody): (r: Result<TtsRequest, Failure>)
    ensures r.Ok? <==> body.text.Some? && 1 <= |body.text.value| <= MaxTextLength
    ensures r.Err? ==> r.error == Failure(422, RequestInvalid)
    ensures r.Ok? ==> (r.value.text == body.text.value
                       && r.value.language == body.language.GetOr("english")
                       && r.value.voice == body.voice.GetOr("female"))
  {
    if body.text.None? || !(1 <= |body.text.value| <= MaxTextLength) then Err(Failure(422, RequestInvalid))
    else Ok(TtsRequest(body.text.value, body.language.GetOr("english"), body.voice.GetOr("female")))
  }

  /** The JSON payload sent to `https://api.openai.com/v1/audio/speech`. */
  datatype SpeechCall = SpeechCall(
    apiKey: string, model: string, input: string, voice: string,
    instructions: string, responseFormat: string, streamFormat: string)

  /** The success envelope of a TTS request (the float-formatted `audioSize`
      and the clock-dependent `timestamp` are not modelled). */
  datatype TtsEnvelope = TtsEnvelope(
    success: bool, audioUrl: string, language: string, voice: string,
    openAIVoice: string, provider: string, model: string)

  const AudioUrlPrefix: string := "data:audio/mpeg;base64,"
  const TtsModel: string := "gpt-4o-mini-tts"

  /** The request is rejected before the key is read. */
  predicate TextRejected(body: TtsBody) {
    ParseTtsRequest(body).Err? || AllIn(ParseTtsRequest(body).value.text, PyWhitespace)
  }

  /** `generate_tts`. `apiKeyEnv` is `OPENAI_API_KEY`, `upstream` what the
      provider answers to the call in `call`. */
  function GenerateTts(body: TtsBody, apiKeyEnv: Option<string>, upstream: Upstream<SpeechReply>)
    : (h: Handled<SpeechCall, TtsEnvelope>)
    ensures h.result.Err? ==> h.result.error.status in {400, 422, 500}
    ensures h.result.Err? && h.result.error.status == 400 <==> h.result == Err(Failure(400, TextRequired))
    ensures h.result.Ok? ==> h.call.Some? && upstream.Replied? && upstream.reply.status == 200
    ensures h.call.Some? <==> !TextRejected(body) && ValidateApiKey(apiKeyEnv).Ok?
    ensures h.call.Some? ==>
      && h.call.value.input == ParseTtsRequest(body).value.text
      && h.call.value.apiKey == ValidateApiKey(apiKeyEnv).value
    ensures h.result.Ok? <==>
      !TextRejected(body) && ValidateApiKey(apiKeyEnv).Ok? && upstream.Replied? && upstream.reply.status == 200
  {
    match ParseTtsRequest(body)
    case Err(f) => Handled(None, Err(f))
    case Ok(req) =>
      if AllIn(req.text, PyWhitespace) then Handled(None, Err(Failure(400, TextRequired)))
      else match ValidateApiKey(apiKeyEnv)
        case Err(p) => Handled(None, Err(Fold(Replied(ApiKey(p)))))
        case Ok(key) =>
          var voice := OpenAIVoice(req.voice);
          var call := SpeechCall(key, TtsModel, req.text, voice,
                                 Instructions(req.language, voice), "mp3", "audio");
          match upstream
          case Unreachable(fault) => Handled(Some(call), Err(Fold(Unreachable(fault))))
          case Replied(reply) =>
            if reply.status != 200 then
              Handled(Some(call), Err(Fold(Replied(ProviderStatus(reply.status, reply.body)))))
            else
              Handled(Some(call), Ok(TtsEnvelope(true, AudioUrlPrefix + Base64.Encode(reply.audio),
                                                 req.language, req.voice, voice, "OpenAI TTS", TtsModel)))
  }

  /** Text that is missing, longer than 5000 characters, empty or all
      whitespace is refused without reading the key or calling the provider,
      whatever the key and the provider would have been; whitespace-only text
      is the 400 case. */
  lemma TtsTextCheckedFirst(body: TtsBody, k1: Option<string>, k2: Option<string>,
                            u1: Upstream<SpeechReply>, u2: Upstream<SpeechReply>)
    requires TextRejected(body)
    ensures GenerateTts(body, k1, u1) == GenerateTts(body, k2, u2)
    ensures GenerateTts(body, k1, u1).call.None?
    ensures GenerateTts(body, k1, u1).result.Err?
    ensures GenerateTts(body, k1, u1).result.error.status == 400
            <==> ParseTtsRequest(body).Ok?
  {
  }

  /** Every failure after the text check, including the key errors and the
      provider's own status, reaches the client as 500; the provider status
      survives only inside the detail. */
  lemma TtsLaterFailuresAre500(body: TtsBody, apiKeyEnv: Option<string>, upstream: Upstream<SpeechReply>)
    requires !TextRejected(body)
    requires GenerateTts(body, apiKeyEnv, upstream).result.Err?
    ensures GenerateTts(body, apiKeyEnv, upstream).result.error.status == 500
    ensures upstream.Replied? && upstream.reply.status != 200 && ValidateApiKey(apiKeyEnv).Ok? ==>
      GenerateTts(body, apiKeyEnv, upstream).result.error.detail
        == Failed(ProviderStatus(upstream.reply.status, upstream.reply.body))
  {
  }

  /** A provider timeout and a refused connection give the same status, so the
      client cannot tell them apart by status. */
  lemma TtsTransportFaultsIndistinct(body: TtsBody, apiKeyEnv: Option<string>)
    requires !TextRejected(body) && ValidateApiKey(apiKeyEnv).Ok?
    ensures GenerateTts(body, apiKeyEnv, Unreachable(Timeout)).result.error.status
         == GenerateTts(body, apiKeyEnv, Unreachable(ConnectionRefused)).result.error.status
         == 500
  {
  }

  /** The base 64 payload of a successful answer decodes to exactly the audio
      bytes the provider returned, and the call carries the mapped voice and
      the instructions for the requested language. */
  lemma TtsAudioRoundTrip(body: TtsBody, apiKeyEnv: Option<string>, upstream: Upstream<SpeechReply>)
    requires GenerateTts(body, apiKeyEnv, upstream).result.Ok?
    ensures var h := GenerateTts(body, apiKeyEnv, upstream);
      var url := h.result.value.audioUrl;
      && |AudioUrlPrefix| <= |url|
      && url[..|AudioUrlPrefix|] == AudioUrlPrefix
      && Base64.Decode(url[|AudioUrlPrefix|..]) == Some(upstream.reply.audio)
      && h.call.value.voice == OpenAIVoice(ParseTtsRequest(body).value.voice)
      && h.call.value.instructions
         == Instructions(ParseTtsRequest(body).value.language, h.call.value.voice)
  {
    var url := GenerateTts(body, apiKeyEnv, upstream).result.value.audioUrl;
    assert url == AudioUrlPrefix + Base64.Encode(upstream.reply.audio);
    assert url[|AudioUrlPrefix|..] == Base64.Encode(upstream.reply.audio);
    Base64.DecodeEncode(upstream.reply.audio);
  }

  // ---------------------------------------------------------------------------
  // POST /api/asr/transcribe
  // ---------------------------------------------------------------------------

  /** The audio formats the transcription endpoint accepts. */
  const AudioExtensions: seq<string> := ["flac", "mp3", "mp4", "mpeg", "mpga", "m4a", "ogg", "wav", "webm"]

  /** 25 MiB, the upload limit. */
  const MaxAudioBytes: nat := 25 * 1024 * 1024

  const AsrModel: string := "gpt-4o-transcribe"

  /** The extension as the handler computes it: the last '.'-separated piece of
      the file name, lower-cased, or "" when there is no file name. */
  function FileExtension(filename: Option<string>): (ext: string)
    ensures '.' !in ext
    ensures filename.Some? && filename.value != "" ==> ext == Lower(LastPiece(filename.value, '.'))
    ensures filename.None? || filename.value == "" ==> ext == ""
  {
    if filename.None? || filename.value == "" then "" else Lower(LastPiece(filename.value, '.'))
  }

  /** The multipart form sent to `https://api.openai.com/v1/audio/transcriptions`. */
  datatype TranscriptionCall = TranscriptionCall(
    apiKey: string, filename: Option<string>, size: nat, contentType: string,
    model: string, language: Option<string>)

  /** The success envelope of a transcription (file size in MB and the
      timestamp are not modelled). */
  datatype AsrEnvelope = AsrEnvelope(
    success: bool, text: string, filename: Option<string>, format: string,
    language: string, provider: string, model: string, characterCount: string)

  /** `transcribe_audio` for an upload named `filename` of `size` bytes with the
      optional `language` hint. */
  function TranscribeAudio(filename: Option<string>, contentType: Option<string>, size: nat,
                           language: Option<string>, apiKeyEnv: Option<string>,
                           upstream: Upstream<TranscriptionReply>)
    : (h: Handled<TranscriptionCall, AsrEnvelope>)
    ensures h.result.Err? ==> h.result.error.status in {400, 500}
    ensures h.result.Err? && h.result.error.status == 400
            <==> FileExtension(filename) !in AudioExtensions
    ensures h.call.Some? <==> (FileExtension(filename) in AudioExtensions
                               && ValidateApiKey(apiKeyEnv).Ok? && size <= MaxAudioBytes)
    ensures h.call.Some? ==>
      && h.call.value.apiKey == ValidateApiKey(apiKeyEnv).value
      && h.call.value.filename == filename && h.call.value.size == size
    ensures h.result.Ok? <==>
      && h.call.Some? && upstream.Replied? && upstream.reply.status == 200
      && upstream.reply.transcript.Some? && upstream.reply.transcript.value.Some?
      && upstream.reply.transcript.value.value != ""
    ensures h.call.Some? ==> (h.call.value.language.Some? <==> language.Some? && language.value != "")
    ensures h.result.Ok? ==> h.call.Some? && h.result.value.text != ""
  {
    var ext := FileExtension(filename);
    if ext !in AudioExtensions then Handled(None, Err(Failure(400, UnsupportedFormat)))
    else match ValidateApiKey(apiKeyEnv)
      case Err(p) => Handled(None, Err(Fold(Replied(ApiKey(p)))))
      case Ok(key) =>
        if size > MaxAudioBytes then Handled(None, Err(Fold(Replied(FileTooLarge(size)))))
        else
          var hint := if language.Some? && language.value != "" then language else None;
          var call := TranscriptionCall(key, filename, size,
                                        if contentType.Some? && contentType.value != "" then contentType.value else "audio/mpeg",
                                        AsrModel, hint);
          match upstream
          case Unreachable(fault) => Handled(Some(call), Err(Fold(Unreachable(fault))))
          case Replied(reply) =>
            if reply.status != 200 then
              Handled(Some(call), Err(Fold(Replied(ProviderStatus(reply.status, reply.body)))))
            else match reply.transcript
              case None => Handled(Some(call), Err(Fold(Replied(ReplyNotJson))))
              case Some(text) =>
                if text.None? || text.value == "" then
                  Handled(Some(call), Err(Fold(Replied(NoSpeechDetected))))
                else
                  Handled(Some(call), Ok(AsrEnvelope(
                    true, text.value, filename, ext,
                    if hint.Some? then hint.value else "auto-detect",
                    "OpenAI Whisper", AsrModel, NatToString(|text.value|))))
  }

  /** An unsupported extension is refused with 400 before the key is read or
      the file is looked at: the answer does not depend on the key, the size
      or the provider. */
  lemma AsrExtensionCheckedFirst(filename: Option<string>, contentType: Option<string>,
                                 s1: nat, s2: nat, lang: Option<string>,
                                 k1: Option<string>, k2: Option<string>,
                                 u1: Upstream<TranscriptionReply>, u2: Upstream<TranscriptionReply>)
    requires FileExtension(filename) !in AudioExtensions
    ensures TranscribeAudio(filename, contentType, s1, lang, k1, u1)
         == TranscribeAudio(filename, contentType, s2, lang, k2, u2)
         == Handled(None, Err(Failure(400, UnsupportedFormat)))
  {
  }

  /** An oversized upload is refused, but as 500: the 400 raised for it is
      caught by the handler's `except Exception`. Exactly 25 MiB is accepted. */
  lemma AsrSizeBound(filename: Option<string>, contentType: Option<string>, size: nat,
                     lang: Option<string>, apiKeyEnv: Option<string>, upstream: Upstream<TranscriptionReply>)
    requires FileExtension(filename) in AudioExtensions && ValidateApiKey(apiKeyEnv).Ok?
    ensures var h := TranscribeAudio(filename, contentType, size, lang, apiKeyEnv, upstream);
      (h.call.None? <==> size > MaxAudioBytes)
      && (size > MaxAudioBytes ==> h.result == Err(Failure(500, Failed(FileTooLarge(size)))))
  {
  }

  /** A successful transcription echoes the provider's text, reports the hint or
      "auto-detect" as language, and its `characterCount` reads back as the
      length of the text. */
  lemma AsrEnvelopeContents(filename: Option<string>, contentType: Option<string>, size: nat,
                            lang: Option<string>, apiKeyEnv: Option<string>, upstream: Upstream<TranscriptionReply>)
    requires TranscribeAudio(filename, contentType, size, lang, apiKeyEnv, upstream).result.Ok?
    ensures var env := TranscribeAudio(filename, contentType, size, lang, apiKeyEnv, upstream).result.value;
      && upstream.Replied? && upstream.reply.transcript == Some(Some(env.text))
      && env.format == FileExtension(filename)
      && (env.language == if lang.Some? && lang.value != "" then lang.value else "auto-detect")
      && DigitsValue(env.characterCount) == |env.text|
  {
    var env := TranscribeAudio(filename, contentType, size, lang, apiKeyEnv, upstream).result.value;
    DigitsValueOfNatToString(|env.text|);
  }
}

=== FILE: resetpage.dfy ===
/**
 The reset-password page (`app/reset-password/page.tsx`): the strength
 label shown under the new password, and the order of the checks on
 submit before the new password goes to `POST /api/auth/reset-password`.
 */
module ResetPasswordPage {
  import opened Common
  import opened Text
  import opened JsonValues
  import ResetPasswordRoute

  datatype Strength = Weak | Medium | Strong

  function Rank(s: Strength): nat {
    match s
    case Weak => 0
    case Medium => 1
    case Strong => 2
  }

  /** `/[A-Z]/.test(pwd)` and `/[0-9]/.test(pwd)`. */
  predicate HasUpper(pwd: string) { exists i | 0 <= i < |pwd| :: IsAsciiUpper(pwd[i]) }
  predicate HasDigit(pwd: string) { exists i | 0 <= i < |pwd| :: IsAsciiDigit(pwd[i]) }

  /** `getPasswordStrength(pwd)`, lengths in UTF-16 code units. */
  function PasswordStrength(pwd: string): (r: Strength)
    ensures r == Weak <==> Utf16Length(pwd) < 6
    ensures r == Strong <==> Utf16Length(pwd) >= 10 && HasUpper(pwd) && HasDigit(pwd)
  {
    var n := Utf16Length(pwd);
    if n < 6 then Weak
    else if n < 10 then Medium
    else if HasUpper(pwd) && HasDigit(pwd) then Strong
    else Medium
  }

  /** The label under the field: none for an empty password. */
  function ShownStrength(pwd: string): (r: Option<Strength>)
    ensures r.None? <==> pwd == ""
    ensures r.Some? ==> r.value == PasswordStrength(pwd)
  {
    if pwd == "" then None else Some(PasswordStrength(pwd))
  }

  /** Typing more never lowers the strength. */
  lemma StrengthMonotone(p: string, q: string)
    ensures Rank(PasswordStrength(p)) <= Rank(PasswordStrength(p + q))
  {
    Utf16LengthConcat(p, q);
    if PasswordStrength(p) == Strong {
      var i :| 0 <= i < |p| && IsAsciiUpper(p[i]);
      var k :| 0 <= k < |p| && IsAsciiDigit(p[k]);
      assert (p + q)[i] == p[i] && (p + q)[k] == p[k];
    }
  }

  /** What `handleSubmit` does: an error message for the form, or the
      request to the reset route with the new password. */
  datatype Submission = Refused(error: string) | Posted(password: string)

  const InvalidSession: string := "Invalid reset session"
  const Mismatch: string := "Passwords do not match"

  /** `handleSubmit`: the session must be ready, then the two fields must
      agree, then the password must have eight code units. */
  function Submit(isReady: bool, password: string, confirmPassword: string): (r: Submission)
    ensures !isReady ==> r == Refused(InvalidSession)
    ensures isReady && password != confirmPassword ==> r == Refused(Mismatch)
    ensures r.Posted? <==> isReady && password == confirmPassword && Utf16Length(password) >= 8
    ensures r.Posted? ==> r.password == password
  {
    if !isReady then Refused(InvalidSession)
    else if password != confirmPassword then Refused(Mismatch)
    else if Utf16Length(password) < 8 then Refused(ResetPasswordRoute.TooShort)
    else Posted(password)
  }

  /** A password the page posts passes the route's own checks, so the
      route goes on to look the session up. */
  lemma PostedPasswordAccepted(isReady: bool, password: string, confirmPassword: string,
                               lookup: ResetPasswordRoute.Lookup, update: ResetPasswordRoute.Update)
    requires Submit(isReady, password, confirmPassword).Posted?
    ensures ResetPasswordRoute.Acceptable(Some(JStr(password)))
    ensures ResetPasswordRoute.ResetRoute(Some(Some(JStr(password))), lookup, update).lookedUp
  {
  }

  /** The message shown for a route reply that is not ok: its `error`, or the
      fallback when that is empty. */
  function FailureMessage(reply: Reply): (m: Option<string>)
    ensures reply.Success? <==> m.None?
    ensures reply.Failure? && reply.error != "" ==> m == Some(reply.error)
  {
    match reply
    case Success(_) => None
    case Failure(_, e) => Some(if e != "" then e else "Failed to reset password")
  }

  /** Every error text of the route is non-empty, so each reaches the form
      unchanged. */
  lemma RouteErrorsShown(password: string, lookup: ResetPasswordRoute.Lookup, update: ResetPasswordRoute.Update)
    ensures var reply := ResetPasswordRoute.ResetRoute(Some(Some(JStr(password))), lookup, update).reply;
      reply.Failure? ==> FailureMessage(reply) == Some(reply.error)
  {
  }
}

=== FILE: resetroute.dfy ===
/**
 `POST /api/auth/reset-password` (`app/api/auth/reset-password/route.ts`):
 the new password is checked first, then the session the reset link opened
 must carry a user, and only then is the password changed. The session
 lookup and the update are outcomes passed in.
 */
module ResetPasswordRoute {
  import opened Common
  import opened Text
  import opened JsonValues

  /** `supabase.auth.getUser()`: whether it reported an error and whether a
      user came back, or it threw. */
  datatype Lookup = LookedUp(error: bool, hasUser: bool) | LookupThrew

  /** `supabase.auth.updateUser({password})`: done, an error with its
      (possibly empty or missing) message, or a throw. */
  datatype Update = Updated | UpdateError(message: Option<string>) | UpdateThrew

  /** Whether the session was looked up, the password the route asked
      Supabase to set, and the reply. */
  datatype ResetOutcome = ResetOutcome(lookedUp: bool, newPassword: Option<string>, reply: Reply)

  const MinLength: nat := 8
  const PasswordRequired: string := "Password is required"
  const TooShort: string := "Password must be at least 8 characters long"
  const Unauthorized: string := "Unauthorized. Please use a valid password reset link."
  const UpdateFailed: string := "Failed to reset password"
  const ResetDone: string := "Password has been reset successfully"
  const Resetting: string := "An error occurred while resetting your password"

  /** The password the body's checks let through: a non-empty string of at
      least eight UTF-16 code units. */
  predicate Acceptable(password: Option<Json>) {
    Truthy(AsString(password)) && Utf16Length(AsString(password).value) >= MinLength
  }

  /** The handler. `body` is the `password` field (`None` inside when
      absent), or `None` when reading the body threw. */
  function ResetRoute(body: Option<Option<Json>>, lookup: Lookup, update: Update): (r: ResetOutcome)
    ensures body.None? ==> r == ResetOutcome(false, None, Failure(500, Resetting))
    ensures body.Some? && !Truthy(AsString(body.value)) ==>
      r == ResetOutcome(false, None, Failure(400, PasswordRequired))
    ensures body.Some? && Truthy(AsString(body.value)) && !Acceptable(body.value) ==>
      r == ResetOutcome(false, None, Failure(400, TooShort))
    ensures r.lookedUp <==> body.Some? && Acceptable(body.value)
    ensures r.newPassword.Some? <==> r.lookedUp && lookup == LookedUp(false, true)
    ensures r.newPassword.Some? ==> Some(JStr(r.newPassword.value)) == body.value
    ensures r.lookedUp && lookup.LookedUp? && (lookup.error || !lookup.hasUser) ==>
      r.reply == Failure(401, Unauthorized)
    ensures r.lookedUp && lookup.LookupThrew? ==> r.reply == Failure(500, Resetting)
  {
    if body.None? then ResetOutcome(false, None, Failure(500, Resetting))
    else
      var password := AsString(body.value);
      if !Truthy(password) then ResetOutcome(false, None, Failure(400, PasswordRequired))
      else if Utf16Length(password.value) < MinLength then ResetOutcome(false, None, Failure(400, TooShort))
      else match lookup
        case LookupThrew => ResetOutcome(true, None, Failure(500, Resetting))
        case LookedUp(error, hasUser) =>
          if error || !hasUser then ResetOutcome(true, None, Failure(401, Unauthorized))
          else
            var sent := Some(password.value);
            match update
            case Updated => ResetOutcome(true, sent, Success(Some(ResetDone)))
            case UpdateError(message) => ResetOutcome(true, sent, Failure(400, OrElse(message, UpdateFailed)))
            case UpdateThrew => ResetOutcome(true, sent, Failure(500, Resetting))
  }

  /** After a successful lookup the reply is decided by the update alone: 200
      on success, 400 with the provider's message (or the fallback) on an
      error, 500 on a throw. */
  lemma UpdateDecides(password: string, update: Update)
    requires password != "" && Utf16Length(password) >= MinLength
    ensures var r := ResetRoute(Some(Some(JStr(password))), LookedUp(false, true), update);
      && r.newPassword == Some(password)
      && (r.reply.Success? <==> update.Updated?)
      && (update.UpdateError? ==> r.reply == Failure(400, OrElse(update.message, UpdateFailed)))
      && (update.UpdateThrew? ==> r.reply.Failure? && r.reply.status == 500)
  {
  }

  /** A refused password never reaches Supabase, whatever the session and
      the update would have done. */
  lemma RefusedBeforeLookup(body: Option<Option<Json>>, l1: Lookup, l2: Lookup, u1: Update, u2: Update)
    requires body.Some? && !Acceptable(body.value)
    ensures ResetRoute(body, l1, u1) == ResetRoute(body, l2, u2)
    ensures ResetRoute(body, l1, u1).reply.Failure? && ResetRoute(body, l1, u1).reply.status == 400
  {
  }
}

=== FILE: sttpanel.dfy ===
/**
 The speech-to-text panel of the playground
 (`components/playground/speech-to-text-panel.tsx`): which uploads it
 accepts, removing an upload, the form it posts to the relay's
 `POST /api/asr/transcribe`, and the word and character counts under the
 transcription. Object URLs are passed in.
 */
module SpeechToTextPanel {
  import opened Common
  import opened Text
  import Relay

  /** An uploaded file: its name and size in bytes. */
  datatype AudioFile = AudioFile(name: string, size: nat)

  datatype PanelState = PanelState(uploadedFile: Option<AudioFile>, audioUrl: Option<string>,
                                   transcription: string, language: string)

  /** The allow-list of `validateAndSetFile`. */
  const AllowedExtensions: seq<string> := ["flac", "mp3", "mp4", "mpeg", "mpga", "m4a", "ogg", "wav", "webm"]

  const MaxSize: nat := 25 * 1024 * 1024

  /** `file.name.split('.').pop()?.toLowerCase()`. */
  function Extension(name: string): string {
    Lower(LastPiece(name, '.'))
  }

  datatype Verdict = Accepted | UnsupportedType | TooLarge

  /** The checks of `validateAndSetFile`, type first. */
  function Check(file: AudioFile): (v: Verdict)
    ensures v == UnsupportedType <==> Extension(file.name) == "" || Extension(file.name) !in AllowedExtensions
    ensures v == TooLarge <==> Extension(file.name) in AllowedExtensions && file.size > MaxSize
  {
    var ext := Extension(file.name);
    if ext == "" || ext !in AllowedExtensions then UnsupportedType
    else if file.size > MaxSize then TooLarge
    else Accepted
  }

  /** `validateAndSetFile(file)` with the object URL `url` it would create:
      a rejected file leaves the panel as it was. */
  function ValidateAndSetFile(s: PanelState, file: AudioFile, url: string): (r: PanelState)
    ensures Check(file) != Accepted ==> r == s
    ensures Check(file) == Accepted ==> r == s.(uploadedFile := Some(file), audioUrl := Some(url))
  {
    if Check(file) == Accepted then s.(uploadedFile := Some(file), audioUrl := Some(url)) else s
  }

  /** `handleRemoveFile`. */
  function RemoveFile(s: PanelState): (r: PanelState)
    ensures r.uploadedFile.None? && r.audioUrl.None? && r.transcription == ""
    ensures r.language == s.language
  {
    s.(uploadedFile := None, audioUrl := None, transcription := "")
  }

  /** Removing right after an accepted upload leaves no trace of the file. */
  lemma RemoveUndoesUpload(s: PanelState, file: AudioFile, url: string)
    ensures RemoveFile(ValidateAndSetFile(s, file, url)) == RemoveFile(s)
  {
  }

  /** The client and the relay use the same list and the same limit, and
      read the extension the same way. */
  lemma SameRulesAsRelay(name: string)
    ensures AllowedExtensions == Relay.AudioExtensions
    ensures MaxSize == Relay.MaxAudioBytes
    ensures Extension(name) == Relay.FileExtension(Some(name))
  {
  }

  /** The panel accepts a file exactly when the relay's own checks would let
      it through (with a configured key), so an upload the panel takes is
      never refused for its type or size. */
  lemma PanelAcceptsIffRelayCalls(file: AudioFile, contentType: Option<string>, language: Option<string>,
                                  apiKeyEnv: Option<string>, upstream: Relay.Upstream<Relay.TranscriptionReply>)
    requires Relay.ValidateApiKey(apiKeyEnv).Ok?
    ensures Check(file) == Accepted <==>
      Relay.TranscribeAudio(Some(file.name), contentType, file.size, language, apiKeyEnv, upstream).call.Some?
  {
    SameRulesAsRelay(file.name);
    if Extension(file.name) in AllowedExtensions {
      Relay.AsrSizeBound(Some(file.name), contentType, file.size, language, apiKeyEnv, upstream);
    }
  }

  /** The multipart form `handleTranscribe` posts. */
  datatype UploadForm = UploadForm(file: AudioFile, language: Option<string>)

  /** `handleTranscribe`'s request: nothing without a file; the language
      goes along unless it is empty or "auto". */
  function TranscribeForm(s: PanelState): (r: Option<UploadForm>)
    ensures r.None? <==> s.uploadedFile.None?
    ensures r.Some? ==> r.value.file == s.uploadedFile.value
    ensures r.Some? ==> (r.value.language.Some? <==> s.language != "" && s.language != "auto")
    ensures r.Some? && r.value.language.Some? ==> r.value.language.value == s.language
  {
    if s.uploadedFile.None? then None
    else Some(UploadForm(s.uploadedFile.value,
                         if s.language != "" && s.language != "auto" then Some(s.language) else None))
  }

  /** With "auto" the relay receives no hint and reports "auto-detect". */
  lemma AutoSendsNoHint(s: PanelState)
    requires s.uploadedFile.Some? && s.language == "auto"
    ensures TranscribeForm(s).value.language.None?
  {
  }

  /** The counts under the transcription: `split(" ").length` and
      `length`. */
  function WordCount(transcription: string): (n: nat)
    ensures n >= 1
  {
    |Split(transcription, ' ')|
  }

  function CharacterCount(transcription: string): (n: nat)
    ensures |transcription| <= n <= 2 * |transcription|
    ensures n == |transcription| <==> forall i | 0 <= i < |transcription| :: transcription[i] as int < 0x1_0000
  {
    Utf16Length(transcription)
  }

  /** The word count is one more than the number of spaces, so an empty
      transcription already shows one word and a double space counts an
      empty word. */
  lemma WordCountIsSpacesPlusOne(transcription: string)
    ensures WordCount(transcription) == Occurrences(transcription, ' ') + 1
  {
    SplitCount(transcription, ' ');
  }
}

=== FILE: text.dfy ===
/**
 String primitives that the Python and TypeScript sources lean on: splitting on
 one character (`str.split(sep)`, `String.prototype.split(sep)`), splitting on
 runs of a character class (`split(/\s+/)`), substring search (`includes`),
 ASCII case mapping, whitespace classes, UTF-16 length and decimal rendering.
 */
module Text {
  import opened Common

  /** The characters matched by `\s` in a JavaScript regular expression:
      ECMAScript WhiteSpace and LineTerminator code points. */
  const JsWhitespace: set<char> :=
    { '\t', '\n', '\U{000B}', '\U{000C}', '\r', ' ', '\U{00A0}', '\U{1680}',
      '\U{2000}', '\U{2001}', '\U{2002}', '\U{2003}', '\U{2004}', '\U{2005}',
      '\U{2006}', '\U{2007}', '\U{2008}', '\U{2009}', '\U{200A}',
      '\U{2028}', '\U{2029}', '\U{202F}', '\U{205F}', '\U{3000}', '\U{FEFF}' }

  /** The characters for which Python's `str.isspace()` holds, i.e. those that
      `str.strip()` removes. */
  const PyWhitespace: set<char> :=
    { '\t', '\n', '\U{000B}', '\U{000C}', '\r', '\U{001C}', '\U{001D}', '\U{001E}',
      '\U{001F}', ' ', '\U{0085}', '\U{00A0}', '\U{1680}',
      '\U{2000}', '\U{2001}', '\U{2002}', '\U{2003}', '\U{2004}', '\U{2005}',
      '\U{2006}', '\U{2007}', '\U{2008}', '\U{2009}', '\U{200A}',
      '\U{2028}', '\U{2029}', '\U{202F}', '\U{205F}', '\U{3000}' }

  /** Every character of `s` belongs to `cs`; for a whitespace class this is
      "`s.strip()` / `s.trim()` is empty". */
  predicate AllIn(s: string, cs: set<char>) {
    forall i | 0 <= i < |s| :: s[i] in cs
  }

  /** `AllIn` in terms of membership. */
  lemma AllInMembers(s: string, cs: set<char>)
    ensures AllIn(s, cs) <==> forall c | c in s :: c in cs
  {
  }

  // ---------------------------------------------------------------------------
  // Splitting on a single separator character
  // ---------------------------------------------------------------------------

  /** The pieces of `s` between occurrences of `sep`, empty pieces kept; this is
      both Python's `s.split(sep)` and JavaScript's `s.split(sep)` for a
      one-character separator. */
  function Split(s: string, sep: char): (r: seq<string>)
    ensures |r| >= 1
    ensures forall i | 0 <= i < |r| :: sep !in r[i]
    ensures sep !in s ==> r == [s]
    ensures sep in s ==> |r| >= 2
    decreases |s|
  {
    if |s| == 0 then [""]
    else
      var rest := Split(s[1..], sep);
      if s[0] == sep then [""] + rest
      else
        assert [s[0]] + s[1..] == s;
        [[s[0]] + rest[0]] + rest[1..]
  }

  /** The inverse of `Split`: the pieces glued back together with `sep`. */
  function Join(ps: seq<string>, sep: char): string
    requires |ps| >= 1
    decreases |ps|
  {
    if |ps| == 1 then ps[0] else ps[0] + [sep] + Join(ps[1..], sep)
  }

  lemma JoinConsHead(a: char, ps: seq<string>, sep: char)
    requires |ps| >= 1
    ensures Join([[a] + ps[0]] + ps[1..], sep) == [a] + Join(ps, sep)
  {
    var qs := [[a] + ps[0]] + ps[1..];
    if |ps| > 1 {
      assert qs[1..] == ps[1..];
    }
  }

  /** Gluing the pieces of `s` back together gives `s`. */
  lemma {:induction false} JoinSplit(s: string, sep: char)
    ensures Join(Split(s, sep), sep) == s
    decreases |s|
  {
    if |s| > 0 {
      var rest := Split(s[1..], sep);
      JoinSplit(s[1..], sep);
      if s[0] == sep {
        assert ([""] + rest)[1..] == rest;
        assert Join([""] + rest, sep) == [sep] + Join(rest, sep);
      } else {
        JoinConsHead(s[0], rest, sep);
      }
      assert [s[0]] + s[1..] == s;
    }
  }

  lemma {:induction false} SplitOfSepPrefix(p: string, sep: char, t: string)
    requires sep !in p
    ensures Split(p + [sep] + t, sep) == [p] + Split(t, sep)
    decreases |p|
  {
    var s := p + [sep] + t;
    if |p| == 0 {
      assert s[1..] == t;
    } else {
      assert s[1..] == p[1..] + [sep] + t;
      SplitOfSepPrefix(p[1..], sep, t);
      assert [p[0]] + p[1..] == p;
    }
  }

  /** Splitting a join of separator-free pieces gives the pieces back. */
  lemma {:induction false} SplitJoin(ps: seq<string>, sep: char)
    requires |ps| >= 1
    requires forall i | 0 <= i < |ps| :: sep !in ps[i]
    ensures Split(Join(ps, sep), sep) == ps
    decreases |ps|
  {
    if |ps| > 1 {
      SplitJoin(ps[1..], sep);
      SplitOfSepPrefix(ps[0], sep, Join(ps[1..], sep));
      assert [ps[0]] + ps[1..] == ps;
    }
  }

  /** The number of times `c` occurs in `s`. */
  function Occurrences(s: string, c: char): nat
    decreases |s|
  {
    if |s| == 0 then 0 else (if s[0] == c then 1 else 0) + Occurrences(s[1..], c)
  }

  /** Splitting gives one piece more than there are separators. */
  lemma {:induction false} SplitCount(s: string, sep: char)
    ensures |Split(s, sep)| == Occurrences(s, sep) + 1
    decreases |s|
  {
    if |s| > 0 {
      SplitCount(s[1..], sep);
    }
  }

  /** The last piece of `s.split(sep)`: Python's `split(sep)[-1]`, JavaScript's
      `split(sep).pop()`. */
  function LastPiece(s: string, sep: char): (r: string)
    ensures sep !in r
  {
    var ps := Split(s, sep);
    ps[|ps| - 1]
  }

  /** The first piece of `s.split(sep)`. */
  function FirstPiece(s: string, sep: char): (r: string)
    ensures sep !in r
  {
    Split(s, sep)[0]
  }

  /** The last piece is exactly the text after the last `sep` (all of `s` when
      there is none). */
  lemma {:induction false} LastPieceIsSuffix(s: string, sep: char)
    ensures |LastPiece(s, sep)| <= |s|
    ensures s[|s| - |LastPiece(s, sep)|..] == LastPiece(s, sep)
    ensures |LastPiece(s, sep)| < |s| ==> s[|s| - |LastPiece(s, sep)| - 1] == sep
    decreases |s|
  {
    if |s| > 0 {
      LastPieceIsSuffix(s[1..], sep);
      var rest := Split(s[1..], sep);
      var last := LastPiece(s[1..], sep);
      if s[0] != sep && sep !in s[1..] {
        assert [s[0]] + s[1..] == s;
      } else {
        assert LastPiece(s, sep) == last;
        assert s[1..][|s| - 1 - |last|..] == s[|s| - |last|..];
        if |last| == |s| - 1 {
          assert last == s[1..];
        } else {
          assert s[1..][|s| - 1 - |last| - 1] == s[|s| - |last| - 1];
        }
      }
    }
  }

  /** The first piece is exactly the text before the first `sep` (all of `s`
      when there is none). */
  lemma {:induction false} FirstPieceIsPrefix(s: string, sep: char)
    ensures |FirstPiece(s, sep)| <= |s|
    ensures s[..|FirstPiece(s, sep)|] == FirstPiece(s, sep)
    ensures |FirstPiece(s, sep)| < |s| ==> s[|FirstPiece(s, sep)|] == sep
    decreases |s|
  {
    if |s| > 0 {
      FirstPieceIsPrefix(s[1..], sep);
    }
  }

  /** The first piece of `a + sep + b` is `a` when `a` holds no `sep`. */
  lemma {:induction false} FirstPieceBeforeSep(a: string, b: string, sep: char)
    requires sep !in a
    ensures FirstPiece(a + [sep] + b, sep) == a
    decreases |a|
  {
    var s := a + [sep] + b;
    if |a| > 0 {
      assert s[1..] == a[1..] + [sep] + b;
      FirstPieceBeforeSep(a[1..], b, sep);
      assert [a[0]] + a[1..] == a;
    }
  }

  // ---------------------------------------------------------------------------
  // Splitting on runs of a character class
  // ---------------------------------------------------------------------------

  /** The pieces of `s` between maximal runs of characters from `seps`: the
      result of JavaScript's `s.split(/[...]+/)` for the class `seps`. */
  function SplitRuns(s: string, seps: set<char>): (r: seq<string>)
    ensures |r| >= 1
    ensures forall i, j | 0 <= i < |r| && 0 <= j < |r[i]| :: r[i][j] !in seps
    decreases |s|
  {
    if |s| == 0 then [""]
    else
      var rest := SplitRuns(s[1..], seps);
      if s[0] in seps then
        (if |s| > 1 && s[1] in seps then rest else [""] + rest)
      else [[s[0]] + rest[0]] + rest[1..]
  }

  /** `s` with every maximal run of `seps` characters replaced by the single
      character `c`. */
  function Collapse(s: string, seps: set<char>, c: char): string
    decreases |s|
  {
    if |s| == 0 then ""
    else if s[0] in seps then
      (if |s| > 1 && s[1] in seps then Collapse(s[1..], seps, c) else [c] + Collapse(s[1..], seps, c))
    else [s[0]] + Collapse(s[1..], seps, c)
  }

  /** Splitting on runs is splitting on one separator after collapsing every
      run to that separator. */
  lemma {:induction false} SplitRunsIsSplitOfCollapse(s: string, seps: set<char>, c: char)
    requires c in seps
    ensures SplitRuns(s, seps) == Split(Collapse(s, seps, c), c)
    decreases |s|
  {
    if |s| > 0 {
      SplitRunsIsSplitOfCollapse(s[1..], seps, c);
      var t := Collapse(s[1..], seps, c);
      if s[0] in seps {
        if !(|s| > 1 && s[1] in seps) {
          assert ([c] + t)[1..] == t;
        }
      } else {
        assert ([s[0]] + t)[1..] == t;
      }
    }
  }

  /** The concatenation of a sequence of strings. */
  function Concat(ps: seq<string>): string
    decreases |ps|
  {
    if |ps| == 0 then "" else ps[0] + Concat(ps[1..])
  }

  /** `s` with every character of `cs` deleted. */
  function Without(s: string, cs: set<char>): (r: string)
    ensures forall i | 0 <= i < |r| :: r[i] !in cs
    decreases |s|
  {
    if |s| == 0 then ""
    else if s[0] in cs then Without(s[1..], cs)
    else [s[0]] + Without(s[1..], cs)
  }

  lemma ConcatConsHead(a: char, ps: seq<string>)
    requires |ps| >= 1
    ensures Concat([[a] + ps[0]] + ps[1..]) == [a] + Concat(ps)
  {
    var qs := [[a] + ps[0]] + ps[1..];
    assert qs[1..] == ps[1..];
    var x, y, z := [a], ps[0], Concat(ps[1..]);
    ConcatAssoc(x, y, z);
  }

  lemma ConcatAssoc(x: string, y: string, z: string)
    ensures (x + y) + z == x + (y + z)
  {
  }

  /** The pieces of a run split hold exactly the non-separator characters of
      `s`, in order. */
  lemma {:induction false} ConcatSplitRuns(s: string, seps: set<char>)
    ensures Concat(SplitRuns(s, seps)) == Without(s, seps)
    decreases |s|
  {
    if |s| > 0 {
      ConcatSplitRuns(s[1..], seps);
      var rest := SplitRuns(s[1..], seps);
      if s[0] in seps {
        if !(|s| > 1 && s[1] in seps) {
          assert ([""] + rest)[1..] == rest;
        }
      } else {
        ConcatConsHead(s[0], rest);
      }
    }
  }

  lemma {:induction false} InConcat(ps: seq<string>, x: char)
    ensures x in Concat(ps) <==> exists i | 0 <= i < |ps| :: x in ps[i]
    decreases |ps|
  {
    if |ps| > 0 {
      InConcat(ps[1..], x);
      assert x in Concat(ps) <==> x in ps[0] || x in Concat(ps[1..]);
      if x in Concat(ps[1..]) {
        var i :| 0 <= i < |ps[1..]| && x in ps[1..][i];
        assert x in ps[i + 1];
      }
      if exists i | 0 <= i < |ps| :: x in ps[i] {
        var i :| 0 <= i < |ps| && x in ps[i];
        if i > 0 {
          assert x in ps[1..][i - 1];
        }
      }
    }
  }

  lemma {:induction false} InWithout(s: string, cs: set<char>, x: char)
    ensures x in Without(s, cs) <==> x in s && x !in cs
    decreases |s|
  {
    if |s| > 0 {
      InWithout(s[1..], cs, x);
      assert x in s <==> x == s[0] || x in s[1..];
    }
  }

  // ---------------------------------------------------------------------------
  // Substring search and ASCII case mapping
  // ---------------------------------------------------------------------------

  /** `q` occurs in `s` starting at position `i`. */
  predicate OccursAt(s: string, q: string, i: nat) {
    i + |q| <= |s| && s[i..i + |q|] == q
  }

  /** JavaScript truthiness of a string that may be `null`: absent and empty
      strings are false. */
  predicate Truthy(s: Option<string>) {
    s.Some? && s.value != ""
  }

  /** JavaScript's `s || fallback` for a string that may be `null`. */
  function OrElse(s: Option<string>, fallback: string): (r: string)
    ensures Truthy(s) ==> r == s.value
    ensures !Truthy(s) ==> r == fallback
  {
    if Truthy(s) then s.value else fallback
  }

  /** Python's `s.startswith(p)`, JavaScript's `s.startsWith(p)`. */
  predicate StartsWith(s: string, p: string) {
    |p| <= |s| && s[..|p|] == p
  }

  /** JavaScript's `s.includes(q)`. */
  function Contains(s: string, q: string): bool
    decreases |s|
  {
    if |q| > |s| then false
    else if s[..|q|] == q then true
    else Contains(s[1..], q)
  }

  /** `Contains` holds exactly when `q` occurs somewhere in `s`. */
  lemma {:induction false} ContainsIff(s: string, q: string)
    ensures Contains(s, q) <==> exists i: nat :: OccursAt(s, q, i)
    decreases |s|
  {
    if |q| > |s| {
    } else if s[..|q|] == q {
      assert OccursAt(s, q, 0);
    } else {
      ContainsIff(s[1..], q);
      if Contains(s[1..], q) {
        var i: nat :| OccursAt(s[1..], q, i);
        assert s[1..][i..i + |q|] == s[i + 1..i + 1 + |q|];
        assert OccursAt(s, q, i + 1);
      }
      if exists i: nat :: OccursAt(s, q, i) {
        var i: nat :| OccursAt(s, q, i);
        assert i != 0;
        assert s[1..][i - 1..i - 1 + |q|] == s[i..i + |q|];
        assert OccursAt(s[1..], q, i - 1);
      }
    }
  }

  /** A text contains itself and the empty string. */
  lemma ContainsSelfAndEmpty(s: string)
    ensures Contains(s, s)
    ensures Contains(s, "")
  {
    assert s[..|s|] == s;
    assert s[..0] == "";
  }

  predicate IsAsciiUpper(c: char) { 'A' <= c <= 'Z' }
  predicate IsAsciiLower(c: char) { 'a' <= c <= 'z' }
  predicate IsAsciiDigit(c: char) { '0' <= c <= '9' }
  predicate IsAsciiAlnum(c: char) { IsAsciiUpper(c) || IsAsciiLower(c) || IsAsciiDigit(c) }

  /** ASCII lower-casing of one character; other characters are unchanged. */
  function LowerChar(c: char): (r: char)
    ensures !IsAsciiUpper(r)
    ensures IsAsciiUpper(c) ==> r as int == c as int + 32
    ensures !IsAsciiUpper(c) ==> r == c
  {
    if IsAsciiUpper(c) then (c as int + 32) as char else c
  }

  /** ASCII lower-casing of a string: `toLowerCase()` / `lower()` restricted to
      the ASCII letters. */
  function Lower(s: string): (r: string)
    ensures |r| == |s|
    ensures forall i | 0 <= i < |s| :: r[i] == LowerChar(s[i])
  {
    seq(|s|, i requires 0 <= i < |s| => LowerChar(s[i]))
  }

  /** Lower-casing is idempotent. */
  lemma LowerIdempotent(s: string)
    ensures Lower(Lower(s)) == Lower(s)
  {
  }

  /** Lower-casing a string lower-cases its first character and the rest. */
  lemma LowerCons(s: string)
    requires |s| > 0
    ensures Lower(s) == [LowerChar(s[0])] + Lower(s[1..])
  {
  }

  /** Lower-casing commutes with splitting at a character that is not an
      ASCII letter: the pieces of the lower-cased string are the lower-cased
      pieces. */
  lemma {:induction false} SplitLower(s: string, sep: char)
    requires !IsAsciiUpper(sep) && !IsAsciiLower(sep)
    ensures |Split(Lower(s), sep)| == |Split(s, sep)|
    ensures forall i | 0 <= i < |Split(s, sep)| :: Split(Lower(s), sep)[i] == Lower(Split(s, sep)[i])
    decreases |s|
  {
    if |s| > 0 {
      var l := Lower(s);
      LowerCons(s);
      assert l[1..] == Lower(s[1..]);
      SplitLower(s[1..], sep);
      assert l[0] == LowerChar(s[0]);
      if s[0] == sep {
        SplitLowerAtSep(s, l, sep);
      } else {
        SplitLowerAtOther(s, l, sep);
      }
    }
  }

  lemma SplitLowerAtSep(s: string, l: string, sep: char)
    requires |s| > 0 && |l| == |s| && s[0] == sep && l[0] == sep
    requires |Split(l[1..], sep)| == |Split(s[1..], sep)|
    requires forall i | 0 <= i < |Split(s[1..], sep)| :: Split(l[1..], sep)[i] == Lower(Split(s[1..], sep)[i])
    ensures |Split(l, sep)| == |Split(s, sep)|
    ensures forall i | 0 <= i < |Split(s, sep)| :: Split(l, sep)[i] == Lower(Split(s, sep)[i])
  {
    var ps, rest := Split(s, sep), Split(s[1..], sep);
    var lps, lrest := Split(l, sep), Split(l[1..], sep);
    assert ps == [""] + rest;
    assert lps == [""] + lrest;
    forall i | 0 <= i < |ps| ensures lps[i] == Lower(ps[i]) {
      if i > 0 { assert lps[i] == lrest[i - 1] && ps[i] == rest[i - 1]; }
    }
  }

  lemma SplitLowerAtOther(s: string, l: string, sep: char)
    requires |s| > 0 && |l| == |s| && s[0] != sep && l[0] != sep && l[0] == LowerChar(s[0])
    requires |Split(l[1..], sep)| == |Split(s[1..], sep)|
    requires forall i | 0 <= i < |Split(s[1..], sep)| :: Split(l[1..], sep)[i] == Lower(Split(s[1..], sep)[i])
    ensures |Split(l, sep)| == |Split(s, sep)|
    ensures forall i | 0 <= i < |Split(s, sep)| :: Split(l, sep)[i] == Lower(Split(s, sep)[i])
  {
    var ps, rest := Split(s, sep), Split(s[1..], sep);
    var lps, lrest := Split(l, sep), Split(l[1..], sep);
    assert ps == [[s[0]] + rest[0]] + rest[1..];
    assert lps == [[l[0]] + lrest[0]] + lrest[1..];
    LowerCons([s[0]] + rest[0]);
    assert ([s[0]] + rest[0])[1..] == rest[0];
    forall i | 0 <= i < |ps| ensures lps[i] == Lower(ps[i]) {
      if i > 0 { assert lps[i] == lrest[i] && ps[i] == rest[i]; }
    }
  }

  /** The last piece of the lower-cased string is the lower-cased last piece. */
  lemma LastPieceLower(s: string, sep: char)
    requires !IsAsciiUpper(sep) && !IsAsciiLower(sep)
    ensures LastPiece(Lower(s), sep) == Lower(LastPiece(s, sep))
  {
    SplitLower(s, sep);
  }

  // ---------------------------------------------------------------------------
  // UTF-16 length and decimal rendering
  // ---------------------------------------------------------------------------

  /** The number of UTF-16 code units that encode `c`. */
  function Utf16Units(c: char): nat {
    if c as int >= 0x1_0000 then 2 else 1
  }

  /** JavaScript's `s.length`: the number of UTF-16 code units of `s`. */
  function Utf16Length(s: string): (r: nat)
    ensures |s| <= r <= 2 * |s|
    ensures r == |s| <==> forall i | 0 <= i < |s| :: s[i] as int < 0x1_0000
    decreases |s|
  {
    if |s| == 0 then 0 else Utf16Units(s[0]) + Utf16Length(s[1..])
  }

  /** Lengths in code units add up under concatenation. */
  lemma {:induction false} Utf16LengthConcat(a: string, b: string)
    ensures Utf16Length(a + b) == Utf16Length(a) + Utf16Length(b)
    decreases |a|
  {
    if |a| > 0 {
      assert (a + b)[1..] == a[1..] + b;
      Utf16LengthConcat(a[1..], b);
    } else {
      assert a + b == b;
    }
  }

  /** The decimal digit character for `d`. */
  function DigitChar(d: nat): (c: char)
    requires d < 10
    ensures IsAsciiDigit(c)
  {
    ('0' as int + d) as char
  }

  /** The decimal rendering of `n`, without leading zeros: Python's `str(n)`
      and JavaScript's `String(n)` for a natural number. */
  function NatToString(n: nat): (r: string)
    ensures |r| >= 1
    ensures forall i | 0 <= i < |r| :: IsAsciiDigit(r[i])
    ensures |r| > 1 ==> r[0] != '0'
    decreases n
  {
    if n < 10 then [DigitChar(n)] else NatToString(n / 10) + [DigitChar(n % 10)]
  }

  /** The value of a string of decimal digits. */
  function DigitsValue(s: string): nat
    requires forall i | 0 <= i < |s| :: IsAsciiDigit(s[i])
    decreases |s|
  {
    if |s| == 0 then 0
    else
      assert IsAsciiDigit(s[|s| - 1]);
      10 * DigitsValue(s[..|s| - 1]) + (s[|s| - 1] as int - '0' as int) as nat
  }

  /** Reading the rendered digits back gives the number. */
  lemma {:induction false} DigitsValueOfNatToString(n: nat)
    ensures DigitsValue(NatToString(n)) == n
    decreases n
  {
    if n >= 10 {
      DigitsValueOfNatToString(n / 10);
      var r := NatToString(n);
      assert r[..|r| - 1] == NatToString(n / 10);
    }
  }

  /** Distinct numbers render differently. */
  lemma NatToStringInjective(m: nat, n: nat)
    requires NatToString(m) == NatToString(n)
    ensures m == n
  {
    DigitsValueOfNatToString(m);
    DigitsValueOfNatToString(n);
  }

  /** JavaScript's rendering of an integer `Number`. */
  function IntToString(n: int): (r: string)
    ensures |r| >= 1
    ensures n < 0 <==> r[0] == '-'
  {
    if n < 0 then "-" + NatToString(-n) else NatToString(n)
  }
}

=== FILE: ttspanel.dfy ===
/**
 The text-to-speech panel of the playground
 (`components/playground/text-to-audio-panel.tsx`): the document upload
 check, the guard of Generate and the request it posts to the relay's
 `POST /api/tts/generate`, and how its voice and language options meet
 the relay's voice map and instruction texts.
 */
module TextToAudioPanel {
  import opened Common
  import opened Text
  import Relay

  datatype InputMode = TextMode | FileMode | LinkMode

  datatype PanelState = PanelState(inputMode: InputMode, inputText: string, uploadedFile: Option<string>,
                                   language: string, selectedVoice: string)

  /** The voice actors offered, by id. */
  const VoiceActorIds: seq<string> := ["female", "male"]

  /** The language options offered. */
  const LanguageOptions: seq<string> := ["bangla", "english", "mix"]

  /** The panel as it first renders. */
  const Initial: PanelState := PanelState(TextMode, "", None, "bangla", "female")

  const DocumentExtensions: seq<string> :=
    ["pdf", "doc", "docx", "png", "jpg", "jpeg", "bmp", "tiff", "xlsx", "pptx", "html", "xml"]

  /** `file.name.split('.').pop()?.toLowerCase()`. */
  function Extension(name: string): string {
    Lower(LastPiece(name, '.'))
  }

  /** `handleFileUpload` for a file called `name`. */
  function FileUpload(s: PanelState, name: string): (r: PanelState)
    ensures Extension(name) == "" || Extension(name) !in DocumentExtensions ==> r == s
    ensures Extension(name) in DocumentExtensions ==> r == s.(uploadedFile := Some(name))
  {
    var ext := Extension(name);
    if ext == "" || ext !in DocumentExtensions then s else s.(uploadedFile := Some(name))
  }

  /** Case does not matter: a name and its lower-cased form are accepted
      or refused alike. */
  lemma UploadIgnoresCase(s: PanelState, name: string)
    ensures Extension(Lower(name)) == Extension(name)
  {
    LastPieceLower(name, '.');
    LowerIdempotent(LastPiece(name, '.'));
  }

  /** `handleGenerate`'s request body: only an empty text in text mode is
      held back; the typed text is what is sent in every mode. */
  function GenerateBody(s: PanelState): (r: Option<Relay.TtsBody>)
    ensures r.None? <==> s.inputMode == TextMode && s.inputText == ""
    ensures r.Some? ==> r.value == Relay.TtsBody(Some(s.inputText), Some(s.language), Some(s.selectedVoice))
  {
    if s.inputMode == TextMode && s.inputText == "" then None
    else Some(Relay.TtsBody(Some(s.inputText), Some(s.language), Some(s.selectedVoice)))
  }

  /** `handleGenerate` on its own: called in file or link mode with an empty
      text box it still posts that text, and the relay refuses it as an
      invalid request; the uploaded document and the link are never sent.
      The page itself never gets here (see ClickedBodyHasText). */
  lemma OtherModesPostTypedText(s: PanelState)
    requires s.inputMode != TextMode && s.inputText == ""
    ensures GenerateBody(s).Some?
    ensures Relay.ParseTtsRequest(GenerateBody(s).value) == Err(Relay.Failure(422, Relay.RequestInvalid))
  {
  }

  /** What a user can do on the page before pressing Generate: press a mode
      button, or type into the text box (shown in text mode only). */
  datatype UiEvent = PressMode(mode: InputMode) | TypeText(text: string)

  /** One event. The File and Link buttons are rendered `disabled`, so a
      press on them does nothing; the text box is only there in text mode. */
  function Apply(s: PanelState, e: UiEvent): (r: PanelState)
    ensures s.inputMode == TextMode ==> r.inputMode == TextMode
    ensures e.PressMode? ==> r.inputText == s.inputText
    ensures e.TypeText? && s.inputMode == TextMode ==> r.inputText == e.text
    ensures r.language == s.language && r.selectedVoice == s.selectedVoice
  {
    match e
    case PressMode(m) => if m == TextMode then s.(inputMode := TextMode) else s
    case TypeText(t) => if s.inputMode == TextMode then s.(inputText := t) else s
  }

  function RunEvents(s: PanelState, es: seq<UiEvent>): PanelState
    decreases |es|
  {
    if |es| == 0 then s else RunEvents(Apply(s, es[0]), es[1..])
  }

  /** The panel never leaves text mode, whatever the user does. */
  lemma {:induction false} StaysInTextMode(s: PanelState, es: seq<UiEvent>)
    requires s.inputMode == TextMode
    ensures RunEvents(s, es).inputMode == TextMode
    decreases |es|
  {
    if |es| > 0 {
      StaysInTextMode(Apply(s, es[0]), es[1..]);
    }
  }

  /** A click on Generate, whose button is disabled while generating or
      while the text box is empty: the body `handleGenerate` posts, if the
      click gets through. */
  function ClickGenerate(s: PanelState, generating: bool): (r: Option<Relay.TtsBody>)
    ensures r.Some? <==> !generating && s.inputText != ""
    ensures r.Some? ==> r == GenerateBody(s) && r.value.text == Some(s.inputText)
  {
    if generating || s.inputText == "" then None else GenerateBody(s)
  }

  /** On the page, every posted request comes from text mode and carries a
      non-empty text, so the empty-text path of OtherModesPostTypedText is
      never taken. */
  lemma ClickedBodyHasText(es: seq<UiEvent>, generating: bool)
    ensures var s := RunEvents(Initial, es);
      ClickGenerate(s, generating).Some? ==>
        s.inputMode == TextMode && ClickGenerate(s, generating).value.text.value != ""
  {
    StaysInTextMode(Initial, es);
  }

  /** Every voice offered is in the relay's map, so the relay never falls
      back to its default voice for a choice made in the panel. */
  lemma VoicesAreMapped(i: int)
    requires 0 <= i < |VoiceActorIds|
    ensures VoiceActorIds[i] in Relay.VoiceMap
    ensures Relay.OpenAIVoice(VoiceActorIds[i]) != Relay.FallbackVoice
  {
  }

  /** The three language options reach three different narrators. */
  lemma LanguagesDistinct(i: int, j: int)
    requires 0 <= i < |LanguageOptions| && 0 <= j < |LanguageOptions| && i != j
    ensures Relay.NarrationFor(LanguageOptions[i]) != Relay.NarrationFor(LanguageOptions[j])
  {
  }

  /** The defaults are Bangla and the female voice, i.e. the Bengali
      narrator speaking as "nova". */
  lemma Defaults()
    ensures Initial.language == LanguageOptions[0] && Initial.selectedVoice == VoiceActorIds[0]
    ensures Relay.NarrationFor(Initial.language) == Relay.BengaliNarrator
    ensures Relay.OpenAIVoice(Initial.selectedVoice) == "nova"
  {
  }
}

=== FILE: uri.dfy ===
/**
 JavaScript's `encodeURIComponent` (ECMAScript, section "Encode" of the URI
 handling functions): characters outside the unreserved set are written as
 `%XX` escapes of their UTF-8 bytes. The auth callback route puts error texts
 into a query string with it; `Decode` (`decodeURIComponent`) is what the
 receiving page applies.
 */
module UriComponent {
  import opened Common
  import opened Text

  /** Characters `encodeURIComponent` leaves as they are: ASCII letters and
      digits and `- _ . ! ~ * ' ( )`. */
  predicate IsUnreserved(c: char) {
    IsAsciiAlnum(c) || c == '-' || c == '_' || c == '.' || c == '!' || c == '~'
    || c == '*' || c == '\'' || c == '(' || c == ')'
  }

  predicate IsHexChar(c: char) {
    IsAsciiDigit(c) || 'A' <= c <= 'F' || 'a' <= c <= 'f'
  }

  /** The UTF-8 bytes of a Unicode scalar value. */
  function Utf8(c: char): (r: seq<int>)
    ensures 1 <= |r| <= 4
    ensures forall i | 0 <= i < |r| :: 0 <= r[i] < 256
  {
    var cp := c as int;
    if cp < 0x80 then [cp]
    else if cp < 0x800 then [0xC0 + cp / 64, 0x80 + cp % 64]
    else if cp < 0x1_0000 then [0xE0 + cp / 4096, 0x80 + (cp / 64) % 64, 0x80 + cp % 64]
    else [0xF0 + cp / 262144, 0x80 + (cp / 4096) % 64, 0x80 + (cp / 64) % 64, 0x80 + cp % 64]
  }

  /** The upper-case hexadecimal digit for `v`. */
  function HexChar(v: int): (c: char)
    requires 0 <= v < 16
    ensures IsHexChar(c)
  {
    if v < 10 then ('0' as int + v) as char else ('A' as int + (v - 10)) as char
  }

  /** The value of a hexadecimal digit of either case. */
  function HexValue(c: char): (v: int)
    requires IsHexChar(c)
    ensures 0 <= v < 16
  {
    if IsAsciiDigit(c) then c as int - '0' as int
    else if 'A' <= c <= 'F' then c as int - 'A' as int + 10
    else c as int - 'a' as int + 10
  }

  /** `%XX` escapes of a byte string. */
  function PercentEncode(bs: seq<int>): (r: string)
    requires forall i | 0 <= i < |bs| :: 0 <= bs[i] < 256
    ensures |r| == 3 * |bs|
    decreases |bs|
  {
    if |bs| == 0 then ""
    else ['%', HexChar(bs[0] / 16), HexChar(bs[0] % 16)] + PercentEncode(bs[1..])
  }

  /** The escape of one character. */
  function EncodeChar(c: char): string {
    if IsUnreserved(c) then [c] else PercentEncode(Utf8(c))
  }

  /** `encodeURIComponent(s)`. */
  function Encode(s: string): (r: string)
    ensures |s| <= |r|
    decreases |s|
  {
    if |s| == 0 then "" else EncodeChar(s[0]) + Encode(s[1..])
  }

  /** The characters that can appear in `encodeURIComponent` output: it never
      contains `&`, `=`, `#`, `/`, `?` or a space, so it stays inside one
      query-string value. */
  predicate IsEncodedChar(c: char) {
    IsUnreserved(c) || c == '%' || IsHexChar(c)
  }

  lemma {:induction false} PercentEncodeChars(bs: seq<int>)
    requires forall i | 0 <= i < |bs| :: 0 <= bs[i] < 256
    ensures forall i | 0 <= i < |PercentEncode(bs)| :: IsEncodedChar(PercentEncode(bs)[i])
    decreases |bs|
  {
    if |bs| > 0 {
      PercentEncodeChars(bs[1..]);
    }
  }

  /** Every character of an encoding is unreserved, `%` or a hex digit. */
  lemma {:induction false} EncodeChars(s: string)
    ensures forall i | 0 <= i < |Encode(s)| :: IsEncodedChar(Encode(s)[i])
    decreases |s|
  {
    if |s| > 0 {
      EncodeChars(s[1..]);
      PercentEncodeChars(Utf8(s[0]));
    }
  }

  /** A text made only of unreserved characters is its own encoding. */
  lemma {:induction false} EncodeUnreserved(s: string)
    requires forall i | 0 <= i < |s| :: IsUnreserved(s[i])
    ensures Encode(s) == s
    decreases |s|
  {
    if |s| > 0 {
      EncodeUnreserved(s[1..]);
      assert [s[0]] + s[1..] == s;
    }
  }

  // ---------------------------------------------------------------------------
  // decodeURIComponent
  // ---------------------------------------------------------------------------

  /** The byte of the `%XX` escape at the front of `s`, if there is one. */
  function EscapedByte(s: string): Option<int> {
    if |s| >= 3 && s[0] == '%' && IsHexChar(s[1]) && IsHexChar(s[2])
    then Some(16 * HexValue(s[1]) + HexValue(s[2]))
    else None
  }

  /** `n` consecutive `%XX` escapes at the front of `s`. */
  function EscapedBytes(s: string, n: nat): (r: Option<seq<int>>)
    ensures r.Some? ==> |r.value| == n && 3 * n <= |s|
    decreases n
  {
    if n == 0 then Some([])
    else match EscapedByte(s)
      case None => None
      case Some(b) =>
        match EscapedBytes(s[3..], n - 1)
        case None => None
        case Some(bs) => Some([b] + bs)
  }

  /** The length of the UTF-8 sequence announced by its first byte (0 when it
      cannot start one). */
  function SequenceLength(b0: int): nat {
    if 0 <= b0 < 0x80 then 1
    else if 0xC0 <= b0 < 0xE0 then 2
    else if 0xE0 <= b0 < 0xF0 then 3
    else if 0xF0 <= b0 < 0xF8 then 4
    else 0
  }

  predicate IsContinuation(b: int) { 0x80 <= b < 0xC0 }

  /** The code point a well-formed UTF-8 sequence stands for; `None` for a bad
      continuation byte, an over-long form, a surrogate or a value beyond
      U+10FFFF, which `decodeURIComponent` rejects with a URIError. */
  function Utf8Value(bs: seq<int>): Option<char>
    requires 1 <= |bs| <= 4
  {
    if |bs| == 1 then
      if 0 <= bs[0] < 0x80 then Some(bs[0] as char) else None
    else if !(forall i | 1 <= i < |bs| :: IsContinuation(bs[i])) then None
    else
      var cp :=
        if |bs| == 2 then (bs[0] - 0xC0) * 64 + (bs[1] - 0x80)
        else if |bs| == 3 then (bs[0] - 0xE0) * 4096 + (bs[1] - 0x80) * 64 + (bs[2] - 0x80)
        else (bs[0] - 0xF0) * 262144 + (bs[1] - 0x80) * 4096 + (bs[2] - 0x80) * 64 + (bs[3] - 0x80);
      var least := if |bs| == 2 then 0x80 else if |bs| == 3 then 0x800 else 0x1_0000;
      if least <= cp < 0x11_0000 && !(0xD800 <= cp < 0xE000) then Some(cp as char) else None
  }

  /** `decodeURIComponent(s)`, or `None` where it throws a URIError. */
  function Decode(s: string): Option<string>
    decreases |s|
  {
    if |s| == 0 then Some("")
    else if s[0] != '%' then
      match Decode(s[1..])
      case None => None
      case Some(rest) => Some([s[0]] + rest)
    else
      match EscapedByte(s)
      case None => None
      case Some(b0) =>
        var n := SequenceLength(b0);
        if n == 0 then None
        else match EscapedBytes(s, n)
          case None => None
          case Some(bs) =>
            if bs[0] != b0 then None
            else match Utf8Value(bs)
              case None => None
              case Some(c) =>
                match Decode(s[3 * n..])
                case None => None
                case Some(rest) => Some([c] + rest)
  }

  lemma HexRoundTrip(b: int)
    requires 0 <= b < 256
    ensures HexValue(HexChar(b / 16)) == b / 16
    ensures HexValue(HexChar(b % 16)) == b % 16
  {
  }

  lemma {:induction false} EscapedBytesOfPercentEncode(bs: seq<int>, rest: string)
    requires forall i | 0 <= i < |bs| :: 0 <= bs[i] < 256
    ensures EscapedBytes(PercentEncode(bs) + rest, |bs|) == Some(bs)
    ensures (PercentEncode(bs) + rest)[3 * |bs|..] == rest
    decreases |bs|
  {
    if |bs| > 0 {
      var s := PercentEncode(bs) + rest;
      HexRoundTrip(bs[0]);
      assert EscapedByte(s) == Some(bs[0]);
      assert s[3..] == PercentEncode(bs[1..]) + rest;
      EscapedBytesOfPercentEncode(bs[1..], rest);
      assert [bs[0]] + bs[1..] == bs;
    }
  }

  lemma Utf8TwoBytes(cp: int)
    requires 0x80 <= cp < 0x800
    ensures 0xC0 <= 0xC0 + cp / 64 < 0xE0
    ensures IsContinuation(0x80 + cp % 64)
    ensures (cp / 64) * 64 + cp % 64 == cp
  {
  }

  lemma Utf8ThreeBytes(cp: int)
    requires 0x800 <= cp < 0x1_0000
    ensures 0xE0 <= 0xE0 + cp / 4096 < 0xF0
    ensures IsContinuation(0x80 + (cp / 64) % 64) && IsContinuation(0x80 + cp % 64)
    ensures (cp / 4096) * 4096 + ((cp / 64) % 64) * 64 + cp % 64 == cp
  {
    var q := cp / 64;
    assert cp == q * 64 + cp % 64;
    assert q == (q / 64) * 64 + q % 64;
    assert q / 64 == cp / 4096;
  }

  lemma Utf8FourBytes(cp: int)
    requires 0x1_0000 <= cp < 0x11_0000
    ensures 0xF0 <= 0xF0 + cp / 262144 < 0xF8
    ensures IsContinuation(0x80 + (cp / 4096) % 64)
    ensures IsContinuation(0x80 + (cp / 64) % 64) && IsContinuation(0x80 + cp % 64)
    ensures (cp / 262144) * 262144 + ((cp / 4096) % 64) * 4096 + ((cp / 64) % 64) * 64 + cp % 64 == cp
  {
    var q := cp / 64;
    var r := cp / 4096;
    assert cp == q * 64 + cp % 64;
    assert q == (q / 64) * 64 + q % 64;
    assert q / 64 == r;
    assert r == (r / 64) * 64 + r % 64;
    assert r / 64 == cp / 262144;
  }

  /** The UTF-8 bytes of `c` announce their own length and decode to `c`. */
  lemma Utf8RoundTrip(c: char)
    ensures SequenceLength(Utf8(c)[0]) == |Utf8(c)|
    ensures Utf8Value(Utf8(c)) == Some(c)
  {
    var cp := c as int;
    if 0x80 <= cp < 0x800 {
      Utf8TwoBytes(cp);
    } else if 0x800 <= cp < 0x1_0000 {
      Utf8ThreeBytes(cp);
    } else if 0x1_0000 <= cp {
      Utf8FourBytes(cp);
    }
  }

  lemma DecodeEncodeChar(c: char, rest: string)
    ensures Decode(EncodeChar(c) + rest) ==
      (match Decode(rest) case None => None case Some(t) => Some([c] + t))
  {
    var s := EncodeChar(c) + rest;
    if IsUnreserved(c) {
      assert s[1..] == rest;
    } else {
      var bs := Utf8(c);
      Utf8RoundTrip(c);
      EscapedBytesOfPercentEncode(bs, rest);
      assert EscapedByte(s) == Some(bs[0]);
    }
  }

  /** `decodeURIComponent(encodeURIComponent(s)) == s` for every string. */
  lemma {:induction false} DecodeEncode(s: string)
    ensures Decode(Encode(s)) == Some(s)
    decreases |s|
  {
    if |s| > 0 {
      DecodeEncode(s[1..]);
      DecodeEncodeChar(s[0], Encode(s[1..]));
      assert [s[0]] + s[1..] == s;
    }
  }
}
